=== FILE: README.md ===
# Customer review report pipeline: a Dafny model

The repository turns e-commerce customer reviews into an insight report. It
works in five parts:

- **First labelling** (`1-first_label.py`). A language model labels each review
  with a user profile (gender, occupation, consumption scene, frequency, and
  thrill, pain and itch points) and a list of product topics with polarities.
  The stage skips reviews it has already processed, and it flattens the
  analysis results into one table row per topic item.
- **Second correction** (`2-second_data_correction.py`). For each profile field,
  and for the product topics, this stage collects the raw labels stored in
  MongoDB. It asks a language model for a small set of canonical categories and
  assigns every raw label the category it is most similar to. It then writes the
  category back under `user_profile.new_<field>` (with `update_many`) or as each
  topic item's `new_topic` (with `update_one`).
- **Report aggregation** (`3-process_single_part_report_data-topic.py`). This stage
  counts profile values and topic polarities for one project and solution. It
  computes rates and ranks the top topics. It attaches model-written summaries
  and places every often-mentioned topic in one of four quadrants (mention rate
  against satisfaction).
- **Insight prompts** (`prompts.py`) turn the report into the prompts for the
  insight texts.
- **Read API and frontend helpers.** The read API (`backend/routers/data_result.py`)
  pages and looks up stored reports. The frontend helpers rank, filter, place and
  colour what the report pages show.

Shared concerns are modelled once:

- the token accounting (`token_logger.py` and the copies inside the two stage scripts);
- the retry wrapper;
- the BSON-to-JSON conversion.

The store is a sequence of immutable records, and every database operation is a
pure function on it. The model takes the following as parameters and never
calls them:

- the language-model calls;
- the sentence-embedding similarity;
- random sampling;
- the jitter;
- number formatting;
- the square root.

The modules follow the program:

| module | covers |
|---|---|
| `Base` | `Option`, `Result`, lookup in association lists, the guarded ratio |
| `Text` | strip, split, join, replace, decimal and hexadecimal digits |
| `Tally` | counting |
| `Ordering` | the stable descending sort and top-N |
| `Records` | the `llm_results` documents |
| `Assignment` | argmax over similarities |
| `Correction` | second correction |
| `ClassificationPrompts` | the two classification prompts |
| `Profiles` | profile statistics of the report |
| `Aggregation` | topic statistics, rankings, quadrants |
| `Comments` | comment selection and sampling |
| `TokenCounter` | token accounting |
| `Retry` | the retry wrapper |
| `BsonJson` | BSON to JSON |
| `FirstLabel` | first labelling |
| `InsightPrompts` | insight prompt data lines |
| `DataResultApi` | the read API |
| `ReportTheme` | the report theme context |
| `QuadrantChart` | the quadrant chart geometry |
| `ProductAnalysis` | the product analysis section |
| `UserProfileSection` | the user profile section |
| `InsightPanel` | the insight panel style |

## Model

| member | source | states |
|---|---|---|
| Base.Ratio | 2-second_data_correction.py:398 | a ratio guarded by a zero divisor is 0 for an empty divisor and otherwise multiplies back to the dividend |
| Tally.Count | 2-second_data_correction.py:383-391 | occurrences of a value are at most the length and zero exactly when the value is absent |
| Tally.Distinct | 2-second_data_correction.py:383-391 | the keys of a `Counter` are duplicate-free and are exactly the counted values |
| Tally.DistinctOrder | 3-process_single_part_report_data-topic.py:220-231 | the keys of a `Counter` come in order of first occurrence |
| Tally.ValueCounts | 2-second_data_correction.py:394-404 | `counter.items()` gives one pair per distinct value, with that value's number of occurrences |
| Tally.ValueCountsSum | 2-second_data_correction.py:383-404 | the counts of a `Counter` add up to the number of values counted |
| Tally.DistinctCountsSum | 2-second_data_correction.py:383-404 | the counts of the distinct values add up to the number of values |
| Ordering.SortDesc | 3-process_single_part_report_data-topic.py:627-631 | `sorted(..., reverse=True)` is a permutation of its input, ordered by non-increasing key |
| Ordering.SortDescStable | 3-process_single_part_report_data-topic.py:627-631 | the sort is stable: elements of equal key keep their input order |
| Ordering.SliceTo | frontend/src/components/insight/ProductAnalysisSection.js:30-32 | `slice(0, n)` and `[:n]` give the first `n` elements, clipped to the length, or all but the last `-n` when `n` is negative |
| Ordering.SortSlice | frontend/src/components/insight/ProductAnalysisSection.js:29-32 | sort-then-slice keeps at most `n` elements, non-increasing, drawn from the input, and nothing left out outranks anything kept |
| Ordering.TopN | 3-process_single_part_report_data-topic.py:732-743 | the first `n` of the stable descending sort: `min(n, len)` elements, a sub-multiset, and no omitted element has a larger key |
| Ordering.FirstMaximal | 3-process_single_part_report_data-topic.py:667-683 | every non-empty sequence has an earliest element of maximal key |
| Ordering.SortDescHead | 3-process_single_part_report_data-topic.py:667-683 | the head of the stable descending sort is the earliest element of maximal key |
| Text.Strip | 2-second_data_correction.py:440-444 | `str.strip()` removes leading and trailing white space and nothing else |
| Text.BlankIffStripEmpty | 2-second_data_correction.py:440-444 | a string strips to empty exactly when every character is white space |
| Text.SplitJoin | frontend/src/components/insight/ProductAnalysisSection.js:108-111 | joining non-empty, separator-free parts and splitting again gives back the parts |
| Text.DecimalRoundTrip | frontend/src/components/insight/UserProfileSection.js:67-94 | the decimal text of a natural number reads back as that number |
| Text.HexPairBound | frontend/src/components/insight/InsightPanel.js:66-69 | two hexadecimal digits denote a value of at most 255 |
| Records.ProfileValue | 2-second_data_correction.py:387-389 | an absent profile field reads as the empty string; a present one, including a stored null, reads as stored |
| Records.ItemGet | 3-process_single_part_report_data-topic.py:254-255 | `item.get(key)` is present exactly when the key is, with the stored value |
| Records.Scoped | 2-second_data_correction.py:377-380 | the documents the project and solution filter selects, all of them and only them |
| Records.CountChanged | 2-second_data_correction.py:487-496 | the number of documents an update changed is zero exactly when the store is unchanged |
| Records.FieldValues | 3-process_single_part_report_data-topic.py:222-226 | one value per in-scope document in store order, an absent field reading as "" |
| Assignment.ArgMax | 2-second_data_correction.py:478-483 | `np.argmax` returns an index of a maximal element, before which every element is strictly smaller |
| Assignment.AssignIndex | 2-second_data_correction.py:478-483 | the assigned category scores highest for the raw label, and the first such category is chosen on a tie |
| Assignment.Assign | 2-second_data_correction.py:478-483 | a raw label is assigned a proposed category that no other category outscores |
| Assignment.AssignIsFirstBest | 2-second_data_correction.py:478-483 | the assignment is fully determined by the scores: it is the earliest unbeaten category |
| ClassificationPrompts.ProfilePrompt | prompts.py:78-100 | the profile prompt carries the raw categories and the category type verbatim |
| ClassificationPrompts.TopicPrompt | prompts.py:102-130 | the topic prompt carries the raw topics verbatim and the scene "电商商品" + product type + "评价分析" |
| ClassificationPrompts.RenderEmbedsInputs | prompts.py:78-130 | both inputs appear verbatim in the rendered prompt, each right after its heading |
| ClassificationPrompts.RenderDistinguishesOrigins | prompts.py:78-130 | two prompts with the same template and raw-category texts of equal length render alike only if their raw categories and scene agree |
| Correction.StatRows | 2-second_data_correction.py:394-404 | one row per distinct value in first-occurrence order, with its count and its share of all values |
| Correction.FieldStatsComplete | 2-second_data_correction.py:360-406 | a field's counts add up to the number of in-scope documents; every document's value is listed, each once |
| Correction.StatRowsComplete | 2-second_data_correction.py:383-404 | the rows' counts add up to the number of values and list every value exactly once |
| Correction.ProfileStats | 2-second_data_correction.py:360-406 | `get_profile_stats` gives the rows of each requested field, in order |
| Correction.NonBlankLabels | 2-second_data_correction.py:440-444 | exactly the present values that are not blank after stripping survive the filter |
| Correction.NonBlankLabelsDistinct | 2-second_data_correction.py:440-444 | filtering distinct values leaves distinct labels |
| Correction.ProfileLabels | 2-second_data_correction.py:440-444 | the raw labels are the non-blank values of the statistics rows: all of them, only them, each once |
| Correction.TopicValues | 2-second_data_correction.py:549-553 | `$match` and `$unwind` yield the topic of every item of every in-scope topic list, and nothing else: every listed value is the topic of some in-scope item |
| Correction.TopicLabels | 2-second_data_correction.py:549-556 | the raw topics are distinct and non-blank; they include every non-blank topic of an in-scope item, and each is the topic of some in-scope item |
| Correction.AssignAll | 2-second_data_correction.py:478-484 | the audit table gives each raw label, in order, the proposed category assigned to it |
| Correction.AssignAllFunctional | 2-second_data_correction.py:478-484 | the audit table maps each label to one category |
| Correction.NewKey | 2-second_data_correction.py:487-496 | the corrected value goes under `new_<field>`, never the raw field itself |
| Correction.SetCategory | 2-second_data_correction.py:487-496 | `$set` on `new_<field>` leaves the raw field as it was |
| Correction.UpdateMany | 2-second_data_correction.py:487-496 | `update_many` rewrites exactly the in-scope documents holding the raw value, and `modified_count` counts the changed documents |
| Correction.ApplyRows | 2-second_data_correction.py:484-496 | the write-back loop keeps every document position |
| Correction.Corrected | 2-second_data_correction.py:484-496 | a document is either unchanged or gets the category of its raw value's audit row; out-of-scope documents are unchanged |
| Correction.ApplyRowsCorrects | 2-second_data_correction.py:484-496 | the sequential `update_many` loop corrects every document independently of row order, and the summed `modified_count` is the number of changed documents |
| Correction.CountChangedSplit | 2-second_data_correction.py:484-496 | `modified_count` adds up across successive updates that do not undo each other |
| Correction.ApplyRowsIdempotent | 2-second_data_correction.py:484-496 | running the write-back a second time changes nothing and modifies no document |
| Correction.CorrectedIdempotent | 2-second_data_correction.py:484-496 | correcting a corrected document is a no-op |
| Correction.NormalizeField | 2-second_data_correction.py:409-517 | a failed proposal stops the field before any write; an empty category list raises `ValueError` before any write exactly when there are raw labels, and with no raw labels the run completes with no rows; a completed run assigns every raw label a proposed category, corrects every document and counts the changes; out-of-scope documents are never written |
| Correction.NormalizeFieldCovers | 2-second_data_correction.py:440-496 | after a completed run, every in-scope document with a non-blank listed raw value holds its assigned proposed category under `new_<field>` |
| Correction.NormalizeFieldWritesOnlyNewKey | 2-second_data_correction.py:487-496 | a run writes only `new_<field>` of in-scope documents; every other key and document is unchanged |
| Correction.CorrectedWritesOnlyNewKey | 2-second_data_correction.py:487-496 | correcting a document touches no key but `new_<field>` |
| Correction.NewTopic | 2-second_data_correction.py:616-620 | a blank, missing or unmapped topic becomes "未知"; a mapped one becomes its category |
| Correction.RewriteItems | 2-second_data_correction.py:607-620 | each item is copied with `new_topic` added, in order |
| Correction.RewriteRecord | 2-second_data_correction.py:607-630 | an in-scope document with a topic list gets the rewritten list and `second_correction_model`; any other is untouched |
| Correction.UpdatedPositions | 2-second_data_correction.py:607-630 | `update_one` reaches exactly the in-scope documents with a topic list, once each, in store order |
| Correction.RewriteTopics | 2-second_data_correction.py:607-630 | the topic rewrite loop rewrites every document as `RewriteRecord` says and counts the changed ones |
| Correction.RewriteKeepsItems | 2-second_data_correction.py:616-620 | a rewritten item keeps every other key and value and gains `new_topic` |
| Correction.RewriteTopicsIdempotent | 2-second_data_correction.py:607-630 | rewriting topics twice with the same mapping equals rewriting once, and the second pass modifies nothing |
| Correction.RewriteRecordIdempotent | 2-second_data_correction.py:607-630 | rewriting a rewritten document changes nothing |
| Correction.NormalizeTopics | 2-second_data_correction.py:520-637 | a failed proposal stops the topic run before any write; an empty category list raises `ValueError` before any write exactly when there are raw topics; otherwise the run completes: every raw topic gets a proposed category and every in-scope topic list is rewritten, with "未知" for every topic when there are no raw topics |
| Correction.NormalizeTopicsCovers | 2-second_data_correction.py:590-630 | after a completed run, every in-scope item has `new_topic`: "未知" for a blank topic, the assigned proposed category otherwise |
| Correction.ProcessFields | 2-second_data_correction.py:661-676 | each configured field is processed in order on statistics taken once; an exception ends the loop keeping earlier writes; out-of-scope documents are never written |
| Correction.ProcessFieldsResults | 2-second_data_correction.py:661-676 | every recorded result is its field's audit rows, computed from the shared statistics, and no recorded field raised |
| Correction.ProcessFieldsRaised | 2-second_data_correction.py:661-676 | a raised exception is the one the first unrecorded field raises |
| Correction.ProcessFieldsCovers | 2-second_data_correction.py:661-676 | when no field raised, every in-scope document with a listed label for a configured field holds that label's assigned category under `new_<field>` |
| Correction.ProcessFieldsKeepsRest | 2-second_data_correction.py:661-676 | the field loop changes nothing of a document but its profile |
| Correction.ProcessFieldsWritesOnlyNewKeys | 2-second_data_correction.py:661-676 | the field loop writes no profile key other than the configured fields' `new_` keys |
| Correction.DefaultFieldsApart | 2-second_data_correction.py:649-658 | the default fields are distinct, and none is the `new_` key of another |
| Correction.Keys | 2-second_data_correction.py:661 | `list(fields_config.keys())` in configuration order |
| Correction.ProcessAllFields | 2-second_data_correction.py:639-678 | without an exception every configured field has a result; out-of-scope documents are never written |
| Correction.ProcessAllFieldsCovers | 2-second_data_correction.py:639-678 | when nothing raised, every in-scope document labelled in a configured field holds its label's assigned category |
| Correction.RunFullCorrection | 2-second_data_correction.py:680-703 | the topic stage runs exactly when the profile stage did not raise, on the store it left; out-of-scope documents are never written |
| Correction.NormalizeTopicsKeepsProfiles | 2-second_data_correction.py:607-630 | the topic rewrite leaves every profile as it was |
| Correction.FieldsKeepTopicLabels | 2-second_data_correction.py:661-676 | the profile stage leaves the topic labels the topic stage reads unchanged |
| Correction.RunFullCorrectionCoversTopics | 2-second_data_correction.py:680-703 | after a full run whose topic stage completed, every in-scope topic item holds its `new_topic` |
| Correction.RunFullCorrectionCoversProfiles | 2-second_data_correction.py:680-703 | after a full run that reached the topic stage, every labelled in-scope document holds the assigned category of each default field; the topic stage does not undo it |
| Profiles.KeptValues | 3-process_single_part_report_data-topic.py:232-237 | exactly the values that are not "未知", "未指定" or "" are kept, and distinct values stay distinct |
| Profiles.KeptValuesOrder | 3-process_single_part_report_data-topic.py:230-237 | dropping the placeholders keeps the order of first occurrence |
| Profiles.ProfileCounts | 3-process_single_part_report_data-topic.py:210-240 | one entry per distinct kept value with its positive number of in-scope documents, in order of first occurrence among them; every kept value appears once |
| Profiles.CountsOf | 3-process_single_part_report_data-topic.py:222-240 | the entries count exactly the kept distinct values, each once, in order of first occurrence |
| Profiles.TopProfile | 3-process_single_part_report_data-topic.py:667-683 | a field's top profile is the earliest entry of maximal count, absent for a field without entries |
| Profiles.AttachProfileSummaries | 3-process_single_part_report_data-topic.py:650-664 | only the top-N entries get a summary, and only a non-empty one; values and counts are kept |
| Profiles.FieldEntries | 3-process_single_part_report_data-topic.py:305-347 | a summary appears only on a summary field, is non-empty, and only for a value some comment has |
| Profiles.TopProfiles | 3-process_single_part_report_data-topic.py:667-683 | `top_profile` has exactly the fields with entries, each mapped to its top entry |
| Profiles.ProcessUserProfiles | 3-process_single_part_report_data-topic.py:608-690 | the profile section lists every profile field in report order, with a top profile exactly for each non-empty field |
| Comments.CommentsFor | 3-process_single_part_report_data-topic.py:143-184 | the comments are those of exactly the selected documents; other criteria give none |
| Comments.CommentsForCount | 3-process_single_part_report_data-topic.py:166-182 | each selected document contributes one comment, however many of its items match |
| Comments.SelectedNone | 3-process_single_part_report_data-topic.py:184 | an unknown criteria type selects no document |
| Comments.SampleComments | 3-process_single_part_report_data-topic.py:186-198 | nothing from nothing; everything up to the maximum; otherwise exactly the maximum, from distinct positions |
| Comments.PicksSubMultiset | 3-process_single_part_report_data-topic.py:186-198 | a sample from distinct positions never repeats a comment more often than it occurs |
| Aggregation.Bump | 3-process_single_part_report_data-topic.py:259-260 | one counted mention raises the total and the polarity counts by one each |
| Aggregation.CountPol | 3-process_single_part_report_data-topic.py:255-260 | the reference count of one topic and polarity, against which the scan invariant (`Record1`, `ScanStepEntries`, `Scan`) is stated; it never exceeds the number of items |
| Aggregation.CountPolZero | 3-process_single_part_report_data-topic.py:254-260 | a topic and polarity count zero exactly when no item names that topic with that polarity |
| Aggregation.Record1 | 3-process_single_part_report_data-topic.py:256-260 | one counted mention bumps its topic's entry, or appends a new one, and leaves the others alone |
| Aggregation.Scan | 3-process_single_part_report_data-topic.py:252-261 | the corrected scan gives every topic with a counted mention exactly its polarity counts, with no topic twice |
| Aggregation.ScanStepEntries | 3-process_single_part_report_data-topic.py:256-260 | after one counted item every entry carries exactly the expected counts |
| Aggregation.ScanAsWritten | 3-process_single_part_report_data-topic.py:252-266 | the scan as written raises `KeyError` or agrees with the corrected scan |
| Aggregation.ScanAsWrittenAllCounted | 3-process_single_part_report_data-topic.py:252-266 | when every item is counted, the scan as written does not raise |
| Aggregation.ScanAsWrittenRaises | 3-process_single_part_report_data-topic.py:263-266 | an item with an unknown polarity makes the scan as written raise where the corrected scan skips it |
| Aggregation.WithRatios | 3-process_single_part_report_data-topic.py:263-266 | the good ratio, neutral-plus-bad ratio and mention rate multiply back to their counts |
| Aggregation.WithRatiosAll | 3-process_single_part_report_data-topic.py:263-266 | the ratios are attached to every counted topic, in order |
| Aggregation.TopicPolarityStats | 3-process_single_part_report_data-topic.py:242-268 | every topic with a counted mention in scope appears once with its exact counts and ratios, and its mention rate divides by a positive number of documents |
| Aggregation.StatsHaveDocuments | 3-process_single_part_report_data-topic.py:242-276 | counted topics imply at least one document to divide by |
| Aggregation.SumsBalanced | 3-process_single_part_report_data-topic.py:704-719 | when every topic's polarities add up to its total, the sums over topics do too |
| Aggregation.Totals | 3-process_single_part_report_data-topic.py:704-724 | the overall topic count is the number of topics; the good, neutral, bad and total counts are the sums of the topics' counts, and the three add up to the total; both rates are 0 without mentions and otherwise multiply back to their counts |
| Aggregation.Pairs | 3-process_single_part_report_data-topic.py:732-743 | one (topic, count) pair per topic, in order |
| Aggregation.TopTopics | 3-process_single_part_report_data-topic.py:732-743 | exactly `n` pairs, or every topic when there are fewer, by non-increasing count, each a topic with its own count and none twice; no topic left out has a larger count than one kept |
| Aggregation.TopGood | 3-process_single_part_report_data-topic.py:732-737 | `top_good_topics` holds the first `n` topics by good mentions, or all of them, and none left out has more good mentions than one kept |
| Aggregation.TopBad | 3-process_single_part_report_data-topic.py:738-743 | `top_bad_topics` holds the first `n` topics by neutral plus bad mentions, or all of them, and none left out has more such mentions than one kept |
| Aggregation.AttachSummaries | 3-process_single_part_report_data-topic.py:759-812 | only listed topics with a non-empty summary get one; nothing else changes |
| Aggregation.QuadrantOf | 3-process_single_part_report_data-topic.py:838-853 | exactly one quadrant: 1 or 2 exactly when the mention rate is at least the average, 1 or 3 exactly when the satisfaction is |
| Aggregation.SumBelow | 3-process_single_part_report_data-topic.py:822-834 | values all below a bound sum below `n` times that bound |
| Aggregation.SomeAtLeastMean | 3-process_single_part_report_data-topic.py:822-834 | some value reaches the mean |
| Aggregation.PlacedIndices | 3-process_single_part_report_data-topic.py:817-820 | exactly the topics mentioned more than 30 times are placed |
| Aggregation.PlaceTopics | 3-process_single_part_report_data-topic.py:817-853 | every topic mentioned more than 30 times gets the quadrant of its rates against the averages over those topics; every other topic is unchanged |
| Aggregation.SomeHighMention | 3-process_single_part_report_data-topic.py:822-853 | when any topic is placed, some placed topic is on the high-mention side |
| Aggregation.ProcessTopics | 3-process_single_part_report_data-topic.py:693-876 | the topic section lists the topics of `topic_polarity_stats` for the same scope, in order with their counts; it sums each total over the topics and balances them, counts its topics, derives the rates from the sums, records the averages over the placed topics and places each against them, ranks `n` topics each way with none left out outranking one kept, places exactly the topics above 30 mentions, and gives good summaries only to top good topics |
| Aggregation.TopicStage | 3-process_single_part_report_data-topic.py:693-876 | for any balanced statistics, the section keeps every topic's counts and satisfies the same report properties, including totals summed over the topics and placements against the averages over the placed topics |
| Aggregation.StageTotals | 3-process_single_part_report_data-topic.py:856-857 | the stage totals are the sums of the topics' counts, balance, carry the rates of `Totals`, and carry the given mention and satisfaction averages |
| Aggregation.StatsShape | 3-process_single_part_report_data-topic.py:242-268 | freshly counted topics balance and carry no summary or quadrant |
| Aggregation.PlaceStage | 3-process_single_part_report_data-topic.py:759-853 | after summarising and placing, a topic has a quadrant in 1..4 exactly when it is mentioned more than 30 times; the averages are those of the statistics, and each placed topic's quadrant is that of its rates against them |
| Aggregation.PlacedAgainstAverages | 3-process_single_part_report_data-topic.py:817-853 | attaching summaries does not change the averages, and each placed topic's quadrant is that of its own rates against the averages |
| Aggregation.SummariesKeepAverages | 3-process_single_part_report_data-topic.py:817-838 | topics that differ only in their summaries give the same placed set and the same averages |
| Aggregation.ReportTotalsAddUp | 3-process_single_part_report_data-topic.py:703-725 | in a topic section the overall counts are the sums of the listed topics' own counts |
| TokenCounter.AddAt | token_logger.py:100-109 | adding to a present key keeps the keys and raises that key's value and the sum by `n` |
| TokenCounter.AddTo | token_logger.py:100-109 | `d[key] += n` or `d[key] = n`: the key's value and the sum rise by `n`; a new key goes last |
| TokenCounter.AddUsage | token_logger.py:78-111 | a zero token count changes nothing; otherwise every counter advances by the call's amounts, and the per-model and per-operation totals keep adding up to the overall total |
| TokenCounter.Replay | token_logger.py:63-111 | after any sequence of calls the dictionaries add up to the total |
| TokenCounter.ReplayTotals | token_logger.py:78-111 | after any calls the total is the sum of all tokens, the call count is the number of non-zero calls, and the prompt and completion counters sum what those calls reported |
| TokenCounter.ReplayByModel | token_logger.py:100-104 | each model's entry holds exactly the tokens of the calls made for it, and an unused model reads 0 |
| TokenCounter.ReplayByOperation | token_logger.py:106-109 | each operation's entry holds exactly the tokens of the calls made for it, and an unused operation reads 0 |
| TokenCounter.SeventyPercent | token_logger.py:119-122 | the prompt share is seven tenths of the total rounded down, never more than the total |
| TokenCounter.GetReport | token_logger.py:113-147 | the report carries the counter's totals, call count and per-model and per-operation tallies; without recorded prompt and completion tokens it estimates 70/30 and stores the estimate; the input and output costs are the prompt and completion tokens at 0.0000015 and 0.000002 each, adding up to the total cost; the average multiplies back to the total |
| TokenCounter.GetReportStable | token_logger.py:113-147 | a second report changes the counter no further |
| Retry.CallWithRetry | token_logger.py:183-207 | the wrapper calls until the first success within `max_retries + 1` calls, re-raises the last failure, returns `None` for a negative budget, and sleeps within the jittered back-off |
| Retry.RetryRecovers | token_logger.py:183-207 | if some call within the budget succeeds, the first such value is returned |
| Retry.RetryUnfold | token_logger.py:190-204 | one loop step: a success returns, a failure with budget left retries, a failure without re-raises |
| Retry.SleepTime | token_logger.py:203 | the jittered sleep lies between half and one and a half times the back-off |
| Retry.Backoff | token_logger.py:203 | the back-off is non-negative |
| Retry.AppendSleep | token_logger.py:203-204 | recording a sleep within its range keeps every sleep within its range |
| Retry.RetryAsWritten | 2-second_data_correction.py:230-252 | the second script's wrapper either behaves as intended or raises `NameError`, and it returns only the first call's value, because its back-off reads a module it never imported |
| Retry.AsWrittenNeverRetries | 2-second_data_correction.py:244-250 | as written, a first failure with retries left ends in `NameError` |
| Retry.AsWrittenLosesRecovery | 2-second_data_correction.py:230-252 | three retries, a failing first call and a succeeding second: `NameError` as written, the value as intended |
| Retry.AsWrittenAgreesWithoutRetry | 2-second_data_correction.py:230-252 | without a failed first call or without retries, the wrapper as written behaves as intended |
| BsonJson.ToJson | 1-first_label.py:211-236 | `None` maps to `None`; otherwise the same keys in order, each value converted |
| BsonJson.ConvertRules | 1-first_label.py:223-235 | ObjectId and datetime become strings, a dict is converted recursively, and a list converts dicts and ObjectIds one level down |
| BsonJson.PlainIffConvertible | 1-first_label.py:211-236 | the output is free of ObjectId and datetime exactly when no datetime sits directly in a list and no nested list holds one |
| BsonJson.ConvertIdempotent | 1-first_label.py:211-236 | converting twice is converting once |
| FirstLabel.ProcessedIds | 1-first_label.py:588-606 | the processed ids are exactly the truthy stored review ids |
| FirstLabel.UnprocessedQuery | 1-first_label.py:626-632 | the query scopes by project and adds `$nin` exactly when something was processed |
| FirstLabel.UnprocessedSelects | 1-first_label.py:588-641 | a review of the project is fetched exactly when its id is missing, empty, or not among the processed ids |
| FirstLabel.RowsOf | 1-first_label.py:685-695 | one row per topic item of a result, in order |
| FirstLabel.ProcessAnalysisResults | 1-first_label.py:663-695 | no results give an empty table |
| FirstLabel.ProcessAppend | 1-first_label.py:663-695 | flattening distributes over concatenation of the results |
| FirstLabel.ProcessLayout | 1-first_label.py:663-695 | the table has one row per topic item, and item `j` of result `k` sits at that result's offset plus `j` with its own fields |
| InsightPrompts.LabelOfNewField | prompts.py:161-168 | a corrected field's label is its raw field name |
| InsightPrompts.ProfileBlock | prompts.py:161-168 | a field with a value and a positive count gives its value line, then its summary line when non-empty; otherwise nothing |
| InsightPrompts.ProfileLines | prompts.py:161-168 | the profile lines start with a value line |
| InsightPrompts.ShownProfiles | prompts.py:161-168 | at most one shown profile per field |
| InsightPrompts.ProfileLinesRoundTrip | prompts.py:149-173 | the profile lines read back as exactly the shown fields with their values, counts and summaries, in order |
| InsightPrompts.QuadrantSection | prompts.py:194-206 | a quadrant's section lists its first three topics, counts the rest in one line when there are more, or says "无话题" when empty |
| InsightPrompts.QuadrantSectionAccounts | prompts.py:194-206 | every topic of a quadrant is accounted for, listed or counted |
| InsightPrompts.QuadrantOrder | prompts.py:175-211 | the sections come once each, for quadrants 1, 2, 3 and 4 in that order |
| InsightPrompts.SectionHeaders | prompts.py:194-206 | a section opens exactly one quadrant |
| InsightPrompts.CountPairs | prompts.py:217-226 | each topic paired with its count: the statistics total, or the bare count |
| InsightPrompts.TopFive | prompts.py:229 | at most five topics by non-increasing count, none left out outranking one kept |
| InsightPrompts.TopicBlock | prompts.py:245-259 | a topic's lines give its heading, its good and neutral-plus-bad counts exactly when positive, and each summary exactly when non-empty |
| InsightPrompts.BlockTail | prompts.py:247-259 | no further heading inside a topic's block |
| InsightPrompts.TopicLines | prompts.py:245-259 | the per-topic loop raises exactly when a listed topic fails: `AttributeError` on a bare count, `ZeroDivisionError` on a listed count of 0 with a count line due; the error is that of the first failing topic |
| InsightPrompts.TopicLinesHeadings | prompts.py:245-259 | when the loop completes, it emits one heading per listed topic, in order, with the listed counts |
| InsightPrompts.TopicInsightLines | prompts.py:213-263 | the topic prompt fails exactly when one of the top five topics fails; otherwise its headings are the top five topics by count |
| InsightPrompts.OverallInsight | prompts.py:265-335 | the overall prompt raises `AttributeError` on any bare count and `ZeroDivisionError` when a top-five topic with a zero total has a count line due, and only then; otherwise it carries the quadrant summary or the placeholder, the shown profiles, and the top five topics |
| InsightPrompts.NoCountOnlyDivides | prompts.py:269-321 | without bare counts the only error left is the division by a zero count |
| InsightPrompts.PositiveCountsNoError | prompts.py:245-259 | without bare counts and with positive listed counts the per-topic loop completes |
| DataResultApi.FillDefaults | backend/routers/data_result.py:89-99 | present values are never touched; missing token fields default from `token_usage` or 0; the list route alone supplies the stock quadrant insight |
| DataResultApi.FillDefaultsStable | backend/routers/data_result.py:89-99 | filling defaults into a filled document gives the same values |
| DataResultApi.BuildQuery | backend/routers/data_result.py:71-77 | one equality per non-empty parameter, no field twice, nothing else |
| DataResultApi.QueryMeaning | backend/routers/data_result.py:71-83 | a document is listed exactly when it agrees with every given parameter |
| DataResultApi.Matching | backend/routers/data_result.py:80-83 | the matches are exactly the documents satisfying the query |
| DataResultApi.ListResults | backend/routers/data_result.py:56-107 | an out-of-range skip or limit is a 422; otherwise the total counts all matches and the page holds the skipped-into, limit-bounded matches newest first, with defaults |
| DataResultApi.PageOf | backend/routers/data_result.py:83-102 | the page is the clipped window of the sorted matches, newest first |
| DataResultApi.FindOne | backend/routers/data_result.py:119-129 | `find_one` finds nothing exactly when no document is selected, and otherwise the first selected one |
| DataResultApi.ResultById | backend/routers/data_result.py:110-149 | 404 exactly when nothing is selected; otherwise the first selected document in collection order, with token defaults filled and no quadrant default |
| DataResultApi.RoutesAgreeOnTokens | backend/routers/data_result.py:89-142 | both routes agree on the token defaults and differ only in the quadrant default |
| ReportTheme.Config | frontend/src/context/ReportThemeContext.js:335 | the light theme's configuration for light blue, the dark green one for anything else |
| ReportTheme.Initial | frontend/src/context/ReportThemeContext.js:327-332 | a saved known theme is restored, anything else gives dark green, and the theme is persisted |
| ReportTheme.ChangeTheme | frontend/src/context/ReportThemeContext.js:338-342 | only a known theme changes the state, and it is persisted |
| ReportTheme.Run | frontend/src/context/ReportThemeContext.js:327-342 | after any sequence of changes the current theme is known and persisted |
| ReportTheme.LastKnown | frontend/src/context/ReportThemeContext.js:338-342 | the last known requested theme, when there is one, is a known theme that was requested |
| ReportTheme.RunMeaning | frontend/src/context/ReportThemeContext.js:327-342 | the current theme is the last known theme requested, or the restored one when none was |
| ReportTheme.ThemeOptions | frontend/src/context/ReportThemeContext.js:345-348 | one option per theme, in order, labelled with its configuration's name |
| ReportTheme.ThemeLabelsDistinct | frontend/src/context/ReportThemeContext.js:345-348 | the theme options have distinct labels |
| QuadrantChart.DetermineQuadrant | frontend/src/components/chart/MermaidQuadrantChart.js:76-81 | exactly one quadrant, split at the averages, and the same one the backend assigns to the unscaled rates |
| QuadrantChart.AgreesWithBackend | frontend/src/components/chart/MermaidQuadrantChart.js:76-81 | on the percentages it plots, the chart assigns the quadrant the backend stored |
| QuadrantChart.QuadrantColor | frontend/src/components/chart/MermaidQuadrantChart.js:64-73 | quadrants 1 to 4 take the theme's label colour, anything else black |
| QuadrantChart.QuadrantColorsDistinct | frontend/src/components/chart/MermaidQuadrantChart.js:64-73 | in both themes the four quadrants have four different colours |
| QuadrantChart.Statistics | frontend/src/components/chart/MermaidQuadrantChart.js:17-60 | a supplied centre is the average; no centre and no data centres on (50, 50) with spread 10; otherwise the means, with spread the root mean square distance |
| QuadrantChart.Clamp01 | frontend/src/components/chart/MermaidQuadrantChart.js:107-119 | the clamp lands in [0, 1] and keeps values already there |
| QuadrantChart.Normalize | frontend/src/components/chart/MermaidQuadrantChart.js:100-119 | a coordinate maps into [-1, 1], to 0 without spread, and to the edges beyond three deviations |
| QuadrantChart.NormalizeMonotone | frontend/src/components/chart/MermaidQuadrantChart.js:100-119 | a larger coordinate is never drawn nearer the low edge |
| QuadrantChart.NormalizeCentre | frontend/src/components/chart/MermaidQuadrantChart.js:100-119 | the average is drawn at the centre |
| QuadrantChart.PointToPosition | frontend/src/components/chart/MermaidQuadrantChart.js:84-127 | the position lies within 80% of the half-extent around the plot centre, with the point's own quadrant |
| ProductAnalysis.TopNOf | frontend/src/components/insight/ProductAnalysisSection.js:13-18 | `top_topics_count \|\| 5`: zero and absence give 5 |
| ProductAnalysis.Candidates | frontend/src/components/insight/ProductAnalysisSection.js:21-27 | the candidates are exactly the topics with a truthy summary, with their counts |
| ProductAnalysis.Ranking | frontend/src/components/insight/ProductAnalysisSection.js:16-53 | the ranking holds `topN` candidates, most counted first, and no omitted candidate outranks a shown one |
| ProductAnalysis.RankingOmitsNoLarger | frontend/src/components/insight/ProductAnalysisSection.js:16-53 | a candidate the ranking omits has no larger count than any shown topic |
| ProductAnalysis.GoodRanking | frontend/src/components/insight/ProductAnalysisSection.js:16-33 | the good ranking lists good-review counts of topics with a good summary |
| ProductAnalysis.BadRanking | frontend/src/components/insight/ProductAnalysisSection.js:36-53 | the bad ranking lists neutral-plus-bad counts of topics with a bad summary |
| ProductAnalysis.PointOf | frontend/src/components/insight/ProductAnalysisSection.js:65-72 | a point carries its topic's name, total and stored quadrant (0 when absent) |
| ProductAnalysis.PlottedPoints | frontend/src/components/insight/ProductAnalysisSection.js:75 | exactly the topics with more than ten mentions and a quadrant are plotted |
| ProductAnalysis.Shown | frontend/src/components/insight/ProductAnalysisSection.js:75-78 | at most 15 plotted points, most mentioned first, none omitted outranking one shown |
| ProductAnalysis.WithAverages | frontend/src/components/insight/ProductAnalysisSection.js:81-87 | every point gets the report's averages and is otherwise unchanged |
| ProductAnalysis.QuadrantData | frontend/src/components/insight/ProductAnalysisSection.js:56-88 | at most 15 points of plotted topics, most mentioned first, each with the report's averages as percentages |
| ProductAnalysis.QuadrantDataOmitsNoLarger | frontend/src/components/insight/ProductAnalysisSection.js:75-78 | a plotted topic the chart leaves out has no more mentions than any shown |
| ProductAnalysis.NamesIn | frontend/src/components/insight/ProductAnalysisSection.js:108-111 | exactly the names of the points in that quadrant |
| ProductAnalysis.Listed | frontend/src/components/insight/ProductAnalysisSection.js:108-111 | an empty quadrant reads "无" |
| ProductAnalysis.ListedRoundTrip | frontend/src/components/insight/ProductAnalysisSection.js:108-111 | a quadrant's list splits back into exactly its names |
| ProductAnalysis.SummaryLines | frontend/src/components/insight/ProductAnalysisSection.js:113-120 | eight lines, with lines 2 to 5 the headed lists of quadrants 1 to 4 |
| ProductAnalysis.QuadrantSummary | frontend/src/components/insight/ProductAnalysisSection.js:91-121 | the stored quadrant insight first, then the topic insight, else the generated text over the chart's points |
| ProductAnalysis.SummaryLinesRoundTrip | frontend/src/components/insight/ProductAnalysisSection.js:104-120 | the generated summary splits back into its lines, with quadrant `q`'s list on line `q + 1` |
| UserProfileSection.ParseCountRoundTrip | frontend/src/components/insight/UserProfileSection.js:67-94 | a count stored as a number, or as an integer's decimal text, reads back as that integer |
| UserProfileSection.ParseDigits | frontend/src/components/insight/UserProfileSection.js:67-94 | `parseInt` finds no number exactly when no digit follows |
| UserProfileSection.Distribution | frontend/src/components/insight/UserProfileSection.js:31-64 | one row per entry in order, named by its value, counted by its parsed count, and carrying the entry's summary exactly when summaries are asked for; empty for a missing field |
| UserProfileSection.Points | frontend/src/components/insight/UserProfileSection.js:67-94 | the top-N rows of a point field, each carrying its entry's summary, most counted first, no row shown more often than it occurs, none omitted outranking one shown |
| UserProfileSection.Card | frontend/src/components/insight/UserProfileSection.js:119-216 | the card rows are sorted by count; occupation and scene show five, none left out outranking one shown; gender and frequency show all |
| UserProfileSection.Total | frontend/src/components/insight/UserProfileSection.js:119-122 | the divisor is the sum of counts, or 1 when that is 0 |
| UserProfileSection.SharesSumToHundred | frontend/src/components/insight/UserProfileSection.js:119-122 | the percentages of a full card add up to 100 |
| UserProfileSection.StrokeColor | frontend/src/components/insight/UserProfileSection.js:21-28 | thrill is positive, pain negative, itch info, anything else primary |
| UserProfileSection.StrokeColorsDistinct | frontend/src/components/insight/UserProfileSection.js:21-28 | in both themes the three kinds of point get three different colours |
| InsightPanel.TypeColor | frontend/src/components/insight/InsightPanel.js:29-37 | the four known panel types take the theme's colours, anything else grey |
| InsightPanel.PanelIcon | frontend/src/components/insight/InsightPanel.js:42-46 | a supplied icon is kept, otherwise a 24px bulb in the accent colour |
| InsightPanel.RemoveFirstHash | frontend/src/components/insight/InsightPanel.js:65 | `replace('#', '')` drops a leading `#` and keeps a string without one |
| InsightPanel.ParseHexPair | frontend/src/components/insight/InsightPanel.js:66-69 | two hexadecimal digits parse as the byte they denote |
| InsightPanel.SixDigitColour | frontend/src/components/insight/InsightPanel.js:60-70 | a `#RRGGBB` colour gives its three bytes in decimal |
| InsightPanel.ShortFormExpands | frontend/src/components/insight/InsightPanel.js:66-68 | `#RGB` gives the same channels as `#RRGGBB` |
| InsightPanel.RgbaRoundTrip | frontend/src/components/insight/InsightPanel.js:60-63 | an `rgba(...)` colour gives back its three channels, whatever its alpha |
| InsightPanel.GreyChannelsAgree | frontend/src/components/insight/InsightPanel.js:36 | the grey fallback extracts to the channels the default style writes |
| InsightPanel.BgAndBorder | frontend/src/components/insight/InsightPanel.js:49-99 | background at alpha 0.12 and, when bordered, a 1px border at alpha 0.3, both from the accent colour's channels |
| InsightPanel.BackgroundKeepsChannels | frontend/src/components/insight/InsightPanel.js:49-70 | a panel's background carries its accent colour's channels |

## Left out

- MongoDB is not modelled. The store is a sequence of records, and each query or update is a pure function on it. Cursors, connections, indexes and `_id` generation are left out.
- The language-model calls become parameters: `Correction.Classifier`, the `summarize` parameters, and the profile and topic labelling of the first stage. The prompts sent for labelling and summarising are not modelled.
- Assignment.Assign: the sentence-embedding cosine similarity (`_cosine_sim`, 2-second_data_correction.py:288-290) is the `Scorer` parameter. The model does not claim what happens for zero vectors.
- Correction.NormalizeField: the scalar "未知" branch (2-second_data_correction.py:497-509) cannot be reached, because every label is assigned a proposed category. The model omits it.
- Correction.ProcessFields: the source isolates no error per field. An exception ends the loop, and the model records it in `raised` instead of propagating it.
- Correction.NewTopic: an item's values are strings, so a topic stored as null or as a number cannot be represented. The `AttributeError` that `.strip()` raises on such a value (2-second_data_correction.py:617) is not modelled.
- FirstLabel.Row: the labelled `confidence` is a number; the model carries it as a string like every other item value.
- Correction.TopicLabels: the order of the `$group` output is taken to be first occurrence. MongoDB leaves that order unspecified.
- DataResultApi.ListResults: documents with equal `process_time` keep their collection order, because the model sorts stably. MongoDB promises no order for such ties, so pages that split a tie may differ from the model.
- Aggregation.TopicPolarityStats: a stored topic list is either a list or absent, so a `product_topic_result` stored as null cannot be represented; the model skips such a document. In the source, null passes the `$exists`/`$ne: []` query (3-process_single_part_report_data-topic.py:244-248), `doc.get` returns it, and the `for` at line 254 raises `TypeError`. That error is not modelled.
- Comments.CommentsFor: likewise, a `product_topic_result` stored as null makes the topic branch raise `TypeError` (3-process_single_part_report_data-topic.py:168-173); the model selects no comment from such a document.
- FirstLabel.ProcessAnalysisResults: every result carries a list of topic items, so a result whose `product_topic_result` is missing or null cannot be represented. In the source such a row becomes NaN in the DataFrame, and iterating it raises `TypeError` (1-first_label.py:679-686); that error is not modelled.
- FirstLabel.UnprocessedQuery: the `limit` and cursor handling of `get_unprocessed_reviews` are left out. So are the first stage's thread pool (1-first_label.py:558-579) and its file output.
- Floating point is not modelled. Numbers are exact reals.
- TokenCounter.GetReport: costs and the average are exact. The source rounds the costs to six places and the average to one place.
- TokenCounter.SeventyPercent: the source computes `int(total * 0.7)` in floating point, and the model takes seven tenths rounded down exactly. The two differ for some totals, because 0.7 is stored slightly below seven tenths: a total of 90 gives 62 in the source and 63 here, 170 gives 118 and 119. `GetReport`'s 70/30 estimate inherits the difference.
- Correction.StatRows: `percent` is the exact ratio, not rounded to four places.
- UserProfileSection.Total: `toFixed(1)` is not applied to the percentages.
- QuadrantChart.Statistics: the square root is the `sqrt` parameter.
- ProductAnalysis.QuadrantSummary: `toFixed(1)` is the `fixed1` parameter.
- Comments.SampleComments: `random.sample` is given by the positions it picks, in the `picks` parameter.
- Retry.CallWithRetry: sleeps are recorded, not slept. `random.random()` is the `jitter` parameter.
- UserProfileSection.ParseInt: leading white space uses Python's `isspace` set, not JavaScript's.
- InsightPanel.ParseHexInt: leading white space uses the same Python `isspace` set, not the white space and line terminators that JavaScript's `parseInt` skips.
- Comments.CommentsFor: the queries of `get_comments_by_criteria` are not scoped by project or solution, and the model keeps that.
- Other text and I/O are left out:
  - the insight prompts' fixed prose: only the per-topic, quadrant and profile data lines are modelled, as `InsightPrompts.Line` values;
  - the topic overview lines of `topic_insight_prompt` and `overall_insight_prompt` (prompts.py:238-243 and 301-306): the topic count, the good, neutral and bad totals, and the two rates;
  - the percentage after each good and neutral-plus-bad count line; only the division by zero it can raise is modelled;
  - the summary prompt;
  - logging, timers, JSON and Excel output;
  - argument parsing and `main`.
- The backend is modelled only in part:
  - the application object, the database connection and the 500 error paths are left out;
  - `_id` becomes a string;
  - the `project_codes`, `solutions` and `models` distinct routes are left out;
  - the response model in `backend/models.py` is not part of this model.
- React rendering, CSS variable writes and the axios API client are left out. Local storage is the `persisted` field of `ReportTheme.ThemeState`. Only the colours the modelled components read are kept from each theme configuration.

## Findings

| source | as written | input that shows it | evidently intended | confidence | as-written member | corrected member |
|---|---|---|---|---|---|---|
| 2-second_data_correction.py:230-252 | the retry wrapper's back-off calls `random.random()`, but this module imports `random` only inside `main` (line 714), so the exception handler raises `NameError` | `max_retries=3`, a first call that raises and a second that succeeds: the wrapper raises `NameError` instead of returning the second call's value | retry with jittered back-off, as in `token_logger.py:183-207` | not executed | Retry.RetryAsWritten (counterexample Retry.AsWrittenLosesRecovery) | Retry.CallWithRetry (property Retry.RetryRecovers) |
| 3-process_single_part_report_data-topic.py:263-266 | the ratio update reads `stats[topic]` after the counting `if`, for every item, counted or not | a document whose only item is `{"topic": "音质", "polarity": "未提及"}`: `stats["音质"]` does not exist and `KeyError` is raised | update the ratios only for counted items, inside the `if` | not executed | Aggregation.ScanAsWritten (counterexample Aggregation.ScanAsWrittenRaises) | Aggregation.Scan (used by Aggregation.TopicPolarityStats) |

=== FILE: aggregation.dfy ===
/** The report stage's aggregation over the corrected `llm_results`
    documents: per-topic polarity counts, overall totals, the top-N topic
    lists, the four-quadrant classification and the user-profile value
    counts. */
module Aggregation {
  import opened Base
  import opened Tally
  import opened Ordering
  import opened Records

  const Good := "好评"
  const Bad := "差评"
  const Neutral := "中评"

  /** Only topics mentioned more than this many times are placed in a
      quadrant. */
  const QuadrantMinMentions := 30

  /** The sampling configuration: at most this many comments per summary,
      and this many topics in each top list. */
  const MaxReviews := 30
  const TopTopicsCount := 5

  predicate IsPolarity(p: string) {
    p == Good || p == Bad || p == Neutral
  }

  /** An item is counted when its topic is a non-empty string and its
      polarity is one of the three known ones. */
  predicate Counted(item: TopicItem) {
    "topic" in item && item["topic"] != ""
    && "polarity" in item && IsPolarity(item["polarity"])
  }

  /** The running counts for one topic. */
  datatype Tallies = Tallies(good: nat, bad: nat, neutral: nat, total: nat)

  /** One more mention with polarity `p`. */
  function Bump(c: Tallies, p: string): (r: Tallies)
    requires IsPolarity(p)
    ensures r.total == c.total + 1
    ensures r.good + r.bad + r.neutral == c.good + c.bad + c.neutral + 1
  {
    if p == Good then c.(good := c.good + 1, total := c.total + 1)
    else if p == Bad then c.(bad := c.bad + 1, total := c.total + 1)
    else c.(neutral := c.neutral + 1, total := c.total + 1)
  }

  /** The topics of an association list, in order. */
  predicate HasKey<V>(stats: seq<(string, V)>, t: string) {
    exists i :: 0 <= i < |stats| && stats[i].0 == t
  }

  predicate UniqueKeys<V>(stats: seq<(string, V)>) {
    forall i, j :: 0 <= i < j < |stats| ==> stats[i].0 != stats[j].0
  }

  /** The items of the documents the polarity scan reads: in-scope documents
      whose `product_topic_result` is a non-empty list, flattened in store
      order. */
  function ScanItems(docs: Store): (items: seq<TopicItem>)
  {
    if docs == [] then []
    else
      var last := docs[|docs| - 1];
      ScanItems(docs[..|docs| - 1])
        + (if last.topics.Some? && last.topics.value != [] then last.topics.value else [])
  }

  /** The number of items with topic `t` and polarity `p`. */
  function CountPol(items: seq<TopicItem>, t: string, p: string): (n: nat)
    ensures n <= |items|
  {
    if items == [] then 0
    else
      var x := items[|items| - 1];
      CountPol(items[..|items| - 1], t, p)
        + (if Mentions(x, t, p) then 1 else 0)
  }

  /** The item names topic `t` with polarity `p`. */
  predicate Mentions(item: TopicItem, t: string, p: string) {
    ItemGet(item, "topic") == Some(t) && ItemGet(item, "polarity") == Some(p)
  }

  /** A topic and polarity count nothing exactly when no item names that
      topic with that polarity. */
  lemma {:induction false} CountPolZero(items: seq<TopicItem>, t: string, p: string)
    ensures CountPol(items, t, p) == 0 <==> forall i :: 0 <= i < |items| ==> !Mentions(items[i], t, p)
    decreases |items|
  {
    if items != [] {
      var init := items[..|items| - 1];
      CountPolZero(init, t, p);
      assert forall i :: 0 <= i < |init| ==> init[i] == items[i];
    }
  }

  /** The counts a topic should carry after scanning `items`. */
  function Expected(items: seq<TopicItem>, t: string): Tallies {
    var g := CountPol(items, t, Good);
    var b := CountPol(items, t, Bad);
    var n := CountPol(items, t, Neutral);
    Tallies(g, b, n, g + b + n)
  }

  /** Adds one counted mention of topic `t` with polarity `p`. */
  function Record1(stats: seq<(string, Tallies)>, t: string, p: string): (r: seq<(string, Tallies)>)
    requires IsPolarity(p)
    requires UniqueKeys(stats)
    ensures |r| == if HasKey(stats, t) then |stats| else |stats| + 1
    ensures forall i :: 0 <= i < |stats| ==> r[i].0 == stats[i].0
    ensures forall i :: 0 <= i < |stats| && stats[i].0 != t ==> r[i] == stats[i]
    ensures forall i :: 0 <= i < |stats| && stats[i].0 == t ==> r[i].1 == Bump(stats[i].1, p)
    ensures !HasKey(stats, t) ==> r[|stats|] == (t, Bump(Tallies(0, 0, 0, 0), p))
  {
    if stats == [] then [(t, Bump(Tallies(0, 0, 0, 0), p))]
    else if stats[0].0 == t then [(t, Bump(stats[0].1, p))] + stats[1..]
    else
      var rest := Record1(stats[1..], t, p);
      HasKeyTail(stats, t);
      [stats[0]] + rest
  }

  lemma HasKeyTail<V>(stats: seq<(string, V)>, t: string)
    requires stats != [] && stats[0].0 != t
    ensures HasKey(stats, t) <==> HasKey(stats[1..], t)
  {
    if HasKey(stats, t) {
      var i :| 0 <= i < |stats| && stats[i].0 == t;
      assert stats[1..][i - 1].0 == t;
    }
    if HasKey(stats[1..], t) {
      var i :| 0 <= i < |stats[1..]| && stats[1..][i].0 == t;
      assert stats[i + 1].0 == t;
    }
  }

  /** The corrected polarity scan: the counts of every topic, in order of
      first counted mention. Each entry carries exactly the number of counted
      items for its topic and polarity; every topic with a counted item has
      an entry; no topic has two. */
  function Scan(items: seq<TopicItem>): (stats: seq<(string, Tallies)>)
    ensures ScanInvariant(items, stats)
  {
    if items == [] then []
    else
      var init := items[..|items| - 1];
      var x := items[|items| - 1];
      var prev := Scan(init);
      assert items == init + [x];
      if Counted(x) then
        var r := Record1(prev, x["topic"], x["polarity"]);
        ScanStepCounted(init, x, prev, r);
        r
      else
        ScanStepSkipped(init, x, prev);
        prev
  }

  /** What the scan promises about the counts after reading `items`. */
  ghost predicate ScanInvariant(items: seq<TopicItem>, stats: seq<(string, Tallies)>) {
    && UniqueKeys(stats)
    && (forall i :: 0 <= i < |stats| ==> stats[i].0 != "" && stats[i].1 == Expected(items, stats[i].0) && stats[i].1.total > 0)
    && (forall t, p :: t != "" && IsPolarity(p) && CountPol(items, t, p) > 0 ==> HasKey(stats, t))
  }

  lemma CountPolSnoc(init: seq<TopicItem>, x: TopicItem, t: string, p: string)
    ensures CountPol(init + [x], t, p)
         == CountPol(init, t, p) + (if ItemGet(x, "topic") == Some(t) && ItemGet(x, "polarity") == Some(p) then 1 else 0)
  {
    assert (init + [x])[..|init + [x]| - 1] == init;
  }

  lemma ExpectedSnoc(init: seq<TopicItem>, x: TopicItem, t: string)
    ensures Counted(x) && x["topic"] == t ==> Expected(init + [x], t) == Bump(Expected(init, t), x["polarity"])
    ensures !(Counted(x) && x["topic"] == t) && t != "" ==> Expected(init + [x], t) == Expected(init, t)
  {
    CountPolSnoc(init, x, t, Good);
    CountPolSnoc(init, x, t, Bad);
    CountPolSnoc(init, x, t, Neutral);
  }

  lemma ScanStepCounted(init: seq<TopicItem>, x: TopicItem, prev: seq<(string, Tallies)>, r: seq<(string, Tallies)>)
    requires Counted(x)
    requires ScanInvariant(init, prev)
    requires r == Record1(prev, x["topic"], x["polarity"])
    ensures ScanInvariant(init + [x], r)
  {
    ScanStepEntries(init, x, prev, r);
    ScanStepCovers(init, x, prev, r);
    forall i, j | 0 <= i < j < |r| ensures r[i].0 != r[j].0 {
      if j == |prev| {
        assert r[i].0 == prev[i].0;
      }
    }
  }

  lemma ScanStepEntries(init: seq<TopicItem>, x: TopicItem, prev: seq<(string, Tallies)>, r: seq<(string, Tallies)>)
    requires Counted(x)
    requires ScanInvariant(init, prev)
    requires r == Record1(prev, x["topic"], x["polarity"])
    ensures forall i :: 0 <= i < |r| ==> r[i].0 != "" && r[i].1 == Expected(init + [x], r[i].0) && r[i].1.total > 0
  {
    var t0 := x["topic"];
    forall i | 0 <= i < |r| ensures r[i].0 != "" && r[i].1 == Expected(init + [x], r[i].0) && r[i].1.total > 0 {
      ExpectedSnoc(init, x, r[i].0);
      if i < |prev| {
        assert r[i].0 == prev[i].0;
      } else {
        assert !HasKey(prev, t0);
        assert Expected(init, t0) == Tallies(0, 0, 0, 0);
      }
    }
  }

  lemma ScanStepCovers(init: seq<TopicItem>, x: TopicItem, prev: seq<(string, Tallies)>, r: seq<(string, Tallies)>)
    requires Counted(x)
    requires ScanInvariant(init, prev)
    requires r == Record1(prev, x["topic"], x["polarity"])
    ensures forall t, p :: t != "" && IsPolarity(p) && CountPol(init + [x], t, p) > 0 ==> HasKey(r, t)
  {
    var t0 := x["topic"];
    forall t, p | t != "" && IsPolarity(p) && CountPol(init + [x], t, p) > 0 ensures HasKey(r, t) {
      CountPolSnoc(init, x, t, p);
      if CountPol(init, t, p) > 0 {
        var i :| 0 <= i < |prev| && prev[i].0 == t;
        assert r[i].0 == t;
      } else if !HasKey(prev, t0) {
        assert r[|prev|].0 == t;
      } else {
        var i :| 0 <= i < |prev| && prev[i].0 == t0;
        assert r[i].0 == t;
      }
    }
  }

  lemma ScanStepSkipped(init: seq<TopicItem>, x: TopicItem, prev: seq<(string, Tallies)>)
    requires !Counted(x)
    requires ScanInvariant(init, prev)
    ensures ScanInvariant(init + [x], prev)
  {
    forall i | 0 <= i < |prev| ensures prev[i].1 == Expected(init + [x], prev[i].0) && prev[i].1.total > 0 {
      ExpectedSnoc(init, x, prev[i].0);
    }
    forall t, p | t != "" && IsPolarity(p) && CountPol(init + [x], t, p) > 0 ensures HasKey(prev, t) {
      CountPolSnoc(init, x, t, p);
    }
  }

  /** The scan as the source writes it: after the counting `if`, the ratio
      update reads `stats[topic]` for every item, counted or not, so an item
      whose topic has not been counted yet (including one with no topic)
      raises `KeyError`. When it does not raise, it agrees with `Scan`. */
  function ScanAsWritten(items: seq<TopicItem>): (r: Result<seq<(string, Tallies)>, string>)
    ensures r.Ok? ==> r.value == Scan(items)
  {
    if items == [] then Ok([])
    else
      var init := items[..|items| - 1];
      var x := items[|items| - 1];
      match ScanAsWritten(init)
      case Err(e) => Err(e)
      case Ok(prev) =>
        var next := if Counted(x) then Record1(prev, x["topic"], x["polarity"]) else prev;
        var topic := ItemGet(x, "topic");
        if topic.None? || !HasKey(next, topic.value) then Err("KeyError") else Ok(next)
  }

  /** When every item is counted, the source's scan does not raise. */
  lemma {:induction false} ScanAsWrittenAllCounted(items: seq<TopicItem>)
    requires forall i :: 0 <= i < |items| ==> Counted(items[i])
    ensures ScanAsWritten(items) == Ok(Scan(items))
  {
    if items != [] {
      var init := items[..|items| - 1];
      var x := items[|items| - 1];
      ScanAsWrittenAllCounted(init);
      var next := Record1(Scan(init), x["topic"], x["polarity"]);
      if !HasKey(Scan(init), x["topic"]) {
        assert next[|Scan(init)|].0 == x["topic"];
      } else {
        var i :| 0 <= i < |Scan(init)| && Scan(init)[i].0 == x["topic"];
        assert next[i].0 == x["topic"];
      }
    }
  }

  /** A single item whose polarity is none of the three: the source raises
      where the corrected scan simply skips the item. */
  lemma ScanAsWrittenRaises()
    ensures ScanAsWritten([map["topic" := "音质", "polarity" := "未提及"]]) == Err("KeyError")
    ensures Scan([map["topic" := "音质", "polarity" := "未提及"]]) == []
  {
    var x: TopicItem := map["topic" := "音质", "polarity" := "未提及"];
    assert [x][..0] == [];
    assert !Counted(x);
  }

  /** Where a topic sits on the quadrant chart, and the averages it was
      placed against. */
  datatype Placement = Placement(quadrant: int, avgMention: real, avgSatisfaction: real)

  /** One entry of `product_topics.topics` in the report. */
  datatype TopicStats = TopicStats(
    good: nat, bad: nat, neutral: nat, total: nat,
    goodRatio: real, badRatio: real, mentionRate: real,
    goodSummary: Option<string>, badSummary: Option<string>,
    placement: Option<Placement>)

  /** The ratios the scan attaches to a topic it has counted. */
  function WithRatios(c: Tallies, totalReviews: nat): (s: TopicStats)
    ensures s.good == c.good && s.bad == c.bad && s.neutral == c.neutral && s.total == c.total
    ensures c.total > 0 ==> s.goodRatio * c.total as real == c.good as real
    ensures c.total > 0 ==> s.badRatio * c.total as real == (c.bad + c.neutral) as real
    ensures totalReviews > 0 ==> s.mentionRate * totalReviews as real == c.total as real
    ensures s.goodSummary.None? && s.badSummary.None? && s.placement.None?
  {
    TopicStats(c.good, c.bad, c.neutral, c.total,
      Ratio(c.good, c.total), Ratio(c.bad + c.neutral, c.total), Ratio(c.total, totalReviews),
      None, None, None)
  }

  /** The items the polarity scan reads for one project and solution. */
  function ScopedItems(store: Store, projectCode: string, solution: string): seq<TopicItem> {
    ScanItems(Scoped(store, projectCode, solution))
  }

  /** `DataProcessor.topic_polarity_stats` (with the ratio update inside the
      counting branch): for every topic with a counted mention in the
      in-scope documents, its polarity counts, which add up to its total, and
      its ratios. The mention rate divides by the number of in-scope
      documents, which is positive whenever a topic has been counted. */
  function TopicPolarityStats(store: Store, projectCode: string, solution: string): (r: seq<(string, TopicStats)>)
    ensures UniqueKeys(r)
    ensures forall i :: 0 <= i < |r| ==> r[i].0 != "" && r[i].1.total > 0
    ensures forall i :: 0 <= i < |r| ==>
      var c := Expected(ScopedItems(store, projectCode, solution), r[i].0);
      r[i].1 == WithRatios(c, |Scoped(store, projectCode, solution)|)
    ensures r != [] ==> |Scoped(store, projectCode, solution)| > 0
    ensures forall t, p :: (t != "" && IsPolarity(p)
      && CountPol(ScopedItems(store, projectCode, solution), t, p) > 0) ==> HasKey(r, t)
  {
    var docs := Scoped(store, projectCode, solution);
    var items := ScanItems(docs);
    var stats := Scan(items);
    var r := WithRatiosAll(stats, |docs|);
    StatsHaveDocuments(docs);
    WithRatiosAllFacts(items, stats, |docs|, r);
    r
  }

  lemma WithRatiosAllFacts(items: seq<TopicItem>, stats: seq<(string, Tallies)>, n: nat, r: seq<(string, TopicStats)>)
    requires stats == Scan(items) && r == WithRatiosAll(stats, n)
    requires stats != [] ==> n > 0
    ensures UniqueKeys(r)
    ensures forall i :: 0 <= i < |r| ==> r[i].0 != "" && r[i].1.total > 0
    ensures forall i :: 0 <= i < |r| ==> r[i].1 == WithRatios(Expected(items, r[i].0), n)
    ensures forall t, p :: (t != "" && IsPolarity(p) && CountPol(items, t, p) > 0) ==> HasKey(r, t)
  {
    forall t, p | t != "" && IsPolarity(p) && CountPol(items, t, p) > 0 ensures HasKey(r, t) {
      assert HasKey(stats, t);
      var i :| 0 <= i < |stats| && stats[i].0 == t;
      assert r[i].0 == t;
    }
  }

  /** Counted topics imply documents to count them in. */
  lemma StatsHaveDocuments(docs: Store)
    ensures Scan(ScanItems(docs)) != [] ==> |docs| > 0
  {
    if docs == [] {
      assert ScanItems(docs) == [];
    }
  }

  function WithRatiosAll(stats: seq<(string, Tallies)>, totalReviews: nat): (r: seq<(string, TopicStats)>)
    ensures |r| == |stats|
    ensures forall i :: 0 <= i < |r| ==> r[i] == (stats[i].0, WithRatios(stats[i].1, totalReviews))
  {
    seq(|stats|, i requires 0 <= i < |stats| => (stats[i].0, WithRatios(stats[i].1, totalReviews)))
  }

  // ---------------------------------------------------------------------
  // Overall totals

  /** The sum of one count over all topics. */
  function SumOf(stats: seq<(string, TopicStats)>, f: TopicStats -> nat): nat {
    if stats == [] then 0 else SumOf(stats[..|stats| - 1], f) + f(stats[|stats| - 1].1)
  }

  function GoodOf(s: TopicStats): nat { s.good }
  function BadOf(s: TopicStats): nat { s.bad }
  function NeutralOf(s: TopicStats): nat { s.neutral }
  function TotalOf(s: TopicStats): nat { s.total }
  function NeutralBadOf(s: TopicStats): nat { s.neutral + s.bad }

  predicate Balanced(s: TopicStats) {
    s.good + s.bad + s.neutral == s.total
  }

  /** Per-topic balance carries over to the sums. */
  lemma {:induction false} SumsBalanced(stats: seq<(string, TopicStats)>)
    ensures (forall i :: 0 <= i < |stats| ==> Balanced(stats[i].1)) ==>
      SumOf(stats, GoodOf) + SumOf(stats, NeutralOf) + SumOf(stats, BadOf)
      == SumOf(stats, TotalOf)
  {
    if stats != [] {
      SumsBalanced(stats[..|stats| - 1]);
    }
  }

  /** `total_topic_stats` of the report. */
  datatype TotalStats = TotalStats(
    topicCount: nat, goodCount: nat, neutralCount: nat, badCount: nat, totalCount: nat,
    goodRate: real, neutralBadRate: real, avgMention: real, avgSatisfaction: real)

  /** The overall counts and rates: each count sums that count over the
      topics; the rates stay 0 unless some mention was counted; the averages
      are filled in by the quadrant step. */
  function Totals(stats: seq<(string, TopicStats)>): (r: TotalStats)
    ensures r.topicCount == |stats|
    ensures r.goodCount == SumOf(stats, GoodOf) && r.neutralCount == SumOf(stats, NeutralOf)
    ensures r.badCount == SumOf(stats, BadOf) && r.totalCount == SumOf(stats, TotalOf)
    ensures (forall i :: 0 <= i < |stats| ==> Balanced(stats[i].1))
      ==> r.goodCount + r.neutralCount + r.badCount == r.totalCount
    ensures RatesOf(r)
  {
    SumsBalanced(stats);
    CountTotals(|stats|, SumOf(stats, GoodOf), SumOf(stats, NeutralOf), SumOf(stats, BadOf), SumOf(stats, TotalOf))
  }

  /** The rates of the `if total_count > 0` block: both stay 0 without a
      counted mention; otherwise they multiply back to the good count and
      to the neutral-plus-bad count. */
  predicate RatesOf(r: TotalStats) {
    && (r.totalCount == 0 ==> r.goodRate == 0.0 && r.neutralBadRate == 0.0)
    && (r.totalCount > 0 ==> r.goodRate * r.totalCount as real == r.goodCount as real)
    && (r.totalCount > 0 ==> r.neutralBadRate * r.totalCount as real == (r.neutralCount + r.badCount) as real)
  }

  /** The totals record for given overall counts, with the two rates of
      the `if total_count > 0` block and the averages still 0. */
  function CountTotals(topicCount: nat, good: nat, neutral: nat, bad: nat, total: nat): (r: TotalStats)
    ensures r.topicCount == topicCount && r.goodCount == good && r.neutralCount == neutral
    ensures r.badCount == bad && r.totalCount == total
    ensures RatesOf(r)
  {
    TotalStats(topicCount, good, neutral, bad, total, Ratio(good, total), Ratio(neutral + bad, total), 0.0, 0.0)
  }

  // ---------------------------------------------------------------------
  // Top-N topic lists

  /** (topic, count) pairs in topic order. */
  function Pairs(stats: seq<(string, TopicStats)>, f: TopicStats -> nat): (r: seq<(string, int)>)
    ensures |r| == |stats|
    ensures forall i :: 0 <= i < |r| ==> r[i] == (stats[i].0, f(stats[i].1) as int)
  {
    seq(|stats|, i requires 0 <= i < |stats| => (stats[i].0, f(stats[i].1) as int))
  }

  function PairCount(p: (string, int)): int {
    p.1
  }

  /** `r` is a top-`n` list of `pairs`: as many as fit, most counted first,
      each a pair of `pairs` taken at most as often as it occurs there, and
      no pair left out counted more than one kept. */
  predicate RanksTop(r: seq<(string, int)>, pairs: seq<(string, int)>, n: nat) {
    && |r| == (if n < |pairs| then n else |pairs|)
    && NonIncreasing(r, PairCount)
    && multiset(r) <= multiset(pairs)
    && forall y, i | y in multiset(pairs) - multiset(r) && 0 <= i < |r| :: y.1 <= r[i].1
  }

  /** The `n` topics with the most mentions of the chosen kind, most first;
      each pair carries the topic's own count. */
  function TopTopics(stats: seq<(string, TopicStats)>, f: TopicStats -> nat, n: nat): (r: seq<(string, int)>)
    ensures |r| == if n < |stats| then n else |stats|
    ensures NonIncreasing(r, PairCount)
    ensures forall i :: 0 <= i < |r| ==>
      exists j :: 0 <= j < |stats| && r[i] == (stats[j].0, f(stats[j].1) as int)
    ensures multiset(r) <= multiset(Pairs(stats, f))
    ensures forall y, i | y in multiset(Pairs(stats, f)) - multiset(r) && 0 <= i < |r| :: y.1 <= r[i].1
  {
    var pairs := Pairs(stats, f);
    var r := TopN(pairs, PairCount, n);
    forall i | 0 <= i < |r| ensures exists j :: 0 <= j < |stats| && r[i] == (stats[j].0, f(stats[j].1) as int) {
      var j :| 0 <= j < |pairs| && pairs[j] == r[i];
    }
    forall y, i | y in multiset(pairs) - multiset(r) && 0 <= i < |r| ensures y.1 <= r[i].1 {
      assert PairCount(y) <= PairCount(r[i]);
    }
    r
  }

  /** `top_good_topics`: the `n` topics with the most good mentions, with
      those counts, most first; no topic left out has more. */
  function TopGood(stats: seq<(string, TopicStats)>, n: nat): (r: seq<(string, int)>)
    ensures RanksTop(r, Pairs(stats, GoodOf), n)
    ensures forall i :: 0 <= i < |r| ==>
      exists j :: 0 <= j < |stats| && r[i] == (stats[j].0, GoodOf(stats[j].1) as int)
  {
    TopTopics(stats, GoodOf, n)
  }

  /** `top_bad_topics`: the `n` topics with the most neutral plus bad
      mentions, with those counts, most first; no topic left out has more. */
  function TopBad(stats: seq<(string, TopicStats)>, n: nat): (r: seq<(string, int)>)
    ensures RanksTop(r, Pairs(stats, NeutralBadOf), n)
    ensures forall i :: 0 <= i < |r| ==>
      exists j :: 0 <= j < |stats| && r[i] == (stats[j].0, NeutralBadOf(stats[j].1) as int)
  {
    TopTopics(stats, NeutralBadOf, n)
  }

  /** Python truthiness of an optional string. */
  predicate Truthy(s: Option<string>) {
    s.Some? && s.value != ""
  }

  function Topics(pairs: seq<(string, int)>): seq<string> {
    seq(|pairs|, i requires 0 <= i < |pairs| => pairs[i].0)
  }

  /** The summary step: a topic in the good list gets `好评摘要` when the
      summariser returns a non-empty text, and likewise for the bad list and
      `中差评摘要`. `summarize(t, true)` stands for sampling the topic's good
      comments and asking the model; `summarize(t, false)` for the neutral and
      bad ones. */
  function AttachSummaries(stats: seq<(string, TopicStats)>, good: seq<string>, bad: seq<string>,
                           summarize: (string, bool) -> Option<string>): (r: seq<(string, TopicStats)>)
    ensures |r| == |stats|
    ensures forall i :: 0 <= i < |r| ==> r[i].0 == stats[i].0
    ensures forall i :: 0 <= i < |r| ==>
      r[i].1 == stats[i].1.(goodSummary := r[i].1.goodSummary, badSummary := r[i].1.badSummary)
    ensures forall i :: 0 <= i < |r| ==>
      (if stats[i].0 in good && Truthy(summarize(stats[i].0, true))
       then r[i].1.goodSummary == summarize(stats[i].0, true)
       else r[i].1.goodSummary == stats[i].1.goodSummary)
    ensures forall i :: 0 <= i < |r| ==>
      (if stats[i].0 in bad && Truthy(summarize(stats[i].0, false))
       then r[i].1.badSummary == summarize(stats[i].0, false)
       else r[i].1.badSummary == stats[i].1.badSummary)
  {
    seq(|stats|, i requires 0 <= i < |stats| =>
      var t := stats[i].0;
      var s := stats[i].1;
      var gs := if t in good && Truthy(summarize(t, true)) then summarize(t, true) else s.goodSummary;
      var bs := if t in bad && Truthy(summarize(t, false)) then summarize(t, false) else s.badSummary;
      (t, s.(goodSummary := gs, badSummary := bs)))
  }

  // ---------------------------------------------------------------------
  // Four-quadrant classification

  /** The quadrant of a topic: 1 high mention / high satisfaction, 2 high
      mention / low satisfaction, 3 low mention / high satisfaction, 4 low
      mention / low satisfaction; "high" means at least the average. */
  function QuadrantOf(mention: real, satisfaction: real, avgMention: real, avgSatisfaction: real): (q: int)
    ensures 1 <= q <= 4
    ensures (q == 1 || q == 2) <==> mention >= avgMention
    ensures (q == 1 || q == 3) <==> satisfaction >= avgSatisfaction
  {
    if mention >= avgMention && satisfaction >= avgSatisfaction then 1
    else if mention >= avgMention && satisfaction < avgSatisfaction then 2
    else if mention < avgMention && satisfaction >= avgSatisfaction then 3
    else 4
  }

  function SumReal(xs: seq<real>): real {
    if xs == [] then 0.0 else SumReal(xs[..|xs| - 1]) + xs[|xs| - 1]
  }

  /** The arithmetic mean, 0 for no values. */
  function Mean(xs: seq<real>): real {
    if xs == [] then 0.0 else SumReal(xs) / |xs| as real
  }

  lemma {:induction false} SumBelow(xs: seq<real>, c: real)
    requires xs != []
    requires forall i :: 0 <= i < |xs| ==> xs[i] < c
    ensures SumReal(xs) < |xs| as real * c
  {
    if |xs| > 1 {
      SumBelow(xs[..|xs| - 1], c);
    } else {
      assert xs[..0] == [];
    }
  }

  /** Some value reaches the mean. */
  lemma SomeAtLeastMean(xs: seq<real>) returns (k: nat)
    requires xs != []
    ensures k < |xs| && xs[k] >= Mean(xs)
  {
    if forall i :: 0 <= i < |xs| ==> xs[i] < Mean(xs) {
      SumBelow(xs, Mean(xs));
      assert false;
    }
    k :| 0 <= k < |xs| && xs[k] >= Mean(xs);
  }

  /** Topics mentioned often enough to be placed. */
  predicate Placed(s: TopicStats) {
    s.total > QuadrantMinMentions
  }

  /** The indices of the placed topics, in topic order. */
  function PlacedIndices(stats: seq<(string, TopicStats)>, from: nat): (r: seq<nat>)
    requires from <= |stats|
    ensures forall k :: 0 <= k < |r| ==> from <= r[k] < |stats| && Placed(stats[r[k]].1)
    ensures forall i :: from <= i < |stats| && Placed(stats[i].1) ==> i in r
    decreases |stats| - from
  {
    if from == |stats| then []
    else if Placed(stats[from].1) then [from] + PlacedIndices(stats, from + 1)
    else PlacedIndices(stats, from + 1)
  }

  /** The average mention rate and satisfaction over the placed topics. */
  function Averages(stats: seq<(string, TopicStats)>): (avg: (real, real)) {
    var idx := PlacedIndices(stats, 0);
    (Mean(seq(|idx|, k requires 0 <= k < |idx| => stats[idx[k]].1.mentionRate)),
     Mean(seq(|idx|, k requires 0 <= k < |idx| => stats[idx[k]].1.goodRatio)))
  }

  /** The quadrant step: every topic mentioned more than 30 times gets
      exactly one quadrant from its own rates against the averages over
      those topics; every other topic is left as it was. */
  function PlaceTopics(stats: seq<(string, TopicStats)>): (r: seq<(string, TopicStats)>)
    ensures |r| == |stats|
    ensures forall i :: 0 <= i < |r| ==> r[i].0 == stats[i].0
    ensures forall i :: 0 <= i < |r| && !Placed(stats[i].1) ==> r[i] == stats[i]
    ensures forall i :: 0 <= i < |r| && Placed(stats[i].1) ==>
      r[i].1 == stats[i].1.(placement := r[i].1.placement)
      && r[i].1.placement == Some(Placement(
           QuadrantOf(stats[i].1.mentionRate, stats[i].1.goodRatio, Averages(stats).0, Averages(stats).1),
           Averages(stats).0, Averages(stats).1))
  {
    var avg := Averages(stats);
    seq(|stats|, i requires 0 <= i < |stats| =>
      var s := stats[i].1;
      if Placed(s)
      then (stats[i].0, s.(placement := Some(Placement(QuadrantOf(s.mentionRate, s.goodRatio, avg.0, avg.1), avg.0, avg.1))))
      else stats[i])
  }

  /** Whenever some topic is placed, some placed topic lies on the
      high-mention side: the average cannot exceed every rate it averages. */
  lemma SomeHighMention(stats: seq<(string, TopicStats)>, i: nat)
    requires i < |stats| && Placed(stats[i].1)
    ensures exists j :: (0 <= j < |stats| && Placed(stats[j].1) &&
      PlaceTopics(stats)[j].1.placement.value.quadrant in {1, 2})
  {
    var idx := PlacedIndices(stats, 0);
    assert i in idx;
    var rates := seq(|idx|, k requires 0 <= k < |idx| => stats[idx[k]].1.mentionRate);
    var k := SomeAtLeastMean(rates);
    var j := idx[k];
    assert stats[j].1.mentionRate >= Averages(stats).0;
    assert PlaceTopics(stats)[j].1.placement.value.quadrant in {1, 2};
  }

  // ---------------------------------------------------------------------
  // The topic stage as a whole

  /** `product_topics` of the report. */
  datatype TopicReport = TopicReport(
    totals: TotalStats, topics: seq<(string, TopicStats)>,
    topGood: seq<(string, int)>, topBad: seq<(string, int)>)

  /** What the report of the topic stage promises about the counted topics
      `stats`: the totals sum the topics' counts and balance over one entry
      per topic, and carry the averages over the placed topics; every
      placed topic's quadrant compares its own rates with those averages; the topics are
      those of `stats` in the same order with the same counts; exactly the
      topics mentioned more than 30 times are placed, in a quadrant from 1
      to 4; only a top good topic carries a good summary; and the two lists
      rank the `n` topics with the most good and the most neutral-plus-bad
      mentions. */
  predicate StageReport(r: TopicReport, stats: seq<(string, TopicStats)>, n: nat) {
    && r.totals.goodCount + r.totals.neutralCount + r.totals.badCount == r.totals.totalCount
    && r.totals.topicCount == |r.topics|
    && r.totals.goodCount == SumOf(stats, GoodOf) && r.totals.neutralCount == SumOf(stats, NeutralOf)
    && r.totals.badCount == SumOf(stats, BadOf) && r.totals.totalCount == SumOf(stats, TotalOf)
    && RatesOf(r.totals)
    && r.totals.avgMention == Averages(stats).0 && r.totals.avgSatisfaction == Averages(stats).1
    && (forall i :: 0 <= i < |r.topics| && r.topics[i].1.placement.Some? ==>
          r.topics[i].1.placement.value
          == Placement(QuadrantOf(r.topics[i].1.mentionRate, r.topics[i].1.goodRatio,
                                  r.totals.avgMention, r.totals.avgSatisfaction),
                       r.totals.avgMention, r.totals.avgSatisfaction))
    && SameCounts(r.topics, stats)
    && (forall i :: 0 <= i < |r.topics| ==>
          (r.topics[i].1.placement.Some? <==> r.topics[i].1.total > QuadrantMinMentions))
    && (forall i :: 0 <= i < |r.topics| && r.topics[i].1.placement.Some? ==>
          1 <= r.topics[i].1.placement.value.quadrant <= 4)
    && (forall i :: 0 <= i < |r.topics| && r.topics[i].1.goodSummary.Some? ==>
          r.topics[i].0 in Topics(r.topGood))
    && RanksTop(r.topGood, Pairs(r.topics, GoodOf), n)
    && RanksTop(r.topBad, Pairs(r.topics, NeutralBadOf), n)
  }

  /** `DataPipelineManager.process_topics`: count, total, rank, summarise,
      place. */
  function ProcessTopics(store: Store, projectCode: string, solution: string, n: nat,
                         summarize: (string, bool) -> Option<string>): (r: TopicReport)
    ensures StageReport(r, TopicPolarityStats(store, projectCode, solution), n)
  {
    StatsShape(store, projectCode, solution);
    TopicStage(TopicPolarityStats(store, projectCode, solution), n, summarize)
  }

  /** Everything after the count: total, rank, summarise and place freshly
      counted topics. */
  function TopicStage(stats: seq<(string, TopicStats)>, n: nat,
                      summarize: (string, bool) -> Option<string>): (r: TopicReport)
    requires forall i :: 0 <= i < |stats| ==>
      Balanced(stats[i].1) && stats[i].1.placement.None? && stats[i].1.goodSummary.None?
    ensures StageReport(r, stats, n)
  {
    var good := TopGood(stats, n);
    var bad := TopBad(stats, n);
    StageReportHolds(stats, good, bad, n, summarize);
    var placed := PlaceStage(stats, Topics(good), Topics(bad), summarize);
    TopicReport(StageTotals(stats, placed.1), placed.0, good, bad)
  }

  lemma StageReportHolds(stats: seq<(string, TopicStats)>, good: seq<(string, int)>, bad: seq<(string, int)>,
                         n: nat, summarize: (string, bool) -> Option<string>)
    requires forall i :: 0 <= i < |stats| ==>
      Balanced(stats[i].1) && stats[i].1.placement.None? && stats[i].1.goodSummary.None?
    requires RanksTop(good, Pairs(stats, GoodOf), n) && RanksTop(bad, Pairs(stats, NeutralBadOf), n)
    ensures var placed := PlaceStage(stats, Topics(good), Topics(bad), summarize);
      StageReport(TopicReport(StageTotals(stats, placed.1), placed.0, good, bad), stats, n)
  {
    var placed := PlaceStage(stats, Topics(good), Topics(bad), summarize);
    SameCountsRanks(placed.0, stats, good, bad, n);
  }

  /** `a` holds the topics of `b` in the same order with the same counts
      and ratios; only the summaries and the placement may differ. */
  predicate SameCounts(a: seq<(string, TopicStats)>, b: seq<(string, TopicStats)>) {
    && |a| == |b|
    && forall i :: 0 <= i < |a| ==>
         (a[i].0 == b[i].0 &&
          a[i].1 == b[i].1.(goodSummary := a[i].1.goodSummary, badSummary := a[i].1.badSummary,
                            placement := a[i].1.placement))
  }

  /** Summaries and placement do not move the rankings' counts. */
  lemma SameCountsRanks(a: seq<(string, TopicStats)>, b: seq<(string, TopicStats)>,
                         good: seq<(string, int)>, bad: seq<(string, int)>, n: nat)
    requires SameCounts(a, b)
    requires RanksTop(good, Pairs(b, GoodOf), n) && RanksTop(bad, Pairs(b, NeutralBadOf), n)
    ensures RanksTop(good, Pairs(a, GoodOf), n) && RanksTop(bad, Pairs(a, NeutralBadOf), n)
  {
    assert Pairs(a, GoodOf) == Pairs(b, GoodOf);
    assert Pairs(a, NeutralBadOf) == Pairs(b, NeutralBadOf);
  }

  /** The totals of the counted topics, with the averages of the placed
      ones. */
  function StageTotals(stats: seq<(string, TopicStats)>, avg: (real, real)): (r: TotalStats)
    requires forall i :: 0 <= i < |stats| ==> Balanced(stats[i].1)
    ensures r.goodCount + r.neutralCount + r.badCount == r.totalCount
    ensures r.topicCount == |stats|
    ensures r.goodCount == SumOf(stats, GoodOf) && r.neutralCount == SumOf(stats, NeutralOf)
    ensures r.badCount == SumOf(stats, BadOf) && r.totalCount == SumOf(stats, TotalOf)
    ensures r.avgMention == avg.0 && r.avgSatisfaction == avg.1
    ensures RatesOf(r)
  {
    var t := Totals(stats);
    RatesKeep(t, avg);
    t.(avgMention := avg.0, avgSatisfaction := avg.1)
  }

  /** Filling in the averages keeps the rates. */
  lemma RatesKeep(t: TotalStats, avg: (real, real))
    requires RatesOf(t)
    ensures RatesOf(t.(avgMention := avg.0, avgSatisfaction := avg.1))
  {
  }

  /** Freshly counted topics balance, and carry no summary and no
      placement yet. */
  lemma StatsShape(store: Store, projectCode: string, solution: string)
    ensures var stats := TopicPolarityStats(store, projectCode, solution);
      forall i :: 0 <= i < |stats| ==>
        Balanced(stats[i].1) && stats[i].1.placement.None? && stats[i].1.goodSummary.None?
  {
    var stats := TopicPolarityStats(store, projectCode, solution);
    forall i | 0 <= i < |stats|
      ensures Balanced(stats[i].1) && stats[i].1.placement.None? && stats[i].1.goodSummary.None?
    {
      var c := Expected(ScopedItems(store, projectCode, solution), stats[i].0);
      assert stats[i].1 == WithRatios(c, |Scoped(store, projectCode, solution)|);
    }
  }

  /** Summarising and placing the counted topics, with the averages the
      placement used. */
  function PlaceStage(stats: seq<(string, TopicStats)>, good: seq<string>, bad: seq<string>,
                      summarize: (string, bool) -> Option<string>): (r: (seq<(string, TopicStats)>, (real, real)))
    requires forall i :: 0 <= i < |stats| ==> stats[i].1.placement.None? && stats[i].1.goodSummary.None?
    ensures |r.0| == |stats|
    ensures forall i :: 0 <= i < |r.0| ==>
      (r.0[i].1.placement.Some? <==> r.0[i].1.total > QuadrantMinMentions)
    ensures forall i :: 0 <= i < |r.0| && r.0[i].1.placement.Some? ==>
      1 <= r.0[i].1.placement.value.quadrant <= 4
    ensures forall i :: 0 <= i < |r.0| && r.0[i].1.goodSummary.Some? ==> r.0[i].0 in good
    ensures SameCounts(r.0, stats)
    ensures r.1 == Averages(stats)
    ensures forall i :: 0 <= i < |r.0| && r.0[i].1.placement.Some? ==>
      r.0[i].1.placement.value
      == Placement(QuadrantOf(r.0[i].1.mentionRate, r.0[i].1.goodRatio, r.1.0, r.1.1), r.1.0, r.1.1)
  {
    var summarised := AttachSummaries(stats, good, bad, summarize);
    var placed := PlaceTopics(summarised);
    TopicStageFacts(stats, summarised, placed, good);
    PlacedAgainstAverages(stats, summarised, placed);
    (placed, Averages(summarised))
  }

  lemma TopicStageFacts(stats: seq<(string, TopicStats)>, summarised: seq<(string, TopicStats)>,
                        placed: seq<(string, TopicStats)>, good: seq<string>)
    requires forall i :: 0 <= i < |stats| ==> stats[i].1.placement.None? && stats[i].1.goodSummary.None?
    requires |summarised| == |stats|
    requires forall i :: 0 <= i < |stats| ==>
      summarised[i].0 == stats[i].0 && summarised[i].1.placement == stats[i].1.placement
      && summarised[i].1.total == stats[i].1.total
    requires forall i :: 0 <= i < |stats| && summarised[i].1.goodSummary.Some? ==> stats[i].0 in good
    requires forall i :: 0 <= i < |stats| ==>
      summarised[i].1 == stats[i].1.(goodSummary := summarised[i].1.goodSummary,
                                     badSummary := summarised[i].1.badSummary)
    requires placed == PlaceTopics(summarised)
    ensures forall i :: 0 <= i < |placed| ==>
      (placed[i].1.placement.Some? <==> placed[i].1.total > QuadrantMinMentions)
    ensures forall i :: 0 <= i < |placed| && placed[i].1.placement.Some? ==>
      1 <= placed[i].1.placement.value.quadrant <= 4
    ensures forall i :: 0 <= i < |placed| && placed[i].1.goodSummary.Some? ==> placed[i].0 in good
    ensures SameCounts(placed, stats)
  {
    forall i | 0 <= i < |placed|
      ensures placed[i].1.placement.Some? <==> placed[i].1.total > QuadrantMinMentions
      ensures placed[i].1.placement.Some? ==> 1 <= placed[i].1.placement.value.quadrant <= 4
      ensures placed[i].1.goodSummary.Some? ==> placed[i].0 in good
      ensures placed[i].0 == stats[i].0
      ensures placed[i].1 == stats[i].1.(goodSummary := placed[i].1.goodSummary,
                badSummary := placed[i].1.badSummary, placement := placed[i].1.placement)
    {
      if Placed(summarised[i].1) {
        assert placed[i].1 == summarised[i].1.(placement := placed[i].1.placement);
      }
    }
  }

  /** The placed topics are judged against the averages of the counted
      topics: summaries do not move them. */
  lemma PlacedAgainstAverages(stats: seq<(string, TopicStats)>, summarised: seq<(string, TopicStats)>,
                              placed: seq<(string, TopicStats)>)
    requires |summarised| == |stats|
    requires forall i :: 0 <= i < |stats| ==> stats[i].1.placement.None?
    requires forall i :: 0 <= i < |stats| ==>
      summarised[i].1 == stats[i].1.(goodSummary := summarised[i].1.goodSummary,
                                     badSummary := summarised[i].1.badSummary)
    requires placed == PlaceTopics(summarised)
    ensures Averages(summarised) == Averages(stats)
    ensures forall i :: 0 <= i < |placed| && placed[i].1.placement.Some? ==>
      placed[i].1.placement.value
      == Placement(QuadrantOf(placed[i].1.mentionRate, placed[i].1.goodRatio,
                              Averages(stats).0, Averages(stats).1),
                   Averages(stats).0, Averages(stats).1)
  {
    SummariesKeepAverages(stats, summarised);
    forall i | 0 <= i < |placed| && placed[i].1.placement.Some?
      ensures placed[i].1.placement.value
        == Placement(QuadrantOf(placed[i].1.mentionRate, placed[i].1.goodRatio,
                                Averages(stats).0, Averages(stats).1),
                     Averages(stats).0, Averages(stats).1)
    {
      assert summarised[i].1.placement.None?;
      assert Placed(summarised[i].1);
    }
  }

  /** The averages read only the totals and the two rates, which summaries
      leave alone. */
  lemma SummariesKeepAverages(stats: seq<(string, TopicStats)>, summarised: seq<(string, TopicStats)>)
    requires |summarised| == |stats|
    requires forall i :: 0 <= i < |stats| ==>
      summarised[i].1 == stats[i].1.(goodSummary := summarised[i].1.goodSummary,
                                     badSummary := summarised[i].1.badSummary)
    ensures Averages(summarised) == Averages(stats)
  {
    SameIndices(summarised, stats, 0);
    var idx := PlacedIndices(stats, 0);
    assert seq(|idx|, k requires 0 <= k < |idx| => summarised[idx[k]].1.mentionRate)
        == seq(|idx|, k requires 0 <= k < |idx| => stats[idx[k]].1.mentionRate);
    assert seq(|idx|, k requires 0 <= k < |idx| => summarised[idx[k]].1.goodRatio)
        == seq(|idx|, k requires 0 <= k < |idx| => stats[idx[k]].1.goodRatio);
  }

  /** The placed positions depend only on the totals. */
  lemma {:induction false} SameIndices(a: seq<(string, TopicStats)>, b: seq<(string, TopicStats)>, from: nat)
    requires |a| == |b| && from <= |a|
    requires forall i :: 0 <= i < |a| ==> a[i].1.total == b[i].1.total
    ensures PlacedIndices(a, from) == PlacedIndices(b, from)
    decreases |a| - from
  {
    if from < |a| {
      SameIndices(a, b, from + 1);
    }
  }

  /** Sums agree over topic lists that agree on the summed count. */
  lemma {:induction false} SumOfAgree(a: seq<(string, TopicStats)>, b: seq<(string, TopicStats)>, f: TopicStats -> nat)
    requires |a| == |b|
    requires forall i :: 0 <= i < |a| ==> f(a[i].1) == f(b[i].1)
    ensures SumOf(a, f) == SumOf(b, f)
  {
    if a != [] {
      SumOfAgree(a[..|a| - 1], b[..|b| - 1], f);
    }
  }

  /** The report's totals are the sums of its own topic list: summarising
      and placing the topics changes none of the counts summed. */
  lemma ReportTotalsAddUp(r: TopicReport, stats: seq<(string, TopicStats)>, n: nat)
    requires StageReport(r, stats, n)
    ensures r.totals.goodCount == SumOf(r.topics, GoodOf) && r.totals.neutralCount == SumOf(r.topics, NeutralOf)
    ensures r.totals.badCount == SumOf(r.topics, BadOf) && r.totals.totalCount == SumOf(r.topics, TotalOf)
  {
    assert forall i :: 0 <= i < |r.topics| ==>
      r.topics[i].1.good == stats[i].1.good && r.topics[i].1.neutral == stats[i].1.neutral
      && r.topics[i].1.bad == stats[i].1.bad && r.topics[i].1.total == stats[i].1.total;
    SumOfAgree(r.topics, stats, GoodOf);
    SumOfAgree(r.topics, stats, NeutralOf);
    SumOfAgree(r.topics, stats, BadOf);
    SumOfAgree(r.topics, stats, TotalOf);
  }
}

=== FILE: assignment.dfy ===
/** Assigning a raw label to the canonical category it is most similar to.
    The similarity of a raw label and a category (cosine similarity of their
    sentence embeddings in the source) is a parameter. */
module Assignment {

  /** Similarity of a raw label (first) to a canonical name (second). */
  type Scorer = (string, string) -> real

  /** `np.argmax`: the index of the first maximal element. */
  function ArgMax(s: seq<real>): (k: nat)
    requires |s| > 0
    ensures k < |s|
    ensures forall i :: 0 <= i < |s| ==> s[i] <= s[k]
    ensures forall i :: 0 <= i < k ==> s[i] < s[k]
  {
    if |s| == 1 then 0
    else
      var k := ArgMax(s[..|s| - 1]);
      if s[|s| - 1] > s[k] then |s| - 1 else k
  }

  /** The similarity of `raw` to each category, in category order. */
  function Sims(raw: string, cats: seq<string>, score: Scorer): (s: seq<real>)
    ensures |s| == |cats|
    ensures forall i :: 0 <= i < |s| ==> s[i] == score(raw, cats[i])
  {
    seq(|cats|, i requires 0 <= i < |cats| => score(raw, cats[i]))
  }

  /** The position of the category `raw` is assigned to. */
  function AssignIndex(raw: string, cats: seq<string>, score: Scorer): (k: nat)
    requires |cats| > 0
    ensures k < |cats|
    ensures forall i :: 0 <= i < |cats| ==> score(raw, cats[i]) <= score(raw, cats[k])
    ensures forall i :: 0 <= i < k ==> score(raw, cats[i]) < score(raw, cats[k])
  {
    ArgMax(Sims(raw, cats, score))
  }

  /** `category_names[np.argmax(sims)]`: the canonical name most similar to
      `raw`, the earliest one on a tie. */
  function Assign(raw: string, cats: seq<string>, score: Scorer): (c: string)
    requires |cats| > 0
    ensures c in cats
    ensures forall i :: 0 <= i < |cats| ==> score(raw, cats[i]) <= score(raw, c)
  {
    cats[AssignIndex(raw, cats, score)]
  }

  /** The assignment is determined by the scores: it is the earliest
      category whose score is not beaten by any category. */
  lemma AssignIsFirstBest(raw: string, cats: seq<string>, score: Scorer, k: nat)
    requires k < |cats|
    requires forall i :: 0 <= i < |cats| ==> score(raw, cats[i]) <= score(raw, cats[k])
    requires forall i :: 0 <= i < k ==> score(raw, cats[i]) < score(raw, cats[k])
    ensures Assign(raw, cats, score) == cats[k]
  {
  }
}

=== FILE: base.dfy ===
/** Failure-carrying datatypes shared by every module of the model. */
module Base {

  /** A value that may be absent: Python's `None`, a missing dictionary key,
      JavaScript's `undefined`. */
  datatype Option<+T> = None | Some(value: T) {
    function GetOr(default: T): T {
      match this
      case Some(v) => v
      case None => default
    }
  }

  /** The outcome of an operation that can raise: `Ok` carries the value,
      `Err` carries the error the source would raise or return. */
  datatype Result<+T, +E> = Ok(value: T) | Err(error: E)

  /** The value of the first pair whose key is `key`: `dict.get(key)` on a
      dictionary kept as its list of items. */
  function Lookup<K(==), V>(rows: seq<(K, V)>, key: K): (v: Option<V>)
    ensures v.Some? <==> exists i :: 0 <= i < |rows| && rows[i].0 == key
    ensures v.Some? ==> exists i :: 0 <= i < |rows| && rows[i] == (key, v.value)
  {
    if rows == [] then None
    else if rows[0].0 == key then Some(rows[0].1)
    else
      var v := Lookup(rows[1..], key);
      assert forall i :: 1 <= i < |rows| ==> rows[i] == rows[1..][i - 1];
      v
  }

  /** `a / b if b > 0 else 0`, the guarded ratio every stage computes: a
      share, a rate or an average, 0 when there is nothing to divide by. */
  function Ratio(a: int, b: nat): (r: real)
    ensures b == 0 ==> r == 0.0
    ensures b > 0 ==> r * (b as real) == a as real
  {
    if b > 0 then (a as real) / (b as real) else 0.0
  }
}

=== FILE: bson_json.dfy ===
/** `mongo_doc_to_json_dict` of `1-first_label.py`: turns a MongoDB
    document into one `json.dumps` accepts by rewriting `ObjectId` and
    `datetime` values as strings. A document is its fields in order. */
module BsonJson {
  import opened Base

  /** The BSON values the conversion distinguishes; `iso` is what
      `isoformat()` returns for the date. */
  datatype Value =
    | Null
    | Bool(b: bool)
    | Int(i: int)
    | Str(s: string)
    | ObjectId(hex: string)
    | DateTime(iso: string)
    | Doc(fields: seq<(string, Value)>)
    | List(items: seq<Value>)

  type Fields = seq<(string, Value)>

  /** One value under a key: `ObjectId` becomes its string, a dict is
      converted recursively, a list has its elements converted one level
      (dicts recursively, `ObjectId`s to strings, anything else kept, a
      `datetime` and a nested list included), a `datetime` becomes its ISO
      text, and anything else is kept. */
  function Convert(v: Value): (r: Value)
    decreases v, 1
  {
    match v
    case ObjectId(h) => Str(h)
    case Doc(fs) => Doc(seq(|fs|, i requires 0 <= i < |fs| => (fs[i].0, Convert(fs[i].1))))
    case List(xs) => List(seq(|xs|, i requires 0 <= i < |xs| => ConvertItem(xs[i])))
    case DateTime(iso) => Str(iso)
    case _ => v
  }

  /** The list comprehension's rule for one element. */
  function ConvertItem(x: Value): (r: Value)
    decreases x, 2
  {
    match x
    case Doc(_) => Convert(x)
    case ObjectId(h) => Str(h)
    case _ => x
  }

  /** `mongo_doc_to_json_dict(doc)`: `None` for `None`; otherwise the same
      keys in the same order, each value converted. */
  function ToJson(doc: Option<Fields>): (r: Option<Fields>)
    ensures doc.None? <==> r.None?
    ensures doc.Some? ==> |r.value| == |doc.value|
    ensures doc.Some? ==> forall i :: 0 <= i < |doc.value| ==>
      r.value[i].0 == doc.value[i].0 && r.value[i].1 == Convert(doc.value[i].1)
  {
    match doc
    case None => None
    case Some(fs) => Some(Convert(Doc(fs)).fields)
  }

  /** The per-kind rules for a value under a key, and the shape kept. */
  lemma ConvertRules(v: Value)
    ensures v.ObjectId? ==> Convert(v) == Str(v.hex)
    ensures v.DateTime? ==> Convert(v) == Str(v.iso)
    ensures v.Doc? ==> (Convert(v).Doc? && |Convert(v).fields| == |v.fields|
      && forall i :: 0 <= i < |v.fields| ==>
        Convert(v).fields[i].0 == v.fields[i].0 && Convert(v).fields[i].1 == Convert(v.fields[i].1))
    ensures v.List? ==> (Convert(v).List? && |Convert(v).items| == |v.items|
      && forall i :: 0 <= i < |v.items| ==>
        Convert(v).items[i] == (if v.items[i].Doc? then Convert(v.items[i])
                                else if v.items[i].ObjectId? then Str(v.items[i].hex)
                                else v.items[i]))
    ensures !(v.ObjectId? || v.DateTime? || v.Doc? || v.List?) ==> Convert(v) == v
  {
  }

  /** No `ObjectId` and no `datetime` anywhere: what `json.dumps` can
      write. */
  predicate Plain(v: Value)
    decreases v
  {
    match v
    case ObjectId(_) => false
    case DateTime(_) => false
    case Doc(fs) => forall i :: 0 <= i < |fs| ==> Plain(fs[i].1)
    case List(xs) => forall i :: 0 <= i < |xs| ==> Plain(xs[i])
    case _ => true
  }

  /** The documents the conversion makes fully plain: inside a list, no
      element is a `datetime`, and a nested list is already plain. */
  predicate Convertible(v: Value)
    decreases v, 1
  {
    match v
    case Doc(fs) => forall i :: 0 <= i < |fs| ==> Convertible(fs[i].1)
    case List(xs) => forall i :: 0 <= i < |xs| ==> ItemConvertible(xs[i])
    case _ => true
  }

  predicate ItemConvertible(x: Value)
    decreases x, 2
  {
    match x
    case Doc(_) => Convertible(x)
    case ObjectId(_) => true
    case DateTime(_) => false
    case _ => Plain(x)
  }

  /** The conversion's output is plain exactly when the input is
      convertible: a `datetime` or an `ObjectId` inside a nested list, or a
      `datetime` directly in a list, survives it. */
  lemma {:induction false} PlainIffConvertible(v: Value)
    ensures Plain(Convert(v)) <==> Convertible(v)
    decreases v
  {
    match v
    case Doc(fs) =>
      var r := Convert(v);
      forall i | 0 <= i < |fs| ensures Plain(r.fields[i].1) <==> Convertible(fs[i].1) {
        PlainIffConvertible(fs[i].1);
      }
    case List(xs) =>
      var r := Convert(v);
      forall i | 0 <= i < |xs| ensures Plain(r.items[i]) <==> ItemConvertible(xs[i]) {
        assert r.items[i] == ConvertItem(xs[i]);
        if xs[i].Doc? {
          PlainIffConvertible(xs[i]);
        }
      }
    case _ =>
  }

  /** Converting twice is converting once. */
  lemma {:induction false} ConvertIdempotent(v: Value)
    ensures Convert(Convert(v)) == Convert(v)
    decreases v
  {
    match v
    case Doc(fs) =>
      var r := Convert(v);
      forall i | 0 <= i < |fs| ensures Convert(r.fields[i].1) == r.fields[i].1 {
        ConvertIdempotent(fs[i].1);
      }
      assert Convert(r).fields == r.fields;
    case List(xs) =>
      var r := Convert(v);
      forall i | 0 <= i < |xs| ensures ConvertItem(r.items[i]) == r.items[i] {
        assert r.items[i] == ConvertItem(xs[i]);
        if xs[i].Doc? {
          ConvertIdempotent(xs[i]);
        }
      }
      assert Convert(r).items == r.items;
    case _ =>
  }
}

=== FILE: classification_prompts.dfy ===
/** The two classification prompts of `prompts.py`. A prompt is kept as its
    structure: which template it is, the raw categories it carries and the
    scene it names. The fixed instruction and output-format prose of the
    templates is not part of the model; `Render` lays out the headed
    sections that carry the inputs. */
module ClassificationPrompts {

  /** `user_profile_classification_prompt` or
      `product_topic_classification_prompt`. */
  datatype Template = ProfileTemplate | TopicTemplate

  datatype ClassificationPrompt = ClassificationPrompt(template: Template, origin: string, scene: string)

  const OriginHeading := "# 原始分类信息：\n"
  const TopicOriginHeading := "# 原始话题分类信息：\n"
  const SceneHeading := "# 分类场景：\n"

  /** `user_profile_classification_prompt(origin_category, category_type)`:
      the raw categories and the category type, both verbatim. */
  function ProfilePrompt(origin: string, categoryType: string): (p: ClassificationPrompt)
    ensures p.template == ProfileTemplate && p.origin == origin && p.scene == categoryType
  {
    ClassificationPrompt(ProfileTemplate, origin, categoryType)
  }

  /** `product_topic_classification_prompt(origin_category, category_type)`:
      the raw topics verbatim, and the scene "电商商品<type>评价分析". */
  function TopicPrompt(origin: string, productType: string): (p: ClassificationPrompt)
    ensures p.template == TopicTemplate && p.origin == origin
    ensures |p.scene| == |productType| + 8
    ensures p.scene[..4] == "电商商品" && p.scene[4..4 + |productType|] == productType
    ensures p.scene[4 + |productType|..] == "评价分析"
  {
    ClassificationPrompt(TopicTemplate, origin, "电商商品" + productType + "评价分析")
  }

  /** The headed sections of the rendered prompt: the origin section, then
      the scene section. The topic template leaves a blank line after each
      body. */
  function Render(p: ClassificationPrompt): (r: string)
  {
    match p.template
    case ProfileTemplate => OriginHeading + p.origin + "\n" + SceneHeading + p.scene + "\n"
    case TopicTemplate => TopicOriginHeading + p.origin + "\n\n" + SceneHeading + p.scene + "\n\n"
  }

  /** Where the origin section's body starts in the rendered text. */
  function OriginStart(t: Template): nat {
    match t
    case ProfileTemplate => |OriginHeading|
    case TopicTemplate => |TopicOriginHeading|
  }

  /** Where the scene section's body starts in the rendered text. */
  function SceneStart(p: ClassificationPrompt): nat {
    match p.template
    case ProfileTemplate => |OriginHeading| + |p.origin| + 1 + |SceneHeading|
    case TopicTemplate => |TopicOriginHeading| + |p.origin| + 2 + |SceneHeading|
  }

  /** Both inputs appear verbatim in the rendered prompt, at the start of
      their sections, each right after its heading. */
  lemma RenderEmbedsInputs(p: ClassificationPrompt)
    ensures OriginStart(p.template) + |p.origin| <= SceneStart(p) && SceneStart(p) + |p.scene| <= |Render(p)|
    ensures Render(p)[OriginStart(p.template)..OriginStart(p.template) + |p.origin|] == p.origin
    ensures Render(p)[SceneStart(p)..SceneStart(p) + |p.scene|] == p.scene
    ensures Render(p)[SceneStart(p) - |SceneHeading|..SceneStart(p)] == SceneHeading
  {
    var r := Render(p);
    var h := if p.template.ProfileTemplate? then OriginHeading else TopicOriginHeading;
    var gap := if p.template.ProfileTemplate? then "\n" else "\n\n";
    assert r == h + p.origin + gap + SceneHeading + p.scene + gap;
    var o := |h|;
    var s := |h| + |p.origin| + |gap| + |SceneHeading|;
    assert r[o..o + |p.origin|] == p.origin;
    assert r[s - |SceneHeading|..s] == SceneHeading;
    assert r[s..s + |p.scene|] == p.scene;
  }

  /** Different inputs give different prompts: the classifier is always
      told which categories and which scene it is working on. */
  lemma RenderDistinguishesOrigins(p: ClassificationPrompt, q: ClassificationPrompt)
    requires p.template == q.template && |p.origin| == |q.origin|
    requires Render(p) == Render(q)
    ensures p.origin == q.origin && p.scene == q.scene
  {
    RenderEmbedsInputs(p);
    RenderEmbedsInputs(q);
    assert |p.scene| == |q.scene|;
  }
}

=== FILE: comments.dfy ===
/** Comment retrieval for the summaries: the MongoDB queries of
    `MongoDBClient.get_comments_by_criteria` and the random sampling of
    `_sample_comments`. */
module Comments {
  import opened Base
  import opened Records


  /** `user_profile.<field> == value` as MongoDB matches it: a null value
      also matches a document without the field. */
  predicate ProfileMatches(r: Record, field: string, value: Option<string>) {
    if value.None? then field !in r.profile || r.profile[field].None?
    else field in r.profile && r.profile[field] == value
  }

  /** Some item of a non-empty topic list matches topic and polarity exactly. */
  predicate TopicMatches(r: Record, topic: Option<string>, polarity: Option<string>) {
    r.topics.Some? && r.topics.value != []
    && exists k :: 0 <= k < |r.topics.value|
         && ItemGet(r.topics.value[k], "topic") == topic && ItemGet(r.topics.value[k], "polarity") == polarity
  }

  /** The criteria `get_comments_by_criteria` is called with. */
  datatype Criteria =
    | ByProfile(field: string, value: Option<string>)
    | ByTopic(topic: Option<string>, polarity: Option<string>)
    | Other

  predicate Selects(c: Criteria, r: Record) {
    match c
    case ByProfile(field, value) => ProfileMatches(r, field, value)
    case ByTopic(topic, polarity) => TopicMatches(r, topic, polarity)
    case Other => false
  }

  /** The number of documents the criteria select. */
  function SelectedCount(store: Store, c: Criteria): nat {
    if store == [] then 0 else (if Selects(c, store[0]) then 1 else 0) + SelectedCount(store[1..], c)
  }

  /** `MongoDBClient.get_comments_by_criteria` before sampling: by profile,
      the comments of every document (in any project) whose field has the
      value; by topic, the comment of every document with a non-empty topic
      list in which some item matches topic and polarity exactly; for any
      other criteria type, nothing. Each selected document contributes
      exactly one comment, in store order. */
  function CommentsFor(store: Store, c: Criteria): (r: seq<string>)
    ensures c.Other? ==> r == []
    ensures forall k :: 0 <= k < |store| && Selects(c, store[k]) ==> store[k].comment in r
    ensures forall i :: 0 <= i < |r| ==> CommentOf(store, c, r[i])
  {
    if store == [] || c.Other? then []
    else
      var rest := CommentsFor(store[1..], c);
      CommentsForStep(store, c, rest);
      if Selects(c, store[0]) then [store[0].comment] + rest else rest
  }

  /** `x` is the comment of a document the criteria select. */
  predicate CommentOf(store: Store, c: Criteria, x: string) {
    exists k :: 0 <= k < |store| && Selects(c, store[k]) && x == store[k].comment
  }

  /** Both halves of `CommentsFor`'s contract carry over from the tail to
      the whole store. */
  lemma CommentsForStep(store: Store, c: Criteria, rest: seq<string>)
    requires store != []
    requires forall k :: 0 <= k < |store[1..]| && Selects(c, store[1..][k]) ==> store[1..][k].comment in rest
    requires forall i :: 0 <= i < |rest| ==> CommentOf(store[1..], c, rest[i])
    ensures var r := if Selects(c, store[0]) then [store[0].comment] + rest else rest;
      (forall k :: 0 <= k < |store| && Selects(c, store[k]) ==> store[k].comment in r)
      && (forall i :: 0 <= i < |r| ==> CommentOf(store, c, r[i]))
  {
    var r := if Selects(c, store[0]) then [store[0].comment] + rest else rest;
    forall k | 0 <= k < |store| && Selects(c, store[k])
      ensures store[k].comment in r
    {
      if k > 0 {
        assert store[k] == store[1..][k - 1];
      }
    }
    forall x | x in rest
      ensures CommentOf(store, c, x)
    {
      var i :| 0 <= i < |rest| && rest[i] == x;
      var k :| 0 <= k < |store[1..]| && Selects(c, store[1..][k]) && x == store[1..][k].comment;
      assert store[k + 1] == store[1..][k];
    }
    forall i | 0 <= i < |r|
      ensures CommentOf(store, c, r[i])
    {
      if Selects(c, store[0]) && i == 0 {
        assert Selects(c, store[0]) && r[0] == store[0].comment;
      } else {
        assert r[i] in rest;
      }
    }
  }

  /** One comment per selected document: a topic item matching twice in one
      document still yields its comment once. */
  lemma {:induction false} CommentsForCount(store: Store, c: Criteria)
    ensures |CommentsFor(store, c)| == SelectedCount(store, c)
  {
    if store != [] && !c.Other? {
      CommentsForCount(store[1..], c);
    } else if store != [] {
      SelectedNone(store);
    }
  }

  lemma {:induction false} SelectedNone(store: Store)
    ensures SelectedCount(store, Other) == 0
  {
    if store != [] {
      SelectedNone(store[1..]);
    }
  }

  /** `random.sample(comments, max_reviews)` is given by the positions it
      picks: distinct, in range, exactly `max` of them. */
  predicate ValidPicks(picks: seq<nat>, size: nat, max: nat) {
    |picks| == max
    && (forall i :: 0 <= i < |picks| ==> picks[i] < size)
    && (forall i, j :: 0 <= i < j < |picks| ==> picks[i] != picks[j])
  }

  /** `MongoDBClient._sample_comments`: nothing for nothing, everything when
      there are at most `max`, otherwise exactly `max` of them, drawn from
      distinct positions. */
  function SampleComments(comments: seq<string>, max: nat, picks: seq<nat>): (r: seq<string>)
    requires |comments| > max ==> ValidPicks(picks, |comments|, max)
    ensures comments == [] ==> r == []
    ensures |comments| <= max ==> r == comments
    ensures |comments| > max ==>
      (|r| == max && forall i :: 0 <= i < |r| ==> r[i] == comments[picks[i]])
    ensures multiset(r) <= multiset(comments)
  {
    if comments == [] || |comments| <= max then comments
    else
      var r := seq(max, i requires 0 <= i < max => comments[picks[i]]);
      PicksSubMultiset(comments, picks);
      r
  }

  /** Elements taken from distinct positions form a sub-multiset. */
  lemma {:induction false} PicksSubMultiset(s: seq<string>, picks: seq<nat>)
    requires forall i :: 0 <= i < |picks| ==> picks[i] < |s|
    requires forall i, j :: 0 <= i < j < |picks| ==> picks[i] != picks[j]
    ensures multiset(seq(|picks|, i requires 0 <= i < |picks| => s[picks[i]])) <= multiset(s)
    decreases |picks|
  {
    if picks != [] {
      var p := picks[|picks| - 1];
      var init := picks[..|picks| - 1];
      var left := s[..p] + s[p + 1..];
      assert s == s[..p] + [s[p]] + s[p + 1..];
      var adj := seq(|init|, i requires 0 <= i < |init| => if init[i] < p then init[i] else init[i] - 1);
      forall i | 0 <= i < |init| ensures adj[i] < |left| && left[adj[i]] == s[init[i]] {
        assert init[i] != p;
      }
      forall i, j | 0 <= i < j < |adj| ensures adj[i] != adj[j] {
        assert init[i] != p && init[j] != p;
      }
      PicksSubMultiset(left, adj);
      var taken := seq(|picks|, i requires 0 <= i < |picks| => s[picks[i]]);
      var takenInit := seq(|adj|, i requires 0 <= i < |adj| => left[adj[i]]);
      assert taken == takenInit + [s[p]];
      assert multiset(s) == multiset(left) + multiset{s[p]};
    }
  }
}

=== FILE: correction.dfy ===
/** The category-normalisation engine of `2-second_data_correction.py`:
    collect the distinct non-blank raw labels of a profile field or of the
    product topics, ask a classifier for canonical names, assign every raw
    label to its most similar canonical name, and write the result back
    onto the `llm_results` documents. The classifier (the chat model behind
    `get_category_from_llm`) and the similarity score (cosine similarity of
    sentence embeddings) are parameters. */
module Correction {
  import opened Base
  import opened Text
  import opened Tally
  import opened Records
  import opened Assignment
  import opened ClassificationPrompts

  /** `get_category_from_llm`: the canonical names the model proposes for a
      prompt, or `None` when the call failed or the reply has no
      "categories" key (the function catches every error and returns
      `None`). */
  type Classifier = ClassificationPrompt -> Option<seq<string>>

  /** The fallback category. */
  const Unknown := "未知"

  // ---------------------------------------------------------------------
  // get_profile_stats

  /** One `{field: value, "count": n, "percent": p}` row; `percent` is the
      exact ratio (the source rounds it to four places). */
  datatype StatRow = StatRow(value: Option<string>, count: nat, percent: real)

  /** The rows of one field given its values, one per distinct value in
      first-occurrence order. */
  function StatRows(vs: seq<Option<string>>): (r: seq<StatRow>)
    ensures |r| == |Distinct(vs)|
    ensures forall i :: 0 <= i < |r| ==> r[i].value == Distinct(vs)[i] && r[i].count == Count(vs, r[i].value)
    ensures forall i :: 0 <= i < |r| ==> r[i].percent == Ratio(r[i].count, |vs|)
  {
    var vc := ValueCounts(vs);
    seq(|vc|, i requires 0 <= i < |vc| => StatRow(vc[i].0, vc[i].1, Ratio(vc[i].1, |vs|)))
  }

  /** `get_profile_stats` for one field: one row per distinct value among
      the in-scope documents, a missing field counting as "". */
  function FieldStats(store: Store, projectCode: string, solution: string, field: string): seq<StatRow> {
    StatRows(FieldValues(store, projectCode, solution, field))
  }

  function RowCounts(rows: seq<StatRow>): nat {
    if rows == [] then 0 else RowCounts(rows[..|rows| - 1]) + rows[|rows| - 1].count
  }

  function RowValues(rows: seq<StatRow>): (vs: seq<Option<string>>)
    ensures |vs| == |rows| && forall i :: 0 <= i < |rows| ==> vs[i] == rows[i].value
  {
    seq(|rows|, i requires 0 <= i < |rows| => rows[i].value)
  }

  /** The counts of a field add up to the number of in-scope documents,
      every value of every document is listed, and each value once. */
  lemma FieldStatsComplete(store: Store, projectCode: string, solution: string, field: string)
    ensures RowCounts(FieldStats(store, projectCode, solution, field)) == |Scoped(store, projectCode, solution)|
    ensures NoDuplicates(RowValues(FieldStats(store, projectCode, solution, field)))
    ensures forall k :: 0 <= k < |Scoped(store, projectCode, solution)| ==>
      ProfileValue(Scoped(store, projectCode, solution)[k], field) in RowValues(FieldStats(store, projectCode, solution, field))
  {
    var vs := FieldValues(store, projectCode, solution, field);
    StatRowsComplete(vs);
  }

  /** The rows' counts add up to the number of values, and the rows list
      every value once. */
  lemma StatRowsComplete(vs: seq<Option<string>>)
    ensures RowCounts(StatRows(vs)) == |vs|
    ensures NoDuplicates(RowValues(StatRows(vs)))
    ensures forall k :: 0 <= k < |vs| ==> vs[k] in RowValues(StatRows(vs))
  {
    var rows := StatRows(vs);
    ValueCountsSum(vs);
    RowCountsPairs(rows, ValueCounts(vs));
    assert RowValues(rows) == Distinct(vs);
  }

  lemma {:induction false} RowCountsPairs(rows: seq<StatRow>, vc: seq<(Option<string>, nat)>)
    requires |rows| == |vc| && forall i :: 0 <= i < |rows| ==> rows[i].count == vc[i].1
    ensures RowCounts(rows) == SumSecond(vc)
  {
    if rows != [] {
      RowCountsPairs(rows[..|rows| - 1], vc[..|vc| - 1]);
    }
  }

  /** `get_profile_stats(fields)`: the rows of each field. */
  function ProfileStats(store: Store, projectCode: string, solution: string, fields: seq<string>): (r: seq<(string, seq<StatRow>)>)
    ensures |r| == |fields|
    ensures forall i :: 0 <= i < |r| ==> r[i] == (fields[i], FieldStats(store, projectCode, solution, fields[i]))
  {
    seq(|fields|, i requires 0 <= i < |fields| => (fields[i], FieldStats(store, projectCode, solution, fields[i])))
  }

  // ---------------------------------------------------------------------
  // Collecting raw labels

  /** The values that are present and not blank after stripping, in order:
      the `is not None and str(v).strip() != ''` filter. */
  function NonBlankLabels(vs: seq<Option<string>>): (r: seq<string>)
    ensures |r| <= |vs|
    ensures forall i :: 0 <= i < |r| ==> !IsBlank(r[i]) && Some(r[i]) in vs
    ensures forall v :: v in vs && v.Some? && !IsBlank(v.value) ==> v.value in r
  {
    if vs == [] then []
    else
      var rest := NonBlankLabels(vs[1..]);
      assert vs == [vs[0]] + vs[1..];
      if vs[0].Some? && !IsBlank(vs[0].value) then [vs[0].value] + rest else rest
  }

  /** Distinct values give distinct labels. */
  lemma {:induction false} NonBlankLabelsDistinct(vs: seq<Option<string>>)
    ensures NoDuplicates(vs) ==> NoDuplicates(NonBlankLabels(vs))
  {
    if vs != [] && NoDuplicates(vs) {
      NoDuplicatesTail(vs);
      NonBlankLabelsDistinct(vs[1..]);
      var rest := NonBlankLabels(vs[1..]);
      if vs[0].Some? && !IsBlank(vs[0].value) {
        forall i | 0 <= i < |rest| ensures rest[i] != vs[0].value {
          assert Some(rest[i]) in vs[1..];
        }
        NoDuplicatesCons(vs[0].value, rest);
        assert vs == [vs[0]] + vs[1..];
      } else {
        assert vs == [vs[0]] + vs[1..];
      }
    }
  }

  /** The raw labels of a profile field: its non-blank stored values. */
  function ProfileLabels(rows: seq<StatRow>): (r: seq<string>)
    ensures forall i :: 0 <= i < |r| ==> !IsBlank(r[i]) && exists k :: 0 <= k < |rows| && rows[k].value == Some(r[i])
    ensures forall k :: 0 <= k < |rows| && rows[k].value.Some? && !IsBlank(rows[k].value.value) ==> rows[k].value.value in r
    ensures NoDuplicates(RowValues(rows)) ==> NoDuplicates(r)
  {
    var vs := RowValues(rows);
    var r := NonBlankLabels(vs);
    assert forall i :: 0 <= i < |r| ==> Some(r[i]) in vs;
    assert forall k :: 0 <= k < |rows| ==> rows[k].value in vs;
    NonBlankLabelsDistinct(vs);
    r
  }

  /** `v` is what `item.get("topic")` gives for some item of some in-scope
      document with a topic list. */
  ghost predicate FromItem(store: Store, projectCode: string, solution: string, v: Option<string>) {
    exists k, j :: 0 <= k < |store| && InScope(store[k], projectCode, solution) && store[k].topics.Some?
      && 0 <= j < |store[k].topics.value| && ItemGet(store[k].topics.value[j], "topic") == v
  }

  /** An item of a later document is an item of the whole store. */
  lemma FromItemTail(store: Store, projectCode: string, solution: string)
    requires store != []
    ensures forall v :: FromItem(store[1..], projectCode, solution, v) ==> FromItem(store, projectCode, solution, v)
  {
  }

  /** The topic of every item of every in-scope document that has a topic
      list, in order: the `$match` and `$unwind` stages. An item without a
      "topic" key contributes `None`. Nothing else is listed. */
  function TopicValues(store: Store, projectCode: string, solution: string): (r: seq<Option<string>>)
    ensures forall k, j :: (0 <= k < |store| && InScope(store[k], projectCode, solution) && store[k].topics.Some?
      && 0 <= j < |store[k].topics.value|) ==> ItemGet(store[k].topics.value[j], "topic") in r
    ensures forall i :: 0 <= i < |r| ==> FromItem(store, projectCode, solution, r[i])
    decreases |store|
  {
    if store == [] then []
    else
      var here := if InScope(store[0], projectCode, solution) && store[0].topics.Some?
                  then ItemTopics(store[0].topics.value) else [];
      var rest := TopicValues(store[1..], projectCode, solution);
      assert forall k :: 1 <= k < |store| ==> store[k] == store[1..][k - 1];
      FromItemTail(store, projectCode, solution);
      assert forall i :: 0 <= i < |here| ==> FromItem(store, projectCode, solution, here[i]) by {
        if here != [] {
          assert forall i :: 0 <= i < |here| ==> here[i] == ItemGet(store[0].topics.value[i], "topic");
        }
      }
      here + rest
  }

  function ItemTopics(items: seq<TopicItem>): (r: seq<Option<string>>)
    ensures |r| == |items| && forall j :: 0 <= j < |items| ==> r[j] == ItemGet(items[j], "topic")
  {
    seq(|items|, j requires 0 <= j < |items| => ItemGet(items[j], "topic"))
  }

  /** The raw topics: the `$group` by topic, then the filter dropping null
      and blank topics. Grouping order is taken to be first occurrence. */
  function TopicLabels(store: Store, projectCode: string, solution: string): (r: seq<string>)
    ensures NoDuplicates(r)
    ensures forall i :: 0 <= i < |r| ==> !IsBlank(r[i])
    ensures forall k, j :: (0 <= k < |store| && InScope(store[k], projectCode, solution) && store[k].topics.Some?
      && 0 <= j < |store[k].topics.value| && "topic" in store[k].topics.value[j]
      && !IsBlank(store[k].topics.value[j]["topic"])) ==> store[k].topics.value[j]["topic"] in r
    ensures forall i :: 0 <= i < |r| ==> FromItem(store, projectCode, solution, Some(r[i]))
  {
    var vs := TopicValues(store, projectCode, solution);
    var d := Distinct(vs);
    var r := NonBlankLabels(d);
    NonBlankLabelsDistinct(d);
    forall k, j | 0 <= k < |store| && InScope(store[k], projectCode, solution) && store[k].topics.Some?
      && 0 <= j < |store[k].topics.value| && "topic" in store[k].topics.value[j]
      && !IsBlank(store[k].topics.value[j]["topic"])
      ensures store[k].topics.value[j]["topic"] in r
    {
      var v := ItemGet(store[k].topics.value[j], "topic");
      assert v in vs;
      var i :| 0 <= i < |vs| && vs[i] == v;
      assert v in d;
    }
    assert forall i :: 0 <= i < |r| ==> Some(r[i]) in vs;
    r
  }

  // ---------------------------------------------------------------------
  // Assignment

  /** The audit rows `{"原始类别": raw, "归属类别": category}` (and the topic
      mapping): each label with the category it is assigned. */
  function AssignAll(labels: seq<string>, cats: seq<string>, score: Scorer): (r: seq<(string, string)>)
    requires |cats| > 0
    ensures |r| == |labels|
    ensures forall i :: 0 <= i < |r| ==> r[i].0 == labels[i] && r[i].1 == Assign(labels[i], cats, score) && r[i].1 in cats
  {
    seq(|labels|, i requires 0 <= i < |labels| => (labels[i], Assign(labels[i], cats, score)))
  }

  /** Every label is mapped to one category. */
  predicate Functional(rows: seq<(string, string)>) {
    forall i, j :: 0 <= i < |rows| && 0 <= j < |rows| && rows[i].0 == rows[j].0 ==> rows[i].1 == rows[j].1
  }

  lemma AssignAllFunctional(labels: seq<string>, cats: seq<string>, score: Scorer)
    requires |cats| > 0
    ensures Functional(AssignAll(labels, cats, score))
  {
  }

  // ---------------------------------------------------------------------
  // Scalar write-back: update_many per raw label

  /** The key the corrected value is written under. */
  function NewKey(field: string): (k: string)
    ensures k != field && |k| == |field| + 4
  {
    "new_" + field
  }

  /** `{"project_code": p, "solution": s, "user_profile.<field>": raw}`. */
  predicate RawMatches(r: Record, projectCode: string, solution: string, field: string, raw: string) {
    InScope(r, projectCode, solution) && field in r.profile && r.profile[field] == Some(raw)
  }

  function SetCategory(r: Record, field: string, cat: string): (r': Record)
    ensures r' == r.(profile := r.profile[NewKey(field) := Some(cat)])
    ensures field in r'.profile <==> field in r.profile
    ensures field in r.profile ==> r'.profile[field] == r.profile[field]
  {
    r.(profile := r.profile[NewKey(field) := Some(cat)])
  }

  /** `update_many(filter, {"$set": {"user_profile.new_<field>": cat}})`:
      the new store and its `modified_count`. */
  function UpdateMany(store: Store, projectCode: string, solution: string, field: string, raw: string, cat: string): (r: (Store, nat))
    ensures |r.0| == |store|
    ensures forall i :: 0 <= i < |store| ==>
      r.0[i] == (if RawMatches(store[i], projectCode, solution, field, raw) then SetCategory(store[i], field, cat) else store[i])
    ensures r.1 == CountChanged(store, r.0)
  {
    var next := seq(|store|, i requires 0 <= i < |store| =>
      if RawMatches(store[i], projectCode, solution, field, raw) then SetCategory(store[i], field, cat) else store[i]);
    (next, CountChanged(store, next))
  }

  /** The loop of `normalize_user_profile_field`: one `update_many` per
      audit row, in order, summing `modified_count`. */
  function ApplyRows(store: Store, projectCode: string, solution: string, field: string, rows: seq<(string, string)>): (r: (Store, nat))
    ensures |r.0| == |store|
    decreases |rows|
  {
    if rows == [] then (store, 0)
    else
      var step := UpdateMany(store, projectCode, solution, field, rows[0].0, rows[0].1);
      var rest := ApplyRows(step.0, projectCode, solution, field, rows[1..]);
      (rest.0, step.1 + rest.1)
  }

  /** The corrected form of one document, independent of update order: an
      in-scope document whose raw value has an audit row gets that row's
      category under `new_<field>`; every other document is left alone. */
  function Corrected(r: Record, projectCode: string, solution: string, field: string, rows: seq<(string, string)>): (r': Record)
    ensures !InScope(r, projectCode, solution) ==> r' == r
    ensures r' == r || (field in r.profile && r.profile[field].Some?
      && exists c :: r' == SetCategory(r, field, c) && Some(c) == Lookup(rows, r.profile[field].value))
  {
    if InScope(r, projectCode, solution) && field in r.profile && r.profile[field].Some?
       && Lookup(rows, r.profile[field].value).Some?
    then SetCategory(r, field, Lookup(rows, r.profile[field].value).value)
    else r
  }

  /** Correcting a corrected document changes nothing: the raw value the
      correction reads is not the key it writes. */
  lemma CorrectedIdempotent(r: Record, projectCode: string, solution: string, field: string, rows: seq<(string, string)>)
    ensures var c := Corrected(r, projectCode, solution, field, rows);
      Corrected(c, projectCode, solution, field, rows) == c
  {
  }

  /** The sequential `update_many` loop computes `Corrected` on every
      document, and its summed `modified_count` is the number of documents
      that changed. */
  lemma {:induction false} ApplyRowsCorrects(store: Store, projectCode: string, solution: string, field: string, rows: seq<(string, string)>)
    requires Functional(rows)
    ensures var r := ApplyRows(store, projectCode, solution, field, rows);
      (forall i :: 0 <= i < |store| ==> r.0[i] == Corrected(store[i], projectCode, solution, field, rows))
      && r.1 == CountChanged(store, r.0)
    decreases |rows|
  {
    if rows != [] {
      var step := UpdateMany(store, projectCode, solution, field, rows[0].0, rows[0].1);
      var rest := rows[1..];
      assert Functional(rest) by {
        forall i, j | 0 <= i < |rest| && 0 <= j < |rest| && rest[i].0 == rest[j].0 ensures rest[i].1 == rest[j].1 {
          assert rest[i] == rows[i + 1] && rest[j] == rows[j + 1];
        }
      }
      ApplyRowsCorrects(step.0, projectCode, solution, field, rest);
      var fin := ApplyRows(step.0, projectCode, solution, field, rest).0;
      forall i | 0 <= i < |store|
        ensures fin[i] == Corrected(store[i], projectCode, solution, field, rows)
        ensures store[i] != step.0[i] ==> step.0[i] == fin[i]
      {
        CorrectedStep(store[i], projectCode, solution, field, rows);
      }
      CountChangedSplit(store, step.0, fin);
    }
  }

  /** One document through the first update and then the rest. */
  lemma CorrectedStep(r: Record, projectCode: string, solution: string, field: string, rows: seq<(string, string)>)
    requires Functional(rows) && rows != []
    ensures var s := if RawMatches(r, projectCode, solution, field, rows[0].0) then SetCategory(r, field, rows[0].1) else r;
      Corrected(s, projectCode, solution, field, rows[1..]) == Corrected(r, projectCode, solution, field, rows)
      && (s != r ==> Corrected(s, projectCode, solution, field, rows[1..]) == s)
  {
    var rest := rows[1..];
    if RawMatches(r, projectCode, solution, field, rows[0].0) {
      var s := SetCategory(r, field, rows[0].1);
      var l := Lookup(rest, rows[0].0);
      if l.Some? {
        var i :| 0 <= i < |rest| && rest[i] == (rows[0].0, l.value);
        assert rows[i + 1] == rest[i];
      }
    } else if InScope(r, projectCode, solution) && field in r.profile && r.profile[field].Some? {
      assert Lookup(rows, r.profile[field].value) == Lookup(rest, r.profile[field].value);
    }
  }

  /** Changes made by a first update and not undone by a second add up. */
  lemma {:induction false} CountChangedSplit(a: Store, b: Store, c: Store)
    requires |a| == |b| == |c|
    requires forall i :: 0 <= i < |a| && a[i] != b[i] ==> b[i] == c[i]
    ensures CountChanged(a, c) == CountChanged(a, b) + CountChanged(b, c)
  {
    if a != [] {
      CountChangedSplit(a[1..], b[1..], c[1..]);
    }
  }

  /** Applying the same audit rows a second time changes nothing and
      modifies no document. */
  lemma ApplyRowsIdempotent(store: Store, projectCode: string, solution: string, field: string, rows: seq<(string, string)>)
    requires Functional(rows)
    ensures var once := ApplyRows(store, projectCode, solution, field, rows).0;
      ApplyRows(once, projectCode, solution, field, rows) == (once, 0)
  {
    var once := ApplyRows(store, projectCode, solution, field, rows).0;
    ApplyRowsCorrects(store, projectCode, solution, field, rows);
    ApplyRowsCorrects(once, projectCode, solution, field, rows);
    var twice := ApplyRows(once, projectCode, solution, field, rows).0;
    forall i | 0 <= i < |once| ensures twice[i] == once[i] {
      CorrectedIdempotent(store[i], projectCode, solution, field, rows);
    }
    assert twice == once;
  }

  // ---------------------------------------------------------------------
  // normalize_user_profile_field

  /** `next` is `store` with at most the in-scope documents rewritten. */
  predicate OutOfScopeKept(store: Store, next: Store, projectCode: string, solution: string) {
    |next| == |store|
    && forall k :: 0 <= k < |store| && !InScope(store[k], projectCode, solution) ==> next[k] == store[k]
  }

  lemma OutOfScopeKeptTrans(a: Store, b: Store, c: Store, projectCode: string, solution: string)
    requires OutOfScopeKept(a, b, projectCode, solution) && OutOfScopeKept(b, c, projectCode, solution)
    ensures OutOfScopeKept(a, c, projectCode, solution)
  {
    forall k | 0 <= k < |a| && !InScope(a[k], projectCode, solution) ensures c[k] == a[k] {
      assert b[k] == a[k];
    }
  }

  /** How a normalisation run ended: it wrote its results; the classifier
      gave no usable answer (an empty result is returned before any write);
      or `np.argmax` raised on an empty category list (before any write). */
  datatype Status = Completed | ProposalFailed | Raised(error: string)

  /** The audit rows the run returns, the store after it, and the summed
      `modified_count` (the topic rewrite counts updated documents). */
  datatype Run = Run(status: Status, rows: seq<(string, string)>, store: Store, modified: nat)

  /** `normalize_user_profile_field(field_name, category_type, profile_stats)`
      given the field's rows of `profile_stats`. */
  function NormalizeField(store: Store, projectCode: string, solution: string, field: string, categoryType: string,
                          stats: seq<StatRow>, classify: Classifier, score: Scorer): (r: Run)
    ensures var labels := ProfileLabels(stats);
      var proposal := classify(ProfilePrompt(Join(labels, ","), categoryType));
      && (r.status == ProposalFailed <==> proposal.None?)
      && (r.status == Raised("ValueError") <==> proposal.Some? && proposal.value == [] && labels != [])
      && (r.status != Completed ==> r.rows == [] && r.store == store && r.modified == 0)
      && (r.status == Completed ==>
            |r.rows| == |labels|
            && (forall i :: 0 <= i < |labels| ==> r.rows[i].0 == labels[i] && r.rows[i].1 in proposal.value)
            && |r.store| == |store|
            && (forall i :: 0 <= i < |store| ==> r.store[i] == Corrected(store[i], projectCode, solution, field, r.rows))
            && r.modified == CountChanged(store, r.store))
    ensures OutOfScopeKept(store, r.store, projectCode, solution)
    ensures r.status == FieldStatus(stats, categoryType, classify)
    ensures r.rows == FieldRows(stats, categoryType, classify, score)
  {
    var status := FieldStatus(stats, categoryType, classify);
    var rows := FieldRows(stats, categoryType, classify, score);
    if status == Completed && rows != [] then
      var applied := ApplyRows(store, projectCode, solution, field, rows);
      ApplyRowsCorrects(store, projectCode, solution, field, rows);
      Run(Completed, rows, applied.0, applied.1)
    else Run(status, rows, store, 0)
  }

  /** How a field's run ends, decided before any write: no proposal, an
      empty proposal for some labels (`np.argmax` of an empty list), or
      completion. */
  function FieldStatus(stats: seq<StatRow>, categoryType: string, classify: Classifier): Status {
    var labels := ProfileLabels(stats);
    match classify(ProfilePrompt(Join(labels, ","), categoryType))
    case None => ProposalFailed
    case Some(cats) => if labels != [] && cats == [] then Raised("ValueError") else Completed
  }

  /** A field's audit table: each label with its assigned category, when
      the classifier proposed categories for some labels; empty otherwise. */
  function FieldRows(stats: seq<StatRow>, categoryType: string, classify: Classifier, score: Scorer): seq<(string, string)> {
    var labels := ProfileLabels(stats);
    match classify(ProfilePrompt(Join(labels, ","), categoryType))
    case None => []
    case Some(cats) => if labels != [] && cats != [] then AssignAll(labels, cats, score) else []
  }

  /** Every in-scope document whose raw value is a non-blank label of the
      field's statistics ends up with the category that label was assigned,
      and that category is one the classifier proposed. */
  lemma NormalizeFieldCovers(store: Store, projectCode: string, solution: string, field: string, categoryType: string,
                             stats: seq<StatRow>, classify: Classifier, score: Scorer, k: nat)
    requires k < |store| && InScope(store[k], projectCode, solution)
    requires field in store[k].profile && store[k].profile[field].Some?
    requires !IsBlank(store[k].profile[field].value)
    requires exists j :: 0 <= j < |stats| && stats[j].value == store[k].profile[field]
    ensures var r := NormalizeField(store, projectCode, solution, field, categoryType, stats, classify, score);
      var cats := classify(ProfilePrompt(Join(ProfileLabels(stats), ","), categoryType));
      r.status == Completed ==>
        NewKey(field) in r.store[k].profile
        && r.store[k].profile[NewKey(field)] == Some(Assign(store[k].profile[field].value, cats.value, score))
        && Assign(store[k].profile[field].value, cats.value, score) in cats.value
  {
    var r := NormalizeField(store, projectCode, solution, field, categoryType, stats, classify, score);
    var labels := ProfileLabels(stats);
    var raw := store[k].profile[field].value;
    if r.status == Completed {
      assert raw in labels;
      var cats := classify(ProfilePrompt(Join(labels, ","), categoryType)).value;
      var i :| 0 <= i < |labels| && labels[i] == raw;
      assert r.rows[i].0 == raw;
      var c := Lookup(r.rows, raw);
      var m :| 0 <= m < |r.rows| && r.rows[m] == (raw, c.value);
      assert r.rows[m].1 == Assign(labels[m], cats, score);
    }
  }

  /** A completed run writes only `user_profile.new_<field>` of in-scope
      documents: every other document, and every other key, is unchanged. */
  lemma NormalizeFieldWritesOnlyNewKey(store: Store, projectCode: string, solution: string, field: string, categoryType: string,
                                       stats: seq<StatRow>, classify: Classifier, score: Scorer, k: nat)
    requires k < |store|
    ensures var r := NormalizeField(store, projectCode, solution, field, categoryType, stats, classify, score);
      (!InScope(store[k], projectCode, solution) ==> r.store[k] == store[k])
      && r.store[k].(profile := map[]) == store[k].(profile := map[])
      && (forall key :: key in store[k].profile && key != NewKey(field) ==> key in r.store[k].profile && r.store[k].profile[key] == store[k].profile[key])
      && (forall key :: key in r.store[k].profile && key != NewKey(field) ==> key in store[k].profile)
  {
    var r := NormalizeField(store, projectCode, solution, field, categoryType, stats, classify, score);
    if r.status == Completed {
      CorrectedWritesOnlyNewKey(store[k], projectCode, solution, field, r.rows);
    }
  }

  /** Correcting one document writes at most its `new_<field>` key. */
  lemma CorrectedWritesOnlyNewKey(d: Record, projectCode: string, solution: string, field: string, rows: seq<(string, string)>)
    ensures var c := Corrected(d, projectCode, solution, field, rows);
      c.(profile := map[]) == d.(profile := map[])
      && (forall key :: key in d.profile && key != NewKey(field) ==> key in c.profile && c.profile[key] == d.profile[key])
      && (forall key :: key in c.profile && key != NewKey(field) ==> key in d.profile)
  {
  }

  // ---------------------------------------------------------------------
  // normalize_product_topics

  /** The `new_topic` of one item: "未知" for a blank or missing topic or
      one the mapping does not know, the mapped category otherwise. */
  function NewTopic(item: TopicItem, mapping: seq<(string, string)>): (t: string)
    ensures var topic := ItemGet(item, "topic").GetOr("");
      (IsBlank(topic) ==> t == Unknown)
      && (!IsBlank(topic) && Lookup(mapping, topic).None? ==> t == Unknown)
      && (!IsBlank(topic) && Lookup(mapping, topic).Some? ==> t == Lookup(mapping, topic).value)
  {
    var topic := ItemGet(item, "topic").GetOr("");
    if IsBlank(topic) then Unknown else Lookup(mapping, topic).GetOr(Unknown)
  }

  /** The rewritten list: each item copied with `new_topic` added. */
  function RewriteItems(items: seq<TopicItem>, mapping: seq<(string, string)>): (r: seq<TopicItem>)
    ensures |r| == |items|
    ensures forall j :: 0 <= j < |items| ==> r[j] == items[j]["new_topic" := NewTopic(items[j], mapping)]
  {
    seq(|items|, j requires 0 <= j < |items| => items[j]["new_topic" := NewTopic(items[j], mapping)])
  }

  /** `update_one` of one document with a topic list: the list rewritten
      and `second_correction_model` set. */
  function RewriteRecord(r: Record, projectCode: string, solution: string, mapping: seq<(string, string)>, model: string): (r': Record)
    ensures !(InScope(r, projectCode, solution) && r.topics.Some?) ==> r' == r
    ensures InScope(r, projectCode, solution) && r.topics.Some? ==>
      r' == r.(topics := Some(RewriteItems(r.topics.value, mapping)), correctionModel := Some(model))
  {
    if InScope(r, projectCode, solution) && r.topics.Some? then
      r.(topics := Some(RewriteItems(r.topics.value, mapping)), correctionModel := Some(model))
    else r
  }

  /** The documents that receive an `update_one`, by position: exactly the
      in-scope documents whose `product_topic_result` is a list, once each,
      in store order. */
  function UpdatedPositions(store: Store, projectCode: string, solution: string): (ps: seq<nat>)
    ensures forall i :: 0 <= i < |ps| ==> ps[i] < |store| && InScope(store[ps[i]], projectCode, solution) && store[ps[i]].topics.Some?
    ensures forall k :: 0 <= k < |store| && InScope(store[k], projectCode, solution) && store[k].topics.Some? ==> k in ps
    ensures forall i, j :: 0 <= i < j < |ps| ==> ps[i] < ps[j]
    decreases |store|
  {
    if store == [] then []
    else
      var last := |store| - 1;
      var init := UpdatedPositions(store[..last], projectCode, solution);
      assert forall i :: 0 <= i < |init| ==> store[..last][init[i]] == store[init[i]];
      assert forall k :: 0 <= k < last ==> store[..last][k] == store[k];
      if InScope(store[last], projectCode, solution) && store[last].topics.Some? then init + [last] else init
  }

  /** The rewrite loop of `normalize_product_topics`: the new store and the
      number of documents `update_one` modified. */
  function RewriteTopics(store: Store, projectCode: string, solution: string, mapping: seq<(string, string)>, model: string): (r: (Store, nat))
    ensures |r.0| == |store|
    ensures forall k :: 0 <= k < |store| ==> r.0[k] == RewriteRecord(store[k], projectCode, solution, mapping, model)
    ensures r.1 == CountChanged(store, r.0)
  {
    var next := seq(|store|, k requires 0 <= k < |store| => RewriteRecord(store[k], projectCode, solution, mapping, model));
    (next, CountChanged(store, next))
  }

  /** A rewritten item is the original item plus `new_topic`: every other
      key keeps its value. */
  lemma RewriteKeepsItems(items: seq<TopicItem>, mapping: seq<(string, string)>, j: nat, key: string)
    requires j < |items| && key != "new_topic"
    ensures key in RewriteItems(items, mapping)[j] <==> key in items[j]
    ensures key in items[j] ==> RewriteItems(items, mapping)[j][key] == items[j][key]
    ensures "new_topic" in RewriteItems(items, mapping)[j]
  {
  }

  /** Rewriting with the same mapping twice is rewriting once: `new_topic`
      is computed from "topic", which the rewrite does not touch. */
  lemma RewriteTopicsIdempotent(store: Store, projectCode: string, solution: string, mapping: seq<(string, string)>, model: string)
    ensures var once := RewriteTopics(store, projectCode, solution, mapping, model).0;
      RewriteTopics(once, projectCode, solution, mapping, model) == (once, 0)
  {
    var once := RewriteTopics(store, projectCode, solution, mapping, model).0;
    var twice := RewriteTopics(once, projectCode, solution, mapping, model).0;
    forall k | 0 <= k < |store| ensures twice[k] == once[k] {
      RewriteRecordIdempotent(store[k], projectCode, solution, mapping, model);
    }
    assert twice == once;
  }

  lemma RewriteRecordIdempotent(r: Record, projectCode: string, solution: string, mapping: seq<(string, string)>, model: string)
    ensures var once := RewriteRecord(r, projectCode, solution, mapping, model);
      RewriteRecord(once, projectCode, solution, mapping, model) == once
  {
    if InScope(r, projectCode, solution) && r.topics.Some? {
      var items := r.topics.value;
      var w := RewriteItems(items, mapping);
      forall j | 0 <= j < |items| ensures RewriteItems(w, mapping)[j] == w[j] {
        assert ItemGet(w[j], "topic") == ItemGet(items[j], "topic");
        assert NewTopic(w[j], mapping) == NewTopic(items[j], mapping);
      }
      assert RewriteItems(w, mapping) == w;
    }
  }

  /** `normalize_product_topics(product_type)`. */
  function NormalizeTopics(store: Store, projectCode: string, solution: string, productType: string,
                           classify: Classifier, score: Scorer, model: string): (r: Run)
    ensures var labels := TopicLabels(store, projectCode, solution);
      var proposal := classify(TopicPrompt(Join(labels, ","), productType));
      && (r.status == ProposalFailed <==> proposal.None?)
      && (r.status == Raised("ValueError") <==> proposal.Some? && proposal.value == [] && labels != [])
      && (r.status != Completed ==> r.rows == [] && r.store == store && r.modified == 0)
      && (r.status == Completed ==>
            |r.rows| == |labels|
            && (forall i :: 0 <= i < |labels| ==> r.rows[i].0 == labels[i] && r.rows[i].1 in proposal.value)
            && |r.store| == |store|
            && (forall k :: 0 <= k < |store| ==> r.store[k] == RewriteRecord(store[k], projectCode, solution, r.rows, model))
            && r.modified == CountChanged(store, r.store))
    ensures OutOfScopeKept(store, r.store, projectCode, solution)
  {
    var labels := TopicLabels(store, projectCode, solution);
    match classify(TopicPrompt(Join(labels, ","), productType))
    case None => Run(ProposalFailed, [], store, 0)
    case Some(cats) =>
      if labels != [] && cats == [] then
        Run(Raised("ValueError"), [], store, 0)
      else
        var mapping := if labels == [] then [] else AssignAll(labels, cats, score);
        var rewritten := RewriteTopics(store, projectCode, solution, mapping, model);
        Run(Completed, mapping, rewritten.0, rewritten.1)
  }

  /** Item `j` of a document's topic list, in its rewritten form `after`,
      holds a `new_topic`: "未知" when its topic is blank, otherwise the
      category assigned to the topic among the proposed ones `cats`. */
  predicate ItemCovered(before: Record, after: Record, j: nat, cats: Option<seq<string>>, score: Scorer)
    requires before.topics.Some? && j < |before.topics.value|
  {
    var topic := ItemGet(before.topics.value[j], "topic").GetOr("");
    && after.topics.Some? && |after.topics.value| == |before.topics.value|
    && "new_topic" in after.topics.value[j]
    && (IsBlank(topic) ==> after.topics.value[j]["new_topic"] == Unknown)
    && (!IsBlank(topic) ==>
          cats.Some? && cats.value != [] && after.topics.value[j]["new_topic"] == Assign(topic, cats.value, score))
  }

  /** After a completed topic run, every item of every rewritten list has
      a `new_topic`: a proposed category when its topic is not blank, "未知"
      when it is. No non-blank topic falls back to "未知". */
  lemma NormalizeTopicsCovers(store: Store, projectCode: string, solution: string, productType: string,
                              classify: Classifier, score: Scorer, model: string, k: nat, j: nat)
    requires k < |store| && InScope(store[k], projectCode, solution) && store[k].topics.Some?
    requires j < |store[k].topics.value|
    ensures var r := NormalizeTopics(store, projectCode, solution, productType, classify, score, model);
      var cats := classify(TopicPrompt(Join(TopicLabels(store, projectCode, solution), ","), productType));
      r.status == Completed ==> ItemCovered(store[k], r.store[k], j, cats, score)
  {
    var r := NormalizeTopics(store, projectCode, solution, productType, classify, score, model);
    var labels := TopicLabels(store, projectCode, solution);
    var item := store[k].topics.value[j];
    var topic := ItemGet(item, "topic").GetOr("");
    if r.status == Completed && !IsBlank(topic) {
      assert "topic" in item;
      assert topic in labels;
      var cats := classify(TopicPrompt(Join(labels, ","), productType)).value;
      var i :| 0 <= i < |labels| && labels[i] == topic;
      assert r.rows[i].0 == topic;
      var c := Lookup(r.rows, topic);
      var m :| 0 <= m < |r.rows| && r.rows[m] == (topic, c.value);
      assert r.rows[m].1 == Assign(labels[m], cats, score);
    }
  }

  // ---------------------------------------------------------------------
  // process_all_user_profile_fields and run_full_correction

  /** The default `fields_config`: raw field and category type. */
  const DefaultFields: seq<(string, string)> := [
    ("gender", "性别"),
    ("occupation", "职业"),
    ("consumption_scene", "用户消费场景"),
    ("consumption_frequency", "用户购买情况：首次|二次|多次"),
    ("consumption_thrill_point", "产品给用户带来的超出预期的即时满足的特点"),
    ("consumption_pain_point", "产品给用户带来的不得不解决的问题"),
    ("consumption_itch_point", "产品给用户带来的不解决也行，但解决更爽的欲望")]

  /** What the field loop leaves behind: the store, the audit rows of each
      field processed (a failed proposal gives an empty table), and the
      error that aborted the loop, if any. */
  datatype FieldsRun = FieldsRun(store: Store, results: seq<(string, seq<(string, string)>)>, raised: Option<string>)

  /** The loop of `process_all_user_profile_fields`: the statistics are
      taken once, before any field is written; each field is normalised in
      turn; an exception ends the loop and keeps the writes already made. */
  function ProcessFields(store: Store, projectCode: string, solution: string, stats: seq<(string, seq<StatRow>)>,
                         config: seq<(string, string)>, classify: Classifier, score: Scorer): (r: FieldsRun)
    requires |stats| == |config|
    ensures |r.results| <= |config|
    ensures forall i :: 0 <= i < |r.results| ==> r.results[i].0 == config[i].0
    ensures r.raised.None? ==> |r.results| == |config|
    ensures OutOfScopeKept(store, r.store, projectCode, solution)
    decreases |config|
  {
    if config == [] then FieldsRun(store, [], None)
    else
      var run := NormalizeField(store, projectCode, solution, config[0].0, config[0].1, stats[0].1, classify, score);
      if run.status.Raised? then FieldsRun(store, [], Some(run.status.error))
      else
        var rest := ProcessFields(run.store, projectCode, solution, stats[1..], config[1..], classify, score);
        OutOfScopeKeptTrans(store, run.store, rest.store, projectCode, solution);
        FieldsRun(rest.store, [(config[0].0, run.rows)] + rest.results, rest.raised)
  }

  /** The loop's results are the fields' audit tables computed from the
      statistics taken before the loop, whatever the earlier fields wrote. */
  lemma {:induction false} ProcessFieldsResults(store: Store, projectCode: string, solution: string,
                                                stats: seq<(string, seq<StatRow>)>, config: seq<(string, string)>,
                                                classify: Classifier, score: Scorer)
    requires |stats| == |config|
    ensures var r := ProcessFields(store, projectCode, solution, stats, config, classify, score);
      forall i :: 0 <= i < |r.results| ==>
        !FieldStatus(stats[i].1, config[i].1, classify).Raised?
        && r.results[i] == (config[i].0, FieldRows(stats[i].1, config[i].1, classify, score))
    decreases |config|
  {
    if config != [] {
      var run := NormalizeField(store, projectCode, solution, config[0].0, config[0].1, stats[0].1, classify, score);
      if !run.status.Raised? {
        ProcessFieldsResults(run.store, projectCode, solution, stats[1..], config[1..], classify, score);
        var rest := ProcessFields(run.store, projectCode, solution, stats[1..], config[1..], classify, score);
        var r := ProcessFields(store, projectCode, solution, stats, config, classify, score);
        assert r.results == [(config[0].0, run.rows)] + rest.results;
        forall i | 1 <= i < |r.results|
          ensures !FieldStatus(stats[i].1, config[i].1, classify).Raised?
          ensures r.results[i] == (config[i].0, FieldRows(stats[i].1, config[i].1, classify, score))
        {
          assert r.results[i] == rest.results[i - 1] && stats[i] == stats[1..][i - 1] && config[i] == config[1..][i - 1];
        }
      }
    }
  }

  /** The loop stops at the first field whose run raises, with that
      field's error. */
  lemma {:induction false} ProcessFieldsRaised(store: Store, projectCode: string, solution: string,
                                               stats: seq<(string, seq<StatRow>)>, config: seq<(string, string)>,
                                               classify: Classifier, score: Scorer)
    requires |stats| == |config|
    ensures var r := ProcessFields(store, projectCode, solution, stats, config, classify, score);
      r.raised.Some? ==>
        (|r.results| < |config| &&
         FieldStatus(stats[|r.results|].1, config[|r.results|].1, classify) == Raised(r.raised.value))
    decreases |config|
  {
    if config != [] {
      var run := NormalizeField(store, projectCode, solution, config[0].0, config[0].1, stats[0].1, classify, score);
      if !run.status.Raised? {
        ProcessFieldsRaised(run.store, projectCode, solution, stats[1..], config[1..], classify, score);
        var rest := ProcessFields(run.store, projectCode, solution, stats[1..], config[1..], classify, score);
        var r := ProcessFields(store, projectCode, solution, stats, config, classify, score);
        assert r.results == [(config[0].0, run.rows)] + rest.results && r.raised == rest.raised;
        if r.raised.Some? {
          var i := |r.results|;
          assert stats[i] == stats[1..][i - 1] && config[i] == config[1..][i - 1];
        }
      }
    }
  }

  function Keys(config: seq<(string, string)>): (ks: seq<string>)
    ensures |ks| == |config| && forall i :: 0 <= i < |config| ==> ks[i] == config[i].0
  {
    seq(|config|, i requires 0 <= i < |config| => config[i].0)
  }

  /** `process_all_user_profile_fields(fields_config)`. */
  function ProcessAllFields(store: Store, projectCode: string, solution: string, config: seq<(string, string)>,
                            classify: Classifier, score: Scorer): (r: FieldsRun)
    ensures r.raised.None? ==> |r.results| == |config|
    ensures OutOfScopeKept(store, r.store, projectCode, solution)
  {
    var stats := ProfileStats(store, projectCode, solution, Keys(config));
    ProcessFields(store, projectCode, solution, stats, config, classify, score)
  }

  /** The document holds a non-blank raw value of `field`. */
  predicate HasLabel(d: Record, field: string) {
    field in d.profile && d.profile[field].Some? && !IsBlank(d.profile[field].value)
  }

  function Label(d: Record, field: string): string
    requires HasLabel(d, field)
  {
    d.profile[field].value
  }

  /** The document holds category `c` under `new_<field>`. */
  predicate HoldsCategory(d: Record, field: string, c: string) {
    NewKey(field) in d.profile && d.profile[NewKey(field)] == Some(c)
  }

  /** The classifier's answer for a field with these statistics. */
  function Proposal(rows: seq<StatRow>, categoryType: string, classify: Classifier): Option<seq<string>> {
    classify(ProfilePrompt(Join(ProfileLabels(rows), ","), categoryType))
  }

  /** No field of the configuration is listed twice, and none is the key
      another field's corrected value is written under. */
  predicate FieldsApart(config: seq<(string, string)>) {
    forall i, j :: 0 <= i < |config| && 0 <= j < |config| ==>
      (i != j ==> config[i].0 != config[j].0) && config[i].0 != NewKey(config[j].0)
  }

  lemma FieldsApartTail(config: seq<(string, string)>)
    requires config != [] && FieldsApart(config)
    ensures FieldsApart(config[1..])
  {
    forall i, j | 0 <= i < |config| - 1 && 0 <= j < |config| - 1
      ensures (i != j ==> config[1..][i].0 != config[1..][j].0) && config[1..][i].0 != NewKey(config[1..][j].0)
    {
      assert config[1..][i] == config[i + 1] && config[1..][j] == config[j + 1];
    }
  }

  lemma NewKeyInjective(a: string, b: string)
    requires NewKey(a) == NewKey(b)
    ensures a == b
  {
    assert a == NewKey(a)[4..];
    assert b == NewKey(b)[4..];
  }

  /** The default configuration keeps its fields apart. */
  lemma DefaultFieldsApart()
    ensures FieldsApart(DefaultFields)
  {
    var c := DefaultFields;
    forall i, j | 0 <= i < |c| && 0 <= j < |c|
      ensures (i != j ==> c[i].0 != c[j].0) && c[i].0 != NewKey(c[j].0)
    {
      assert c[i].0[..4] != "new_" by {
        assert c[i].0[0] != 'n';
      }
      if i != j {
        assert |c[i].0| != |c[j].0| || c[i].0[12] != c[j].0[12];
      }
    }
  }

  /** The field loop writes nothing but profiles. */
  lemma {:induction false} ProcessFieldsKeepsRest(store: Store, projectCode: string, solution: string,
                                                  stats: seq<(string, seq<StatRow>)>, config: seq<(string, string)>,
                                                  classify: Classifier, score: Scorer, k: nat)
    requires |stats| == |config| && k < |store|
    ensures var r := ProcessFields(store, projectCode, solution, stats, config, classify, score);
      r.store[k].(profile := map[]) == store[k].(profile := map[])
    decreases |config|
  {
    if config != [] {
      var run := NormalizeField(store, projectCode, solution, config[0].0, config[0].1, stats[0].1, classify, score);
      if !run.status.Raised? {
        NormalizeFieldWritesOnlyNewKey(store, projectCode, solution, config[0].0, config[0].1, stats[0].1, classify, score, k);
        ProcessFieldsKeepsRest(run.store, projectCode, solution, stats[1..], config[1..], classify, score, k);
      }
    }
  }

  /** The field loop leaves every profile key alone that is not the
      `new_<field>` of a configured field. */
  lemma {:induction false} ProcessFieldsWritesOnlyNewKeys(store: Store, projectCode: string, solution: string,
                                                          stats: seq<(string, seq<StatRow>)>, config: seq<(string, string)>,
                                                          classify: Classifier, score: Scorer, k: nat, key: string)
    requires |stats| == |config| && k < |store|
    requires forall j :: 0 <= j < |config| ==> key != NewKey(config[j].0)
    ensures var r := ProcessFields(store, projectCode, solution, stats, config, classify, score);
      key in store[k].profile ==> key in r.store[k].profile && r.store[k].profile[key] == store[k].profile[key]
    decreases |config|
  {
    if config != [] {
      var run := NormalizeField(store, projectCode, solution, config[0].0, config[0].1, stats[0].1, classify, score);
      if !run.status.Raised? {
        NormalizeFieldWritesOnlyNewKey(store, projectCode, solution, config[0].0, config[0].1, stats[0].1, classify, score, k);
        assert forall j :: 0 <= j < |config| - 1 ==> config[1..][j] == config[j + 1];
        ProcessFieldsWritesOnlyNewKeys(run.store, projectCode, solution, stats[1..], config[1..], classify, score, k, key);
      }
    }
  }

  /** When the loop ran to the end, every in-scope document whose raw
      value of a configured field is a non-blank value listed in that
      field's statistics holds, under `new_<field>`, the category assigned
      to it, one the classifier proposed, provided the classifier answered
      for that field. */
  lemma {:induction false} ProcessFieldsCovers(store: Store, projectCode: string, solution: string,
                                               stats: seq<(string, seq<StatRow>)>, config: seq<(string, string)>,
                                               classify: Classifier, score: Scorer, i: nat, k: nat)
    requires |stats| == |config| && FieldsApart(config)
    requires i < |config| && k < |store| && InScope(store[k], projectCode, solution)
    requires HasLabel(store[k], config[i].0)
    requires exists j :: 0 <= j < |stats[i].1| && stats[i].1[j].value == store[k].profile[config[i].0]
    ensures var r := ProcessFields(store, projectCode, solution, stats, config, classify, score);
      var cats := Proposal(stats[i].1, config[i].1, classify);
      r.raised.None? && cats.Some? && cats.value != [] ==>
        HoldsCategory(r.store[k], config[i].0, Assign(Label(store[k], config[i].0), cats.value, score))
    decreases |config|
  {
    var f := config[i].0;
    var cats := Proposal(stats[i].1, config[i].1, classify);
    var r := ProcessFields(store, projectCode, solution, stats, config, classify, score);
    var run := NormalizeField(store, projectCode, solution, config[0].0, config[0].1, stats[0].1, classify, score);
    if i == 0 {
      FirstFieldCovers(store, projectCode, solution, stats, config, classify, score, k);
    } else if r.raised.None? && cats.Some? && cats.value != [] && !run.status.Raised? {
      var rest := ProcessFields(run.store, projectCode, solution, stats[1..], config[1..], classify, score);
      assert r.store == rest.store && r.raised == rest.raised;
      NormalizeFieldWritesOnlyNewKey(store, projectCode, solution, config[0].0, config[0].1, stats[0].1, classify, score, k);
      assert f != NewKey(config[0].0);
      assert config[1..][i - 1] == config[i] && stats[1..][i - 1] == stats[i];
      FieldsApartTail(config);
      assert run.store[k].projectCode == store[k].projectCode && run.store[k].solution == store[k].solution;
      assert f in run.store[k].profile && run.store[k].profile[f] == store[k].profile[f];
      var j :| 0 <= j < |stats[i].1| && stats[i].1[j].value == store[k].profile[f];
      assert stats[1..][i - 1].1[j].value == run.store[k].profile[config[1..][i - 1].0];
      ProcessFieldsCovers(run.store, projectCode, solution, stats[1..], config[1..], classify, score, i - 1, k);
    }
  }

  /** The first field's category survives the rest of the loop, which
      writes other keys only. */
  lemma FirstFieldCovers(store: Store, projectCode: string, solution: string,
                         stats: seq<(string, seq<StatRow>)>, config: seq<(string, string)>,
                         classify: Classifier, score: Scorer, k: nat)
    requires |stats| == |config| && config != [] && FieldsApart(config)
    requires k < |store| && InScope(store[k], projectCode, solution)
    requires HasLabel(store[k], config[0].0)
    requires exists j :: 0 <= j < |stats[0].1| && stats[0].1[j].value == store[k].profile[config[0].0]
    ensures var r := ProcessFields(store, projectCode, solution, stats, config, classify, score);
      var cats := Proposal(stats[0].1, config[0].1, classify);
      r.raised.None? && cats.Some? && cats.value != [] ==>
        HoldsCategory(r.store[k], config[0].0, Assign(Label(store[k], config[0].0), cats.value, score))
  {
    var f := config[0].0;
    var cats := Proposal(stats[0].1, config[0].1, classify);
    var r := ProcessFields(store, projectCode, solution, stats, config, classify, score);
    var run := NormalizeField(store, projectCode, solution, f, config[0].1, stats[0].1, classify, score);
    if r.raised.None? && cats.Some? && cats.value != [] && !run.status.Raised? {
      var rest := ProcessFields(run.store, projectCode, solution, stats[1..], config[1..], classify, score);
      assert r.store == rest.store;
      assert store[k].profile[f].value in ProfileLabels(stats[0].1);
      NormalizeFieldCovers(store, projectCode, solution, f, config[0].1, stats[0].1, classify, score, k);
      forall j | 0 <= j < |config| - 1 ensures NewKey(f) != NewKey(config[1..][j].0) {
        assert config[1..][j] == config[j + 1];
        if NewKey(f) == NewKey(config[j + 1].0) {
          NewKeyInjective(f, config[j + 1].0);
        }
      }
      ProcessFieldsWritesOnlyNewKeys(run.store, projectCode, solution, stats[1..], config[1..], classify, score, k, NewKey(f));
    }
  }

  /** `process_all_user_profile_fields`: when the loop ran to the end,
      every in-scope document with a non-blank value of a configured field
      holds that value's category under `new_<field>`, whenever the
      classifier answered for the field. */
  lemma ProcessAllFieldsCovers(store: Store, projectCode: string, solution: string, config: seq<(string, string)>,
                               classify: Classifier, score: Scorer, i: nat, k: nat)
    requires FieldsApart(config)
    requires i < |config| && k < |store| && InScope(store[k], projectCode, solution)
    requires HasLabel(store[k], config[i].0)
    ensures var r := ProcessAllFields(store, projectCode, solution, config, classify, score);
      var cats := Proposal(FieldStats(store, projectCode, solution, config[i].0), config[i].1, classify);
      r.raised.None? && cats.Some? && cats.value != [] ==>
        HoldsCategory(r.store[k], config[i].0, Assign(Label(store[k], config[i].0), cats.value, score))
  {
    var f := config[i].0;
    var stats := ProfileStats(store, projectCode, solution, Keys(config));
    var rows := FieldStats(store, projectCode, solution, f);
    assert stats[i].1 == rows;
    var sc := Scoped(store, projectCode, solution);
    assert store[k] in sc;
    var m :| 0 <= m < |sc| && sc[m] == store[k];
    FieldStatsComplete(store, projectCode, solution, f);
    assert ProfileValue(sc[m], f) in RowValues(rows);
    var j :| 0 <= j < |rows| && RowValues(rows)[j] == ProfileValue(sc[m], f);
    assert rows[j].value == store[k].profile[f];
    ProcessFieldsCovers(store, projectCode, solution, stats, config, classify, score, i, k);
  }

  /** The outcome of `run_full_correction`: the profile results, then the
      topic run unless the profile loop raised. */
  datatype FullRun = FullRun(fields: FieldsRun, topics: Option<Run>, store: Store)

  /** `run_full_correction(product_type)` with the default field
      configuration: the profile fields, then the product topics on the
      store the profile stage left. Documents out of scope are never
      written. */
  function RunFullCorrection(store: Store, projectCode: string, solution: string, productType: string,
                             classify: Classifier, score: Scorer, model: string): (r: FullRun)
    ensures r.fields.raised.Some? <==> r.topics.None?
    ensures r.topics.Some? ==> r.store == r.topics.value.store
    ensures |r.store| == |store|
    ensures forall k :: 0 <= k < |store| && !InScope(store[k], projectCode, solution) ==> r.store[k] == store[k]
  {
    var fields := ProcessAllFields(store, projectCode, solution, DefaultFields, classify, score);
    if fields.raised.Some? then FullRun(fields, None, fields.store)
    else
      var topics := NormalizeTopics(fields.store, projectCode, solution, productType, classify, score, model);
      OutOfScopeKeptTrans(store, fields.store, topics.store, projectCode, solution);
      FullRun(fields, Some(topics), topics.store)
  }

  /** Which topics a store lists does not depend on its profiles. */
  lemma {:induction false} TopicValuesIgnoreProfiles(a: Store, b: Store, projectCode: string, solution: string)
    requires |a| == |b|
    requires forall k :: 0 <= k < |a| ==> a[k].(profile := map[]) == b[k].(profile := map[])
    ensures TopicValues(a, projectCode, solution) == TopicValues(b, projectCode, solution)
    decreases |a|
  {
    if a != [] {
      assert a[0].projectCode == b[0].projectCode && a[0].solution == b[0].solution && a[0].topics == b[0].topics;
      assert forall k :: 0 <= k < |a| - 1 ==> a[1..][k] == a[k + 1] && b[1..][k] == b[k + 1];
      TopicValuesIgnoreProfiles(a[1..], b[1..], projectCode, solution);
    }
  }

  /** The profile stage leaves the topic labels as they were. */
  lemma FieldsKeepTopicLabels(store: Store, projectCode: string, solution: string, config: seq<(string, string)>,
                              classify: Classifier, score: Scorer)
    ensures var fields := ProcessAllFields(store, projectCode, solution, config, classify, score);
      TopicLabels(fields.store, projectCode, solution) == TopicLabels(store, projectCode, solution)
      && forall k :: 0 <= k < |store| ==> fields.store[k].(profile := map[]) == store[k].(profile := map[])
  {
    var stats := ProfileStats(store, projectCode, solution, Keys(config));
    var fields := ProcessAllFields(store, projectCode, solution, config, classify, score);
    forall k | 0 <= k < |store| ensures fields.store[k].(profile := map[]) == store[k].(profile := map[]) {
      ProcessFieldsKeepsRest(store, projectCode, solution, stats, config, classify, score, k);
    }
    TopicValuesIgnoreProfiles(store, fields.store, projectCode, solution);
  }

  /** After a full run whose topic stage completed, every item of every
      in-scope topic list holds a `new_topic`: "未知" for a blank topic,
      otherwise the category assigned to it among those proposed for the
      labels of the original store. */
  lemma RunFullCorrectionCoversTopics(store: Store, projectCode: string, solution: string, productType: string,
                                      classify: Classifier, score: Scorer, model: string, k: nat, j: nat)
    requires k < |store| && InScope(store[k], projectCode, solution) && store[k].topics.Some?
    requires j < |store[k].topics.value|
    ensures var r := RunFullCorrection(store, projectCode, solution, productType, classify, score, model);
      var cats := classify(TopicPrompt(Join(TopicLabels(store, projectCode, solution), ","), productType));
      r.topics.Some? && r.topics.value.status == Completed ==> ItemCovered(store[k], r.store[k], j, cats, score)
  {
    var fields := ProcessAllFields(store, projectCode, solution, DefaultFields, classify, score);
    if fields.raised.None? {
      FieldsKeepTopicLabels(store, projectCode, solution, DefaultFields, classify, score);
      assert fields.store[k].topics == store[k].topics;
      NormalizeTopicsCovers(fields.store, projectCode, solution, productType, classify, score, model, k, j);
    }
  }

  /** The topic stage writes no profile. */
  lemma NormalizeTopicsKeepsProfiles(store: Store, projectCode: string, solution: string, productType: string,
                                     classify: Classifier, score: Scorer, model: string)
    ensures var r := NormalizeTopics(store, projectCode, solution, productType, classify, score, model);
      |r.store| == |store| && forall k :: 0 <= k < |store| ==> r.store[k].profile == store[k].profile
  {
  }

  /** After a full run that reached the topic stage, every in-scope
      document with a non-blank value of a default profile field holds that
      value's category under `new_<field>`, whenever the classifier
      proposed categories for the field: the topic rewrite does not touch
      profiles. */
  lemma RunFullCorrectionCoversProfiles(store: Store, projectCode: string, solution: string, productType: string,
                                        classify: Classifier, score: Scorer, model: string, i: nat, k: nat)
    requires i < |DefaultFields| && k < |store| && InScope(store[k], projectCode, solution)
    requires HasLabel(store[k], DefaultFields[i].0)
    ensures var r := RunFullCorrection(store, projectCode, solution, productType, classify, score, model);
      var cats := Proposal(FieldStats(store, projectCode, solution, DefaultFields[i].0), DefaultFields[i].1, classify);
      r.topics.Some? && cats.Some? && cats.value != [] ==>
        HoldsCategory(r.store[k], DefaultFields[i].0, Assign(Label(store[k], DefaultFields[i].0), cats.value, score))
  {
    var fields := ProcessAllFields(store, projectCode, solution, DefaultFields, classify, score);
    if fields.raised.None? {
      DefaultFieldsApart();
      ProcessAllFieldsCovers(store, projectCode, solution, DefaultFields, classify, score, i, k);
      NormalizeTopicsKeepsProfiles(fields.store, projectCode, solution, productType, classify, score, model);
    }
  }
}

=== FILE: data_result_api.dfy ===
/** The read API of `backend/routers/data_result.py` over the `data_result`
    collection: the filtered, paged list route and the lookup by id, with
    the defaults they fill in for fields older documents lack. */
module DataResultApi {
  import opened Base
  import opened Text
  import opened Ordering

  /** A stored report document, reduced to the fields the routes read or
      default. `None` is an absent field. `processRank` orders
      `process_time` (an ISO timestamp, so text order is time order);
      `tokenUsageTotal` is `token_usage.total_tokens` when both exist. */
  datatype DataDoc = DataDoc(
    id: string,
    dataId: Option<string>,
    projectCode: Option<string>,
    solution: Option<string>,
    model: Option<string>,
    processRank: int,
    firstStageTokens: Option<int>,
    allStagesTotalTokens: Option<int>,
    tokenUsageTotal: Option<int>,
    quadrantInsight: Option<string>)

  /** A document as returned, with the defaulted token fields always set. */
  datatype DataView = DataView(
    doc: DataDoc,
    firstStageTokens: int,
    allStagesTotalTokens: int,
    quadrantInsight: Option<string>)

  /** An HTTP failure: the status code. */
  type Status = int

  const DefaultQuadrantInsight := "四象限分析显示产品话题分布情况，帮助识别关键优势和改进点。"

  // ---------------------------------------------------------------------
  // Defaults

  /** The defaults both routes fill in: `first_stage_tokens` 0;
      `all_stages_total_tokens` from `token_usage.total_tokens`, else 0;
      and, on the list route only, the stock quadrant insight. Present
      values are never touched. */
  function FillDefaults(d: DataDoc, listRoute: bool): (v: DataView)
    ensures v.doc == d
    ensures d.firstStageTokens.Some? ==> v.firstStageTokens == d.firstStageTokens.value
    ensures d.firstStageTokens.None? ==> v.firstStageTokens == 0
    ensures d.allStagesTotalTokens.Some? ==> v.allStagesTotalTokens == d.allStagesTotalTokens.value
    ensures d.allStagesTotalTokens.None? && d.tokenUsageTotal.Some? ==> v.allStagesTotalTokens == d.tokenUsageTotal.value
    ensures d.allStagesTotalTokens.None? && d.tokenUsageTotal.None? ==> v.allStagesTotalTokens == 0
    ensures d.quadrantInsight.Some? ==> v.quadrantInsight == d.quadrantInsight
    ensures d.quadrantInsight.None? ==> (v.quadrantInsight.Some? <==> listRoute)
    ensures v.quadrantInsight.Some? && d.quadrantInsight.None? ==> v.quadrantInsight.value == DefaultQuadrantInsight
  {
    DataView(
      d,
      d.firstStageTokens.GetOr(0),
      match d.allStagesTotalTokens
      case Some(n) => n
      case None => d.tokenUsageTotal.GetOr(0),
      if d.quadrantInsight.None? && listRoute then Some(DefaultQuadrantInsight) else d.quadrantInsight)
  }

  /** Filling defaults twice gives what filling once gives. */
  lemma FillDefaultsStable(d: DataDoc, listRoute: bool)
    ensures var v := FillDefaults(d, listRoute);
      var d' := d.(firstStageTokens := Some(v.firstStageTokens),
                   allStagesTotalTokens := Some(v.allStagesTotalTokens),
                   quadrantInsight := v.quadrantInsight);
      FillDefaults(d', listRoute).firstStageTokens == v.firstStageTokens
      && FillDefaults(d', listRoute).allStagesTotalTokens == v.allStagesTotalTokens
      && FillDefaults(d', listRoute).quadrantInsight == v.quadrantInsight
  {
  }

  // ---------------------------------------------------------------------
  // The list route

  /** The filterable fields. */
  datatype Field = ProjectCode | Solution | Model

  function FieldOf(d: DataDoc, f: Field): Option<string> {
    match f
    case ProjectCode => d.projectCode
    case Solution => d.solution
    case Model => d.model
  }

  /** A query parameter is used when it is a non-empty string. */
  predicate Given(p: Option<string>) {
    p.Some? && p.value != ""
  }

  /** The query: one equality per given parameter, in parameter order. */
  function BuildQuery(projectCode: Option<string>, solution: Option<string>, model: Option<string>): (q: seq<(Field, string)>)
    ensures |q| <= 3
    ensures forall i, j :: 0 <= i < j < |q| ==> q[i].0 != q[j].0
    ensures (ProjectCode, projectCode.GetOr("")) in q <==> Given(projectCode)
    ensures (Solution, solution.GetOr("")) in q <==> Given(solution)
    ensures (Model, model.GetOr("")) in q <==> Given(model)
    ensures forall c :: c in q ==> c == (ProjectCode, projectCode.GetOr("")) || c == (Solution, solution.GetOr(""))
                                     || c == (Model, model.GetOr(""))
  {
    (if Given(projectCode) then [(ProjectCode, projectCode.value)] else [])
    + (if Given(solution) then [(Solution, solution.value)] else [])
    + (if Given(model) then [(Model, model.value)] else [])
  }

  predicate MatchesQuery(d: DataDoc, q: seq<(Field, string)>) {
    forall i :: 0 <= i < |q| ==> FieldOf(d, q[i].0) == Some(q[i].1)
  }

  /** A document is listed exactly when it agrees with every given
      parameter; parameters not given do not filter. */
  lemma QueryMeaning(d: DataDoc, projectCode: Option<string>, solution: Option<string>, model: Option<string>)
    ensures MatchesQuery(d, BuildQuery(projectCode, solution, model))
        <==> (Given(projectCode) ==> d.projectCode == projectCode)
             && (Given(solution) ==> d.solution == solution)
             && (Given(model) ==> d.model == model)
  {
    var q := BuildQuery(projectCode, solution, model);
    if Given(projectCode) {
      assert (ProjectCode, projectCode.value) in q;
    }
    if Given(solution) {
      assert (Solution, solution.value) in q;
    }
    if Given(model) {
      assert (Model, model.value) in q;
    }
  }

  function Matching(docs: seq<DataDoc>, q: seq<(Field, string)>): (r: seq<DataDoc>)
    ensures |r| <= |docs|
    ensures forall d :: d in r <==> d in docs && MatchesQuery(d, q)
  {
    if docs == [] then []
    else (if MatchesQuery(docs[0], q) then [docs[0]] else []) + Matching(docs[1..], q)
  }

  function Rank(d: DataDoc): int {
    d.processRank
  }

  /** The page of the list route. */
  datatype Page = Page(total: nat, data: seq<DataView>)

  /** `get_data_results`: `skip` below 0 or `limit` outside 1..100 is
      rejected with 422 before the query runs; otherwise the total counts
      every match, and the page holds the matches newest first, after
      skipping `skip`, at most `limit` of them, each with its defaults. */
  function ListResults(docs: seq<DataDoc>, projectCode: Option<string>, solution: Option<string>,
                       model: Option<string>, skip: int, limit: int): (r: Result<Page, Status>)
    ensures r.Err? <==> skip < 0 || limit < 1 || limit > 100
    ensures r.Err? ==> r.error == 422
    ensures r.Ok? ==> r.value.total == |Matching(docs, BuildQuery(projectCode, solution, model))|
    ensures r.Ok? ==> |r.value.data| <= limit
    ensures r.Ok? ==> |r.value.data| == if skip >= r.value.total then 0
                                        else if r.value.total - skip < limit then r.value.total - skip else limit
    ensures r.Ok? ==> forall i :: 0 <= i < |r.value.data| ==>
      r.value.data[i] == FillDefaults(SortDesc(Matching(docs, BuildQuery(projectCode, solution, model)), Rank)[skip + i], true)
    ensures r.Ok? ==> forall i, j :: 0 <= i < j < |r.value.data| ==>
      r.value.data[i].doc.processRank >= r.value.data[j].doc.processRank
  {
    if skip < 0 || limit < 1 || limit > 100 then Err(422)
    else
      var matches := Matching(docs, BuildQuery(projectCode, solution, model));
      Ok(Page(|matches|, PageOf(SortDesc(matches, Rank), skip, limit)))
  }

  /** The views of `sorted[skip..skip + limit]` (clipped to the end). */
  function PageOf(sorted: seq<DataDoc>, skip: nat, limit: nat): (data: seq<DataView>)
    requires NonIncreasing(sorted, Rank)
    ensures |data| <= limit
    ensures |data| == if skip >= |sorted| then 0 else if |sorted| - skip < limit then |sorted| - skip else limit
    ensures forall i :: 0 <= i < |data| ==> data[i] == FillDefaults(sorted[skip + i], true)
    ensures forall i, j :: 0 <= i < j < |data| ==> data[i].doc.processRank >= data[j].doc.processRank
  {
    var from := if skip < |sorted| then skip else |sorted|;
    var to := if |sorted| - from < limit then |sorted| else from + limit;
    var window := sorted[from..to];
    var data := seq(|window|, i requires 0 <= i < |window| => FillDefaults(window[i], true));
    assert forall i, j :: 0 <= i < j < |data| ==> data[i].doc.processRank >= data[j].doc.processRank by {
      forall i, j | 0 <= i < j < |data|
        ensures data[i].doc.processRank >= data[j].doc.processRank
      {
        assert data[i].doc == sorted[from + i] && data[j].doc == sorted[from + j];
        assert Rank(sorted[from + i]) >= Rank(sorted[from + j]);
      }
    }
    data
  }

  // ---------------------------------------------------------------------
  // The lookup by id

  /** `ObjectId.is_valid` on a string: exactly 24 hexadecimal digits. */
  predicate IsObjectId(s: string) {
    |s| == 24 && forall k :: 0 <= k < |s| ==> IsHexDigit(s[k])
  }

  /** Hexadecimal digits compare without regard to case. */
  function LowerHex(c: char): char {
    if 'A' <= c <= 'F' then (c as int + 32) as char else c
  }

  predicate SameObjectId(stored: string, given: string) {
    |stored| == |given| && forall k :: 0 <= k < |stored| ==> LowerHex(stored[k]) == LowerHex(given[k])
  }

  /** Which documents a lookup key selects: by `_id` when the key is a
      valid ObjectId, by the `data_id` field otherwise. */
  predicate Selects(d: DataDoc, dataId: string) {
    if IsObjectId(dataId) then SameObjectId(d.id, dataId) else d.dataId == Some(dataId)
  }

  /** `find_one`: the first selected document in collection order. */
  function FindOne(docs: seq<DataDoc>, dataId: string): (r: Option<DataDoc>)
    ensures r.None? <==> forall i :: 0 <= i < |docs| ==> !Selects(docs[i], dataId)
    ensures r.Some? ==> exists i :: (0 <= i < |docs| && docs[i] == r.value
                                     && (forall j :: 0 <= j < i ==> !Selects(docs[j], dataId)))
    ensures r.Some? ==> Selects(r.value, dataId)
  {
    if docs == [] then None
    else if Selects(docs[0], dataId) then Some(docs[0])
    else
      var r := FindOne(docs[1..], dataId);
      assert forall i :: 1 <= i < |docs| ==> docs[i] == docs[1..][i - 1];
      if r.Some? then
        var i :| 0 <= i < |docs[1..]| && docs[1..][i] == r.value
                 && (forall j :: 0 <= j < i ==> !Selects(docs[1..][j], dataId));
        assert docs[i + 1] == r.value;
        r
      else r
  }

  /** `get_data_result_by_id`: 404 when nothing is selected; otherwise the
      first selected document in collection order, with the token defaults
      filled and no quadrant default. */
  function ResultById(docs: seq<DataDoc>, dataId: string): (r: Result<DataView, Status>)
    ensures r.Err? <==> forall i :: 0 <= i < |docs| ==> !Selects(docs[i], dataId)
    ensures r.Err? ==> r.error == 404
    ensures r.Ok? ==> Selects(r.value.doc, dataId) && r.value.doc in docs
    ensures r.Ok? ==> r.value.quadrantInsight == r.value.doc.quadrantInsight
    ensures r.Ok? ==> exists i :: (0 <= i < |docs| && docs[i] == r.value.doc
                                   && (forall j :: 0 <= j < i ==> !Selects(docs[j], dataId)))
    ensures r.Ok? ==> r.value == FillDefaults(r.value.doc, false)
  {
    match FindOne(docs, dataId)
    case None => Err(404)
    case Some(d) => Ok(FillDefaults(d, false))
  }

  /** The two routes return the same defaults for a document except for
      the quadrant insight, which only the list route fills. */
  lemma RoutesAgreeOnTokens(d: DataDoc)
    ensures FillDefaults(d, true).firstStageTokens == FillDefaults(d, false).firstStageTokens
    ensures FillDefaults(d, true).allStagesTotalTokens == FillDefaults(d, false).allStagesTotalTokens
    ensures d.quadrantInsight.None? ==> FillDefaults(d, true).quadrantInsight != FillDefaults(d, false).quadrantInsight
  {
  }
}

=== FILE: first_label.dfy ===
/** The bookkeeping of the first labelling stage, `1-first_label.py`:
    which reviews still need analysis, and how analysis results are
    flattened into one row per topic. */
module FirstLabel {
  import opened Base
  import opened Records

  /** `[doc.get("review_id") for doc in results if doc.get("review_id")]`:
      the truthy review ids of the stored results, in order. */
  function ProcessedIds(ids: seq<Option<string>>): (r: seq<string>)
    ensures |r| <= |ids|
    ensures forall x :: x in r <==> x != "" && Some(x) in ids
  {
    if ids == [] then []
    else
      var rest := ProcessedIds(ids[1..]);
      assert forall x :: Some(x) in ids <==> Some(x) == ids[0] || Some(x) in ids[1..];
      if ids[0].Some? && ids[0].value != "" then [ids[0].value] + rest else rest
  }

  /** The filter on the `reviews` collection: the project, and a `$nin` on
      the review id only when there is something to exclude. */
  datatype ReviewQuery = ReviewQuery(projectCode: string, notIn: Option<seq<string>>)

  function UnprocessedQuery(projectCode: string, processed: seq<string>): (q: ReviewQuery)
    ensures q.projectCode == projectCode
    ensures q.notIn.Some? <==> processed != []
    ensures q.notIn.Some? ==> q.notIn.value == processed
  {
    ReviewQuery(projectCode, if processed != [] then Some(processed) else None)
  }

  /** A review as the query sees it. */
  datatype Review = Review(projectCode: string, reviewId: Option<string>)

  /** MongoDB's reading of the filter: `$nin` also matches a document
      without the field. */
  predicate Matches(q: ReviewQuery, r: Review) {
    r.projectCode == q.projectCode
    && (q.notIn.Some? ==> r.reviewId.None? || r.reviewId.value !in q.notIn.value)
  }

  /** A review of the project is fetched exactly when its id is not among
      the truthy ids already processed. */
  lemma UnprocessedSelects(projectCode: string, stored: seq<Option<string>>, r: Review)
    ensures Matches(UnprocessedQuery(projectCode, ProcessedIds(stored)), r)
        <==> r.projectCode == projectCode
             && (r.reviewId.None? || r.reviewId.value == "" || Some(r.reviewId.value) !in stored)
  {
  }

  /** One stored analysis result as `process_analysis_results` reads it. */
  datatype AnalysisResult = AnalysisResult(
    id: string,
    comment: Option<string>,
    reviewId: Option<string>,
    topics: seq<TopicItem>)

  /** One row of the flattened table. */
  datatype TopicRow = TopicRow(
    id: string,
    comment: Option<string>,
    topic: Option<string>,
    polarity: Option<string>,
    confidence: Option<string>,
    relatedText: Option<string>,
    reviewId: Option<string>)

  function Row(res: AnalysisResult, item: TopicItem): (row: TopicRow)
  {
    TopicRow(res.id, res.comment, ItemGet(item, "topic"), ItemGet(item, "polarity"),
             ItemGet(item, "confidence"), ItemGet(item, "related_text"), res.reviewId)
  }

  function RowsOf(res: AnalysisResult): (rows: seq<TopicRow>)
    ensures |rows| == |res.topics|
    ensures forall j :: 0 <= j < |rows| ==> rows[j] == Row(res, res.topics[j])
  {
    seq(|res.topics|, j requires 0 <= j < |res.topics| => Row(res, res.topics[j]))
  }

  /** `process_analysis_results`: for every result in order, one row per
      element of its `product_topic_result`, in order. */
  function ProcessAnalysisResults(results: seq<AnalysisResult>): (rows: seq<TopicRow>)
    ensures results == [] ==> rows == []
  {
    if results == [] then [] else RowsOf(results[0]) + ProcessAnalysisResults(results[1..])
  }

  /** The number of topic items before result `k`. */
  function Offset(results: seq<AnalysisResult>, k: nat): nat
    requires k <= |results|
  {
    if k == 0 then 0 else Offset(results, k - 1) + |results[k - 1].topics|
  }

  /** Flattening distributes over concatenation of the input. */
  lemma {:induction false} ProcessAppend(a: seq<AnalysisResult>, b: seq<AnalysisResult>)
    ensures ProcessAnalysisResults(a + b) == ProcessAnalysisResults(a) + ProcessAnalysisResults(b)
  {
    if a == [] {
      assert a + b == b;
    } else {
      assert (a + b)[1..] == a[1..] + b;
      ProcessAppend(a[1..], b);
    }
  }

  /** The table has one row per topic item, and the row for item `j` of
      result `k` sits at `Offset(k) + j` and carries that item's fields and
      that result's id, comment and review id. */
  lemma {:induction false} ProcessLayout(results: seq<AnalysisResult>, k: nat, j: nat)
    requires k < |results| && j < |results[k].topics|
    ensures |ProcessAnalysisResults(results)| == Offset(results, |results|)
    ensures Offset(results, k) + j < |ProcessAnalysisResults(results)|
    ensures ProcessAnalysisResults(results)[Offset(results, k) + j] == Row(results[k], results[k].topics[j])
    decreases |results|
  {
    var n := |results|;
    var init := results[..n - 1];
    assert results == init + [results[n - 1]];
    ProcessAppend(init, [results[n - 1]]);
    assert ProcessAnalysisResults([results[n - 1]]) == RowsOf(results[n - 1]);
    OffsetPrefix(results, init, k);
    OffsetPrefix(results, init, n - 1);
    LengthIsOffset(init);
    if k < n - 1 {
      ProcessLayout(init, k, j);
    }
  }

  lemma {:induction false} LengthIsOffset(results: seq<AnalysisResult>)
    ensures |ProcessAnalysisResults(results)| == Offset(results, |results|)
    decreases |results|
  {
    if results != [] {
      var n := |results|;
      var init := results[..n - 1];
      assert results == init + [results[n - 1]];
      ProcessAppend(init, [results[n - 1]]);
      assert ProcessAnalysisResults([results[n - 1]]) == RowsOf(results[n - 1]);
      LengthIsOffset(init);
      OffsetPrefix(results, init, n - 1);
    }
  }

  lemma {:induction false} OffsetPrefix(results: seq<AnalysisResult>, init: seq<AnalysisResult>, k: nat)
    requires |init| <= |results| && init == results[..|init|] && k <= |init|
    ensures Offset(results, k) == Offset(init, k)
  {
    if k > 0 {
      OffsetPrefix(results, init, k - 1);
    }
  }
}

=== FILE: insight_panel.dfy ===
/** The colour logic of `frontend/src/components/insight/InsightPanel.js`:
    the accent colour per panel type, the icon choice, the channel
    extraction `extractRGB` and the translucent background and border
    built from it. */
module InsightPanel {
  import opened Base
  import opened Text
  import opened Ordering
  import opened ReportTheme

  const Grey := "rgba(140, 140, 140, 1)"
  const GreyChannels := "140, 140, 140"
  const Alpha := "0.12"
  const BorderAlpha := "0.3"

  /** `getTypeColor()`: the theme's colour for the four known panel
      types, grey for anything else. */
  function TypeColor(p: Palette, kind: string): (c: string)
    ensures kind == "success" ==> c == p.success
    ensures kind == "info" ==> c == p.info
    ensures kind == "warning" ==> c == p.warning
    ensures kind == "error" ==> c == p.error
    ensures !Known(kind) ==> c == Grey
  {
    if kind == "success" then p.success
    else if kind == "info" then p.info
    else if kind == "warning" then p.warning
    else if kind == "error" then p.error
    else Grey
  }

  predicate Known(kind: string) {
    kind == "success" || kind == "info" || kind == "warning" || kind == "error"
  }

  /** The panel icon: the one supplied, else a 24px bulb in the accent
      colour. */
  datatype Icon = Supplied(node: string) | Bulb(color: string, fontSize: string)

  function PanelIcon(icon: Option<string>, color: string): (r: Icon)
    ensures icon.Some? && icon.value != "" ==> r == Supplied(icon.value)
    ensures (icon.None? || icon.value == "") ==> r == Bulb(color, "24px")
  {
    if icon.Some? && icon.value != "" then Supplied(icon.value) else Bulb(color, "24px")
  }

  // ---------------------------------------------------------------------
  // parseInt(s, 16)

  /** The part after an optional sign. */
  function Unsigned(t: string): string {
    if t != [] && (t[0] == '-' || t[0] == '+') then t[1..] else t
  }

  /** The part after an optional `0x` or `0X`, which radix 16 allows. */
  function WithoutHexPrefix(u: string): string {
    if |u| >= 2 && u[0] == '0' && (u[1] == 'x' || u[1] == 'X') then u[2..] else u
  }

  /** `parseInt(s, 16)`: leading white space, an optional sign, an
      optional `0x`, then the longest run of hexadecimal digits; `None`
      (NaN) when there are none. */
  function ParseHexInt(s: string): Option<int> {
    var t := StripLeft(s);
    match ParseHex(WithoutHexPrefix(Unsigned(t)))
    case None => None
    case Some(v) => if t != [] && t[0] == '-' then Some(-(v as int)) else Some(v)
  }

  /** A hexadecimal digit is neither white space nor a sign. */
  lemma HexDigitPlain(c: char)
    requires IsHexDigit(c)
    ensures !IsSpace(c) && c != '-' && c != '+' && c != 'x' && c != 'X'
  {
  }

  /** Text that starts with a digit and no `0x` is read as it stands. */
  lemma ParseHexPlain(s: string)
    requires |s| == 2 && IsHexDigit(s[0]) && IsHexDigit(s[1])
    ensures ParseHexInt(s) == ParseHex(s)
  {
    HexDigitPlain(s[0]);
    HexDigitPlain(s[1]);
    StripLeftKeeps(s);
    assert Unsigned(s) == s;
    assert WithoutHexPrefix(s) == s;
  }

  /** Two hexadecimal digits parse as the byte they denote. */
  lemma ParseHexPair(s: string)
    requires |s| == 2 && IsHexDigit(s[0]) && IsHexDigit(s[1])
    ensures ParseHexInt(s).Some? && ParseHexInt(s).value == Byte(s[0], s[1])
    ensures Byte(s[0], s[1]) <= 255
  {
    ParseHexPlain(s);
    HexPairBound(s);
  }

  /** `${n}` for a parsed channel. */
  function NumText(v: Option<int>): string {
    match v
    case Some(n) => IntText(n)
    case None => "NaN"
  }

  function Channels(a: string, b: string, c: string): string {
    NumText(ParseHexInt(a)) + ", " + NumText(ParseHexInt(b)) + ", " + NumText(ParseHexInt(c))
  }

  // ---------------------------------------------------------------------
  // extractRGB

  predicate StartsWith(s: string, prefix: string) {
    |prefix| <= |s| && s[..|prefix|] == prefix
  }

  /** `replace(/[^\d,]/g, '')`: only decimal digits and commas stay. */
  function DigitsAndCommas(s: string): string {
    if s == [] then [] else KeepChar(s[0]) + DigitsAndCommas(s[1..])
  }

  /** One character of `replace(/[^\d,]/g, '')`: a digit or comma stays. */
  function KeepChar(c: char): string {
    if '0' <= c <= '9' || c == ',' then [c] else []
  }

  /** `replace('#', '')`: only the first `#` goes. */
  function RemoveFirstHash(s: string): (r: string)
    ensures '#' !in s ==> r == s
    ensures s != [] && s[0] == '#' ==> r == s[1..]
  {
    if s == [] then []
    else if s[0] == '#' then s[1..]
    else [s[0]] + RemoveFirstHash(s[1..])
  }

  /** `substr(start, 2)` for a start within or past the end. */
  function Substr2(s: string, start: nat): (r: string)
    ensures |r| <= 2
  {
    if start >= |s| then "" else if start + 2 <= |s| then s[start..start + 2] else s[start..]
  }

  /** `extractRGB(color)`: for `rgba(...)` the first three numbers,
      joined by ", "; otherwise the three channels of a `#RGB` or
      `#RRGGBB` colour as decimal numbers (NaN where a pair is not
      hexadecimal). */
  function ExtractRGB(color: string): string {
    if StartsWith(color, "rgba") then
      Join(SliceTo(Split(DigitsAndCommas(color), ','), 3), ", ")
    else
      var p := HexPairs(RemoveFirstHash(color));
      Channels(p.0, p.1, p.2)
  }

  /** The byte two hexadecimal digits denote. */
  function Byte(a: char, b: char): nat
    requires IsHexDigit(a) && IsHexDigit(b)
  {
    16 * HexDigit(a).value + HexDigit(b).value
  }

  /** A colour that starts with `#` takes the hexadecimal path. */
  lemma HashPath(c: string)
    requires c != [] && c[0] == '#'
    ensures var p := HexPairs(c[1..]); ExtractRGB(c) == Channels(p.0, p.1, p.2)
  {
    if |c| >= 4 {
      assert c[..4][0] != "rgba"[0];
    }
    assert RemoveFirstHash(c) == c[1..];
  }

  /** The three digit pairs of a colour without its `#`: each digit
      doubled for three characters, else two characters at 0, 2 and 4. */
  function HexPairs(hex: string): (string, string, string) {
    if |hex| == 3 then ([hex[0], hex[0]], [hex[1], hex[1]], [hex[2], hex[2]])
    else (Substr2(hex, 0), Substr2(hex, 2), Substr2(hex, 4))
  }

  /** A pair of hexadecimal digits prints as the decimal of its byte. */
  lemma PairText(a: char, b: char)
    requires IsHexDigit(a) && IsHexDigit(b)
    ensures NumText(ParseHexInt([a, b])) == Decimal(Byte(a, b))
    ensures Byte(a, b) <= 255
  {
    ParseHexPair([a, b]);
    NumTextOfNat(ParseHexInt([a, b]), Byte(a, b));
  }

  lemma NumTextOfNat(v: Option<int>, n: nat)
    requires v.Some? && v.value == n
    ensures NumText(v) == Decimal(n)
  {
  }

  /** Three pairs of hexadecimal digits print as their bytes. */
  lemma ChannelsOfBytes(s: string)
    requires |s| == 6 && forall k :: 0 <= k < 6 ==> IsHexDigit(s[k])
    ensures Channels([s[0], s[1]], [s[2], s[3]], [s[4], s[5]])
         == ChannelText(Byte(s[0], s[1]), Byte(s[2], s[3]), Byte(s[4], s[5]))
    ensures Byte(s[0], s[1]) <= 255 && Byte(s[2], s[3]) <= 255 && Byte(s[4], s[5]) <= 255
  {
    PairText(s[0], s[1]);
    PairText(s[2], s[3]);
    PairText(s[4], s[5]);
  }

  /** A `#RRGGBB` colour gives its three bytes in decimal, each at most
      255. */
  lemma SixDigitColour(s: string)
    requires |s| == 6 && forall k :: 0 <= k < 6 ==> IsHexDigit(s[k])
    ensures ExtractRGB("#" + s) == ChannelText(Byte(s[0], s[1]), Byte(s[2], s[3]), Byte(s[4], s[5]))
    ensures Byte(s[0], s[1]) <= 255 && Byte(s[2], s[3]) <= 255 && Byte(s[4], s[5]) <= 255
  {
    var c := "#" + s;
    HashPath(c);
    assert c[1..] == s;
    SixPairs(s);
    ChannelsOfBytes(s);
  }

  lemma SixPairs(s: string)
    requires |s| == 6
    ensures HexPairs(s) == ([s[0], s[1]], [s[2], s[3]], [s[4], s[5]])
  {
    assert Substr2(s, 0) == [s[0], s[1]];
    assert Substr2(s, 2) == [s[2], s[3]];
    assert Substr2(s, 4) == [s[4], s[5]];
  }

  lemma PairsExpand(a: char, b: char, c: char)
    ensures HexPairs([a, b, c]) == HexPairs([a, a, b, b, c, c])
  {
    var long := [a, a, b, b, c, c];
    assert Substr2(long, 0) == [a, a];
    assert Substr2(long, 2) == [b, b];
    assert Substr2(long, 4) == [c, c];
  }

  /** The short form `#RGB` means `#RRGGBB`. */
  lemma ShortFormExpands(a: char, b: char, c: char)
    ensures ExtractRGB("#" + [a, b, c]) == ExtractRGB("#" + [a, a, b, b, c, c])
  {
    var short, long := "#" + [a, b, c], "#" + [a, a, b, b, c, c];
    HashPath(short);
    HashPath(long);
    assert short[1..] == [a, b, c];
    assert long[1..] == [a, a, b, b, c, c];
    PairsExpand(a, b, c);
  }

  lemma {:induction false} DigitsAndCommasAppend(x: string, y: string)
    ensures DigitsAndCommas(x + y) == DigitsAndCommas(x) + DigitsAndCommas(y)
  {
    if x == [] {
      assert x + y == y;
    } else {
      var z := x + y;
      assert z[0] == x[0] && z[1..] == x[1..] + y;
      DigitsAndCommasAppend(x[1..], y);
      assert DigitsAndCommas(z) == KeepChar(x[0]) + (DigitsAndCommas(x[1..]) + DigitsAndCommas(y));
    }
  }

  lemma {:induction false} DigitsKept(d: string)
    requires forall k :: 0 <= k < |d| ==> '0' <= d[k] <= '9'
    ensures DigitsAndCommas(d) == d
  {
    if d != [] {
      DigitsKept(d[1..]);
      assert [d[0]] + d[1..] == d;
    }
  }

  lemma {:induction false} NoCommaKept(s: string)
    requires ',' !in s
    ensures ',' !in DigitsAndCommas(s)
  {
    if s != [] {
      NoCommaKept(s[1..]);
    }
  }

  /** `rgba(${rgb}, ${alpha})`. */
  function Rgba(rgb: string, alpha: string): string {
    "rgba(" + rgb + ", " + alpha + ")"
  }

  /** Three decimal channels, as `extractRGB` prints them. */
  function ChannelText(r: nat, g: nat, b: nat): string {
    Decimal(r) + ", " + Decimal(g) + ", " + Decimal(b)
  }

  lemma OpenKept()
    ensures DigitsAndCommas("rgba(") == ""
  {
  }

  lemma CommaSpaceKept()
    ensures DigitsAndCommas(", ") == ","
  {
  }

  lemma CloseKept()
    ensures DigitsAndCommas(")") == ""
  {
  }

  /** What `DigitsAndCommas` keeps of `rgba(${rgb}, ${alpha})`. */
  lemma RgbaKept(rgb: string, alpha: string)
    ensures DigitsAndCommas(Rgba(rgb, alpha)) == DigitsAndCommas(rgb) + "," + DigitsAndCommas(alpha)
  {
    var p1 := "rgba(" + rgb;
    var p2 := p1 + ", ";
    var p3 := p2 + alpha;
    assert Rgba(rgb, alpha) == p3 + ")";
    OpenKept();
    DigitsAndCommasAppend("rgba(", rgb);
    assert DigitsAndCommas(p1) == DigitsAndCommas(rgb);
    CommaSpaceKept();
    DigitsAndCommasAppend(p1, ", ");
    DigitsAndCommasAppend(p2, alpha);
    CloseKept();
    DigitsAndCommasAppend(p3, ")");
  }

  /** What `DigitsAndCommas` keeps of three decimal channels. */
  lemma ChannelsKept(r: nat, g: nat, b: nat)
    ensures DigitsAndCommas(ChannelText(r, g, b)) == Decimal(r) + "," + Decimal(g) + "," + Decimal(b)
  {
    var dr, dg, db := Decimal(r), Decimal(g), Decimal(b);
    CommaSpaceKept();
    DigitsAndCommasAppend(dr + ", " + dg + ", ", db);
    DigitsAndCommasAppend(dr + ", " + dg, ", ");
    DigitsAndCommasAppend(dr + ", ", dg);
    DigitsAndCommasAppend(dr, ", ");
    DigitsKept(dr);
    DigitsKept(dg);
    DigitsKept(db);
  }

  lemma JoinFour(w: string, x: string, y: string, z: string, sep: string)
    ensures Join([w, x, y, z], sep) == w + sep + x + sep + y + sep + z
  {
    var parts := [w, x, y, z];
    assert Join(parts, sep) == w + sep + Join(parts[1..], sep);
    assert Join(parts[1..], sep) == x + sep + Join(parts[2..], sep);
    assert Join(parts[2..], sep) == y + sep + Join(parts[3..], sep);
  }

  /** Of four comma-free pieces joined by commas, the first three come
      back joined by ", ". */
  lemma FirstThree(w: string, x: string, y: string, z: string)
    requires ',' !in w && ',' !in x && ',' !in y && ',' !in z
    ensures Join(SliceTo(Split(Join([w, x, y, z], ","), ','), 3), ", ") == w + ", " + x + ", " + y
  {
    var parts := [w, x, y, z];
    assert forall k :: 0 <= k < |parts| ==> ',' !in parts[k];
    SplitJoin(parts, ',');
    assert SliceTo(parts, 3) == [w, x, y];
    assert Join([w, x, y], ", ") == w + ", " + Join([x, y], ", ");
  }

  lemma DecimalNoComma(n: nat)
    ensures ',' !in Decimal(n)
  {
  }

  /** An `rgba(...)` colour gives back its three channels, whatever its
      alpha (as long as the alpha holds no comma). */
  lemma RgbaRoundTrip(r: nat, g: nat, b: nat, alpha: string)
    requires ',' !in alpha
    ensures ExtractRGB(Rgba(ChannelText(r, g, b), alpha)) == ChannelText(r, g, b)
  {
    var color := Rgba(ChannelText(r, g, b), alpha);
    assert StartsWith(color, "rgba") by {
      assert color[..4] == "rgba";
    }
    var dr, dg, db, da := Decimal(r), Decimal(g), Decimal(b), DigitsAndCommas(alpha);
    RgbaKept(ChannelText(r, g, b), alpha);
    ChannelsKept(r, g, b);
    NoCommaKept(alpha);
    DecimalNoComma(r);
    DecimalNoComma(g);
    DecimalNoComma(b);
    JoinFour(dr, dg, db, da, ",");
    assert DigitsAndCommas(color) == Join([dr, dg, db, da], ",");
    FirstThree(dr, dg, db, da);
  }

  /** The grey fallback colour extracts to the grey channels the default
      style writes, so every panel type's style is built from the
      channels of its own accent colour. */
  lemma GreyChannelsAgree()
    ensures ExtractRGB(Grey) == GreyChannels
  {
    GreyChannelText();
    GreyIsRgba();
    RgbaRoundTrip(140, 140, 140, "1");
  }

  lemma GreyChannelText()
    ensures ChannelText(140, 140, 140) == GreyChannels
  {
    DecimalOf140();
  }

  lemma GreyIsRgba()
    ensures Grey == Rgba(GreyChannels, "1")
  {
  }

  lemma DecimalOf140()
    ensures Decimal(140) == "140"
  {
    assert Decimal(1) == "1";
    assert Decimal(14) == "14";
  }

  // ---------------------------------------------------------------------
  // getBgAndBorder

  datatype Style = Style(background: string, border: string)

  /** `getBgAndBorder()`: the accent colour's channels at alpha 0.12 for
      the background and, when bordered, at alpha 0.3 for a 1px solid
      border, else no border; unknown types use grey. */
  function BgAndBorder(p: Palette, kind: string, bordered: bool): (s: Style)
    ensures s.background == Rgba(ExtractRGB(TypeColor(p, kind)), Alpha)
    ensures bordered ==> s.border == "1px solid " + Rgba(ExtractRGB(TypeColor(p, kind)), BorderAlpha)
    ensures !bordered ==> s.border == "none"
  {
    GreyChannelsAgree();
    var rgb := if Known(kind) then ExtractRGB(TypeColor(p, kind)) else GreyChannels;
    Style(Rgba(rgb, Alpha), if bordered then "1px solid " + Rgba(rgb, BorderAlpha) else "none")
  }

  /** The background of a panel whose accent is a `#RRGGBB` colour
      carries that colour's channels: extracting them again gives the
      same channels. */
  lemma BackgroundKeepsChannels(p: Palette, kind: string, bordered: bool, hex: string)
    requires TypeColor(p, kind) == "#" + hex
    requires |hex| == 6 && forall k :: 0 <= k < 6 ==> IsHexDigit(hex[k])
    ensures ExtractRGB(BgAndBorder(p, kind, bordered).background) == ExtractRGB(TypeColor(p, kind))
  {
    SixDigitColour(hex);
    RgbaRoundTrip(Byte(hex[0], hex[1]), Byte(hex[2], hex[3]), Byte(hex[4], hex[5]), Alpha);
  }
}

=== FILE: insight_prompts.dfy ===
/** The selection logic of the insight prompts in `prompts.py`: which data
    lines each prompt carries, how many, and in what order. A prompt body is
    a sequence of `Line`s; the fixed instruction prose around them and the
    percentage formatting of rates are not part of the model. */
module InsightPrompts {
  import opened Base
  import opened Text
  import opened Ordering
  import opened Profiles
  import Aggregation

  /** The data lines the insight prompts emit. */
  datatype Line =
    | ProfileLine(field: string, value: string, count: int)    // "- field: value (数量: count)"
    | ProfileSummary(text: string)                             // "  摘要: text"
    | QuadrantHeader(quadrant: int)                            // "## <quadrant name>"
    | QuadrantTopic(name: string, count: int)                  // "- name (提及数: count, ...)"
    | MoreTopics(n: int)                                       // "- 还有 n 个其他话题"
    | NoTopics                                                 // "- 无话题"
    | TopicHeader(topic: string, count: int)                   // "### 话题: topic (总提及数: count)"
    | GoodCount(n: int)                                        // "- 好评数: n (...)"
    | NeutralBadCount(n: int)                                  // "- 中差评数: n (...)"
    | GoodSummary(text: string)                                // "- 好评摘要: text"
    | NeutralBadSummary(text: string)                          // "- 中差评摘要: text"

  // ---------------------------------------------------------------------
  // Profile lines, shared by user_profile_insight_prompt and
  // overall_insight_prompt

  /** `field.replace("new_", "")`. */
  function Label(field: string): string {
    ReplaceAll(field, "new_", "")
  }

  /** For the corrected fields the label is the raw field name. */
  lemma LabelOfNewField(raw: string)
    requires !Occurs(raw, "new_")
    ensures Label("new_" + raw) == raw
  {
    var f := "new_" + raw;
    assert f[..4] == "new_" && f[4..] == raw;
    ReplaceAbsent(raw, "new_", "");
  }

  /** `if value and count > 0`. */
  predicate Shown(e: ProfileEntry) {
    Aggregation.Truthy(e.value) && e.count > 0
  }

  /** The lines for one field: its value line when shown, followed by its
      summary line when the summary is non-empty. */
  function ProfileBlock(field: string, e: ProfileEntry): (r: seq<Line>)
    ensures r == [] <==> !Shown(e)
    ensures r != [] ==> r[0] == ProfileLine(Label(field), e.value.value, e.count)
    ensures r != [] ==> |r| == if Aggregation.Truthy(e.summary) then 2 else 1
    ensures |r| == 2 ==> r[1] == ProfileSummary(e.summary.value)
  {
    if !Shown(e) then []
    else [ProfileLine(Label(field), e.value.value, e.count)]
         + (if Aggregation.Truthy(e.summary) then [ProfileSummary(e.summary.value)] else [])
  }

  /** The loop over `top_profile.items()`. */
  function ProfileLines(top: seq<(string, ProfileEntry)>): (r: seq<Line>)
    ensures r == [] || r[0].ProfileLine?
  {
    if top == [] then [] else ProfileBlock(top[0].0, top[0].1) + ProfileLines(top[1..])
  }

  /** What the prompt tells the model about one field. */
  datatype ShownProfile = ShownProfile(field: string, value: string, count: int, summary: Option<string>)

  /** The fields the prompt reports: those with a non-empty value and a
      positive count, in order, each with its summary when non-empty. */
  function ShownProfiles(top: seq<(string, ProfileEntry)>): (r: seq<ShownProfile>)
    ensures |r| <= |top|
  {
    if top == [] then []
    else
      var e := top[0].1;
      (if Shown(e)
       then [ShownProfile(Label(top[0].0), e.value.value, e.count,
                          if Aggregation.Truthy(e.summary) then e.summary else None)]
       else [])
      + ShownProfiles(top[1..])
  }

  /** Reads the profile lines back: a value line, and the summary line
      right after it if there is one. */
  function ParseProfiles(lines: seq<Line>): (r: seq<ShownProfile>)
    decreases |lines|
  {
    if lines == [] then []
    else match lines[0]
      case ProfileLine(l, v, c) =>
        if |lines| > 1 && lines[1].ProfileSummary?
        then [ShownProfile(l, v, c, Some(lines[1].text))] + ParseProfiles(lines[2..])
        else [ShownProfile(l, v, c, None)] + ParseProfiles(lines[1..])
      case _ => ParseProfiles(lines[1..])
  }

  /** The profile lines say exactly which fields are shown, with which
      value, count and summary: nothing more, nothing less, in order. */
  lemma {:induction false} ProfileLinesRoundTrip(top: seq<(string, ProfileEntry)>)
    ensures ParseProfiles(ProfileLines(top)) == ShownProfiles(top)
  {
    if top != [] {
      var b := ProfileBlock(top[0].0, top[0].1);
      var rest := ProfileLines(top[1..]);
      ProfileLinesRoundTrip(top[1..]);
      if |b| == 1 {
        assert (b + rest)[1..] == rest;
      } else if |b| == 2 {
        assert (b + rest)[2..] == rest;
        assert (b + rest)[1] == b[1];
      } else {
        assert b + rest == rest;
      }
    }
  }

  // ---------------------------------------------------------------------
  // quadrant_insight_prompt

  /** A topic of a quadrant as the prompt lists it. */
  datatype QuadrantEntry = QuadrantEntry(name: string, count: int)

  /** The section for one quadrant: its heading; then its first three
      topics and, beyond three, one line counting the rest; or "- 无话题"
      when it has none. */
  function QuadrantSection(q: int, topics: seq<QuadrantEntry>): (r: seq<Line>)
    ensures |r| >= 2 && r[0] == QuadrantHeader(q)
    ensures topics == [] <==> r == [QuadrantHeader(q), NoTopics]
    ensures topics != [] ==> |r| == 1 + (if |topics| > 3 then 4 else |topics|)
    ensures forall i :: 0 <= i < |topics| && i < 3 ==> r[1 + i] == QuadrantTopic(topics[i].name, topics[i].count)
    ensures MoreTopics(|topics| - 3) in r <==> |topics| > 3
    ensures forall i :: 1 <= i < |r| ==> !r[i].QuadrantHeader?
  {
    if topics == [] then [QuadrantHeader(q), NoTopics]
    else
      var shown := SliceTo(topics, 3);
      var listed := seq(|shown|, i requires 0 <= i < |shown| => QuadrantTopic(shown[i].name, shown[i].count));
      var r := [QuadrantHeader(q)] + listed + (if |topics| > 3 then [MoreTopics(|topics| - 3)] else []);
      assert r[1] == listed[0];
      r
  }

  /** The topics a section accounts for: one per listed topic plus the
      number its "还有 N 个" line gives. */
  function Accounted(lines: seq<Line>): int {
    if lines == [] then 0
    else
      (match lines[0]
       case QuadrantTopic(_, _) => 1
       case MoreTopics(n) => n
       case _ => 0) + Accounted(lines[1..])
  }

  lemma {:induction false} AccountedAppend(a: seq<Line>, b: seq<Line>)
    ensures Accounted(a + b) == Accounted(a) + Accounted(b)
  {
    if a == [] {
      assert a + b == b;
    } else {
      assert (a + b)[1..] == a[1..] + b;
      AccountedAppend(a[1..], b);
    }
  }

  lemma {:induction false} AccountedTopics(s: seq<QuadrantEntry>)
    ensures Accounted(seq(|s|, i requires 0 <= i < |s| => QuadrantTopic(s[i].name, s[i].count))) == |s|
  {
    var l := seq(|s|, i requires 0 <= i < |s| => QuadrantTopic(s[i].name, s[i].count));
    if s != [] {
      var l' := seq(|s[1..]|, i requires 0 <= i < |s[1..]| => QuadrantTopic(s[1..][i].name, s[1..][i].count));
      assert l[1..] == l';
      AccountedTopics(s[1..]);
    }
  }

  /** Every topic of the quadrant is accounted for, listed or counted. */
  lemma QuadrantSectionAccounts(q: int, topics: seq<QuadrantEntry>)
    ensures Accounted(QuadrantSection(q, topics)) == |topics|
  {
    if topics == [] {
      assert Accounted([NoTopics]) == 0;
    } else {
      var shown := SliceTo(topics, 3);
      var listed := seq(|shown|, i requires 0 <= i < |shown| => QuadrantTopic(shown[i].name, shown[i].count));
      var more: seq<Line> := if |topics| > 3 then [MoreTopics(|topics| - 3)] else [];
      AccountedAppend([QuadrantHeader(q)], listed);
      AccountedAppend([QuadrantHeader(q)] + listed, more);
      AccountedTopics(shown);
      assert Accounted([QuadrantHeader(q)]) == 0;
      if |topics| > 3 {
        assert Accounted(more) == |topics| - 3 by {
          assert more[1..] == [];
        }
      }
    }
  }

  /** `topics.get(quadrant, [])`. */
  function TopicsOf(topics: map<int, seq<QuadrantEntry>>, q: int): seq<QuadrantEntry> {
    if q in topics then topics[q] else []
  }

  /** The sections for quadrants 1 to 4, in that order. */
  function QuadrantLines(topics: map<int, seq<QuadrantEntry>>): (r: seq<Line>)
  {
    QuadrantSection(1, TopicsOf(topics, 1)) + QuadrantSection(2, TopicsOf(topics, 2))
    + QuadrantSection(3, TopicsOf(topics, 3)) + QuadrantSection(4, TopicsOf(topics, 4))
  }

  /** The quadrants whose sections a body opens, in order. */
  function Headers(lines: seq<Line>): seq<int> {
    if lines == [] then []
    else (if lines[0].QuadrantHeader? then [lines[0].quadrant] else []) + Headers(lines[1..])
  }

  lemma {:induction false} HeadersAppend(a: seq<Line>, b: seq<Line>)
    ensures Headers(a + b) == Headers(a) + Headers(b)
  {
    if a == [] {
      assert a + b == b;
    } else {
      assert (a + b)[0] == a[0];
      assert (a + b)[1..] == a[1..] + b;
      HeadersAppend(a[1..], b);
    }
  }

  lemma {:induction false} HeadersAfter(lines: seq<Line>, k: nat)
    requires k <= |lines|
    requires forall i :: k <= i < |lines| ==> !lines[i].QuadrantHeader?
    ensures Headers(lines[k..]) == []
    decreases |lines| - k
  {
    if k < |lines| {
      assert lines[k..][1..] == lines[k + 1..];
      HeadersAfter(lines, k + 1);
    }
  }

  lemma SectionHeaders(q: int, topics: seq<QuadrantEntry>)
    ensures Headers(QuadrantSection(q, topics)) == [q]
  {
    var s := QuadrantSection(q, topics);
    HeadersAfter(s, 1);
  }

  /** The sections come once each, for quadrants 1, 2, 3 and 4 in that
      order, whatever quadrants the input holds. */
  lemma QuadrantOrder(topics: map<int, seq<QuadrantEntry>>)
    ensures Headers(QuadrantLines(topics)) == [1, 2, 3, 4]
  {
    var s1 := QuadrantSection(1, TopicsOf(topics, 1));
    var s2 := QuadrantSection(2, TopicsOf(topics, 2));
    var s3 := QuadrantSection(3, TopicsOf(topics, 3));
    var s4 := QuadrantSection(4, TopicsOf(topics, 4));
    SectionHeaders(1, TopicsOf(topics, 1));
    SectionHeaders(2, TopicsOf(topics, 2));
    SectionHeaders(3, TopicsOf(topics, 3));
    SectionHeaders(4, TopicsOf(topics, 4));
    HeadersAppend(s1, s2);
    HeadersAppend(s1 + s2, s3);
    HeadersAppend(s1 + s2 + s3, s4);
  }

  // ---------------------------------------------------------------------
  // topic_insight_prompt and overall_insight_prompt

  /** A topic's data: the statistics dict, or a bare count. Absent keys of
      the dict read as 0 or as an empty summary. */
  datatype TopicData =
    | Stats(total: int, good: int, neutral: int, bad: int, goodSummary: Option<string>, neutralBadSummary: Option<string>)
    | Count(n: int)

  /** `data.get("总数", 0)` for a dict, the value itself otherwise. */
  function CountOf(d: TopicData): int {
    match d
    case Stats(t, _, _, _, _, _) => t
    case Count(n) => n
  }

  function PairKey(p: (string, int)): int {
    p.1
  }

  function CountPairs(topics: seq<(string, TopicData)>): (r: seq<(string, int)>)
    ensures |r| == |topics|
    ensures forall i :: 0 <= i < |r| ==> r[i] == (topics[i].0, CountOf(topics[i].1))
  {
    seq(|topics|, i requires 0 <= i < |topics| => (topics[i].0, CountOf(topics[i].1)))
  }

  /** `sorted(..., key=count, reverse=True)[:5]`: at most five topics, by
      non-increasing count, each with its count, none left out outranking
      one kept. */
  function TopFive(topics: seq<(string, TopicData)>): (r: seq<(string, int)>)
    ensures |r| == if |topics| < 5 then |topics| else 5
    ensures NonIncreasing(r, PairKey)
    ensures forall i :: 0 <= i < |r| ==> r[i] in CountPairs(topics)
    ensures forall y, i | y in multiset(CountPairs(topics)) - multiset(r) && 0 <= i < |r| :: PairKey(y) <= PairKey(r[i])
  {
    var r := TopN(CountPairs(topics), PairKey, 5);
    MultisetMembers(r, CountPairs(topics));
    r
  }

  lemma MultisetMembers<T>(r: seq<T>, s: seq<T>)
    requires forall i | 0 <= i < |r| :: r[i] in multiset(s)
    ensures forall i :: 0 <= i < |r| ==> r[i] in s
  {
  }

  /** The lines of one topic: its heading with the count, the good count
      and the neutral-plus-bad count when positive, and each summary when
      non-empty. */
  function TopicBlock(topic: string, count: int, d: TopicData): (r: seq<Line>)
    requires d.Stats?
    ensures |r| >= 1 && r[0] == TopicHeader(topic, count)
    ensures GoodCount(d.good) in r <==> d.good > 0
    ensures NeutralBadCount(d.neutral + d.bad) in r <==> d.neutral + d.bad > 0
    ensures (Aggregation.Truthy(d.goodSummary) ==> GoodSummary(d.goodSummary.value) in r)
    ensures (forall x | x in r :: !x.GoodSummary?) <==> !Aggregation.Truthy(d.goodSummary)
    ensures (Aggregation.Truthy(d.neutralBadSummary) ==> NeutralBadSummary(d.neutralBadSummary.value) in r)
    ensures (forall x | x in r :: !x.NeutralBadSummary?) <==> !Aggregation.Truthy(d.neutralBadSummary)
  {
    [TopicHeader(topic, count)] + BlockTail(d)
  }

  /** The lines after a topic's heading. */
  function BlockTail(d: TopicData): (r: seq<Line>)
    requires d.Stats?
    ensures forall i :: 0 <= i < |r| ==> !r[i].TopicHeader?
  {
    (if d.good > 0 then [GoodCount(d.good)] else [])
    + (if d.neutral + d.bad > 0 then [NeutralBadCount(d.neutral + d.bad)] else [])
    + (if Aggregation.Truthy(d.goodSummary) then [GoodSummary(d.goodSummary.value)] else [])
    + (if Aggregation.Truthy(d.neutralBadSummary) then [NeutralBadSummary(d.neutralBadSummary.value)] else [])
  }

  /** `topics_data.get(topic, {})`: a missing topic reads as empty
      statistics. */
  function DataOf(topics: seq<(string, TopicData)>, t: string): TopicData {
    match Lookup(topics, t)
    case Some(x) => x
    case None => Stats(0, 0, 0, 0, None, None)
  }

  /** Why the loop body fails on a listed topic, if it does: a bare count
      has no `.get`, so `AttributeError` comes first; otherwise a listed
      count of 0 with a good or neutral-plus-bad line due makes the
      percentage `good_count/count` raise `ZeroDivisionError`. */
  function Fault(topics: seq<(string, TopicData)>, p: (string, int)): Option<string> {
    var d := DataOf(topics, p.0);
    if d.Count? then Some("AttributeError")
    else if p.1 == 0 && (d.good > 0 || d.neutral + d.bad > 0) then Some("ZeroDivisionError")
    else None
  }

  /** The per-topic loop. It stops at the first listed topic with a fault
      and raises that fault's error; otherwise it emits every topic's
      block. */
  function TopicLines(topics: seq<(string, TopicData)>, listed: seq<(string, int)>): (r: Result<seq<Line>, string>)
    ensures r.Err? <==> exists i :: 0 <= i < |listed| && Fault(topics, listed[i]).Some?
    ensures r.Err? ==> exists i :: (0 <= i < |listed| && Fault(topics, listed[i]) == Some(r.error)
                                    && forall j :: 0 <= j < i ==> Fault(topics, listed[j]).None?)
    ensures (exists i :: 0 <= i < |listed| && Lookup(topics, listed[i].0).Some? && Lookup(topics, listed[i].0).value.Count?)
            ==> r.Err?
  {
    if listed == [] then Ok([])
    else
      var fault := Fault(topics, listed[0]);
      var rest := TopicLines(topics, listed[1..]);
      assert forall i :: 1 <= i < |listed| ==> listed[i] == listed[1..][i - 1];
      if fault.Some? then Err(fault.value)
      else if rest.Err? then
        var k :| 0 <= k < |listed[1..]| && Fault(topics, listed[1..][k]) == Some(rest.error)
                 && forall j :: 0 <= j < k ==> Fault(topics, listed[1..][j]).None?;
        assert Fault(topics, listed[k + 1]) == Some(rest.error);
        rest
      else Ok(TopicBlock(listed[0].0, listed[0].1, DataOf(topics, listed[0].0)) + rest.value)
  }

  /** The topic headings of a body, in order. */
  function TopicHeadings(lines: seq<Line>): seq<(string, int)> {
    if lines == [] then []
    else (if lines[0].TopicHeader? then [(lines[0].topic, lines[0].count)] else []) + TopicHeadings(lines[1..])
  }

  lemma {:induction false} TopicHeadingsAppend(a: seq<Line>, b: seq<Line>)
    ensures TopicHeadings(a + b) == TopicHeadings(a) + TopicHeadings(b)
  {
    if a == [] {
      assert a + b == b;
    } else {
      assert (a + b)[0] == a[0];
      assert (a + b)[1..] == a[1..] + b;
      TopicHeadingsAppend(a[1..], b);
    }
  }

  lemma TopicBlockHeadings(topic: string, count: int, d: TopicData)
    requires d.Stats?
    ensures TopicHeadings(TopicBlock(topic, count, d)) == [(topic, count)]
  {
    var tail := BlockTail(d);
    NoTopicHeadings(tail);
    TopicHeadingsAppend([TopicHeader(topic, count)], tail);
    assert TopicHeadings([TopicHeader(topic, count)]) == [(topic, count)] + TopicHeadings([]);
  }

  lemma {:induction false} NoTopicHeadings(lines: seq<Line>)
    requires forall i :: 0 <= i < |lines| ==> !lines[i].TopicHeader?
    ensures TopicHeadings(lines) == []
  {
    if lines != [] {
      NoTopicHeadings(lines[1..]);
    }
  }

  /** When the per-topic loop completes, it emits one heading per listed
      topic, in the listed order with the listed counts. */
  lemma {:induction false} TopicLinesHeadings(topics: seq<(string, TopicData)>, listed: seq<(string, int)>)
    ensures TopicLines(topics, listed).Ok? ==> TopicHeadings(TopicLines(topics, listed).value) == listed
  {
    if listed != [] && TopicLines(topics, listed).Ok? {
      var d := DataOf(topics, listed[0].0);
      var rest := TopicLines(topics, listed[1..]);
      assert rest.Ok? && TopicLines(topics, listed).value == TopicBlock(listed[0].0, listed[0].1, d) + rest.value;
      TopicLinesHeadings(topics, listed[1..]);
      TopicBlockHeadings(listed[0].0, listed[0].1, d);
      TopicHeadingsAppend(TopicBlock(listed[0].0, listed[0].1, d), rest.value);
      assert listed == [listed[0]] + listed[1..];
    }
  }

  /** `topic_insight_prompt`'s data lines: the top five topics by count.
      It fails exactly when one of them fails. */
  function TopicInsightLines(topics: seq<(string, TopicData)>): (r: Result<seq<Line>, string>)
    ensures r.Err? <==> exists i :: 0 <= i < |TopFive(topics)| && Fault(topics, TopFive(topics)[i]).Some?
    ensures r.Ok? ==> TopicHeadings(r.value) == TopFive(topics)
  {
    TopicLinesHeadings(topics, TopFive(topics));
    TopicLines(topics, TopFive(topics))
  }

  /** The placeholder for a missing quadrant summary. */
  const NoQuadrantSummary := "无四象限分析总结"

  /** `overall_insight_prompt`'s data: the quadrant summary or the
      placeholder, the profile lines, and the lines of the top five topics
      by `总数`. Its ranking reads `data.get("总数", 0)` and so raises
      `AttributeError` on any bare count, listed or not; past the ranking,
      the per-topic loop can still divide by a zero total. */
  datatype OverallBody = OverallBody(quadrantText: string, profile: seq<Line>, topics: seq<Line>)

  function OverallInsight(top: seq<(string, ProfileEntry)>, topics: seq<(string, TopicData)>,
                          quadrantInsight: Option<string>): (r: Result<OverallBody, string>)
    ensures r.Err? <==> ((exists i :: 0 <= i < |topics| && topics[i].1.Count?)
                         || exists i :: 0 <= i < |TopFive(topics)| && Fault(topics, TopFive(topics)[i]).Some?)
    ensures (exists i :: 0 <= i < |topics| && topics[i].1.Count?) ==> r == Err("AttributeError")
    ensures r.Err? ==> r.error == "AttributeError" || r.error == "ZeroDivisionError"
    ensures r.Ok? ==> (r.value.quadrantText
      == if Aggregation.Truthy(quadrantInsight) then quadrantInsight.value else NoQuadrantSummary)
    ensures r.Ok? ==> ParseProfiles(r.value.profile) == ShownProfiles(top)
    ensures r.Ok? ==> TopicHeadings(r.value.topics) == TopFive(topics)
  {
    if exists i :: 0 <= i < |topics| && topics[i].1.Count? then Err("AttributeError")
    else
      var listed := TopFive(topics);
      var lines := TopicLines(topics, listed);
      NoCountOnlyDivides(topics, listed);
      TopicLinesHeadings(topics, listed);
      ProfileLinesRoundTrip(top);
      if lines.Err? then Err(lines.error)
      else
        Ok(OverallBody(if Aggregation.Truthy(quadrantInsight) then quadrantInsight.value else NoQuadrantSummary,
                       ProfileLines(top), lines.value))
  }

  /** Without bare counts in the data, the only fault left is a division
      by a zero count. */
  lemma NoCountOnlyDivides(topics: seq<(string, TopicData)>, listed: seq<(string, int)>)
    requires forall i :: 0 <= i < |topics| ==> !topics[i].1.Count?
    ensures forall i :: 0 <= i < |listed| ==> Fault(topics, listed[i]) != Some("AttributeError")
    ensures TopicLines(topics, listed).Err? ==> TopicLines(topics, listed).error == "ZeroDivisionError"
  {
    forall i | 0 <= i < |listed|
      ensures Fault(topics, listed[i]) != Some("AttributeError")
    {
      FoundIsStats(topics, listed[i].0);
    }
  }

  /** Without bare counts and with every listed count positive, the
      per-topic loop completes. */
  lemma PositiveCountsNoError(topics: seq<(string, TopicData)>, listed: seq<(string, int)>)
    requires forall i :: 0 <= i < |topics| ==> !topics[i].1.Count?
    requires forall i :: 0 <= i < |listed| ==> listed[i].1 > 0
    ensures TopicLines(topics, listed).Ok?
  {
    NoCountOnlyDivides(topics, listed);
  }

  lemma FoundIsStats(topics: seq<(string, TopicData)>, t: string)
    requires forall i :: 0 <= i < |topics| ==> !topics[i].1.Count?
    ensures Lookup(topics, t).Some? ==> !Lookup(topics, t).value.Count?
  {
    if Lookup(topics, t).Some? {
      var j :| 0 <= j < |topics| && topics[j] == (t, Lookup(topics, t).value);
    }
  }
}

=== FILE: ordering.dfy ===
/** Ordering helpers shared by the backend and the frontend: Python's
    `sorted(..., key=k, reverse=True)` and JavaScript's
    `arr.sort((a, b) => k(b) - k(a))` are both stable descending sorts, and
    Python's `s[:n]` and JavaScript's `s.slice(0, n)` both take a prefix. */
module Ordering {

  /** No element is followed by one with a larger key. */
  predicate NonIncreasing<T>(s: seq<T>, key: T -> int) {
    forall i, j :: 0 <= i < j < |s| ==> key(s[i]) >= key(s[j])
  }

  /** The elements of `s` whose key is `k`, in their order in `s`. */
  function WithKey<T>(s: seq<T>, key: T -> int, k: int): (r: seq<T>)
    ensures |r| <= |s|
  {
    if s == [] then []
    else (if key(s[0]) == k then [s[0]] else []) + WithKey(s[1..], key, k)
  }

  /** Places `x` before the first element of `s` whose key is not larger. */
  function InsertDesc<T>(x: T, s: seq<T>, key: T -> int): (r: seq<T>)
    requires NonIncreasing(s, key)
    ensures |r| == |s| + 1
    ensures multiset(r) == multiset(s) + multiset{x}
    ensures NonIncreasing(r, key)
  {
    if s == [] then [x]
    else if key(s[0]) <= key(x) then [x] + s
    else
      var t := InsertDesc(x, s[1..], key);
      assert s == [s[0]] + s[1..];
      HeadStaysFirst(x, s, t, key);
      [s[0]] + t
  }

  /** Putting the head back in front of the insertion into the tail keeps
      the order, since neither `x` nor the tail outranks the head. */
  lemma HeadStaysFirst<T>(x: T, s: seq<T>, t: seq<T>, key: T -> int)
    requires s != [] && NonIncreasing(s, key) && key(x) < key(s[0])
    requires multiset(t) == multiset(s[1..]) + multiset{x} && NonIncreasing(t, key)
    ensures NonIncreasing([s[0]] + t, key)
  {
    forall i | 0 <= i < |t|
      ensures key(t[i]) <= key(s[0])
    {
      assert t[i] in multiset(t);
      if t[i] != x {
        assert t[i] in multiset(s[1..]);
        var j :| 0 <= j < |s[1..]| && s[1..][j] == t[i];
        assert s[1..][j] == s[j + 1];
      }
    }
    var r := [s[0]] + t;
    forall i, j | 0 <= i < j < |r|
      ensures key(r[i]) >= key(r[j])
    {
      if i > 0 {
        assert r[i] == t[i - 1] && r[j] == t[j - 1];
      } else {
        assert r[j] == t[j - 1];
      }
    }
  }

  /** The stable descending sort: a permutation of `s`, non-increasing by
      key. Stability is stated by `SortDescStable`. */
  function SortDesc<T>(s: seq<T>, key: T -> int): (r: seq<T>)
    ensures |r| == |s|
    ensures multiset(r) == multiset(s)
    ensures NonIncreasing(r, key)
  {
    if s == [] then []
    else
      assert s == [s[0]] + s[1..];
      InsertDesc(s[0], SortDesc(s[1..], key), key)
  }

  lemma WithKeyCons<T>(a: T, t: seq<T>, key: T -> int, k: int)
    ensures WithKey([a] + t, key, k) == (if key(a) == k then [a] else []) + WithKey(t, key, k)
  {
    assert ([a] + t)[1..] == t;
  }

  lemma {:induction false} InsertDescWithKey<T>(x: T, s: seq<T>, key: T -> int, k: int)
    requires NonIncreasing(s, key)
    ensures WithKey(InsertDesc(x, s, key), key, k)
         == (if key(x) == k then [x] else []) + WithKey(s, key, k)
  {
    if s == [] {
      WithKeyCons(x, [], key, k);
    } else if key(s[0]) <= key(x) {
      WithKeyCons(x, s, key, k);
    } else {
      var t := InsertDesc(x, s[1..], key);
      InsertDescWithKey(x, s[1..], key, k);
      WithKeyCons(s[0], t, key, k);
      WithKeyCons(s[0], s[1..], key, k);
      assert s == [s[0]] + s[1..];
    }
  }

  /** Stability: among elements of equal key, the sort keeps the input
      order. */
  lemma {:induction false} SortDescStable<T>(s: seq<T>, key: T -> int, k: int)
    ensures WithKey(SortDesc(s, key), key, k) == WithKey(s, key, k)
  {
    if s != [] {
      SortDescStable(s[1..], key, k);
      InsertDescWithKey(s[0], SortDesc(s[1..], key), key, k);
    }
  }

  /** Python's `s[:n]` and JavaScript's `s.slice(0, n)`: a negative `n`
      counts from the end, and an `n` past the end takes everything. */
  function SliceTo<T>(s: seq<T>, n: int): (r: seq<T>)
    ensures n >= 0 ==> |r| == if n < |s| then n else |s|
    ensures n < 0 ==> |r| == if -n < |s| then |s| + n else 0
    ensures r == s[..|r|]
  {
    if n >= 0 then (if n < |s| then s[..n] else s)
    else if -n < |s| then s[..|s| + n]
    else []
  }

  /** A prefix of a non-increasing sequence is non-increasing. */
  lemma SliceNonIncreasing<T>(s: seq<T>, n: int, key: T -> int)
    requires NonIncreasing(s, key)
    ensures NonIncreasing(SliceTo(s, n), key)
  {
    var r := SliceTo(s, n);
    forall i, j | 0 <= i < j < |r| ensures key(r[i]) >= key(r[j]) {
      assert r[i] == s[i] && r[j] == s[j];
    }
  }

  /** In a non-increasing sequence, nothing after position `m` outranks
      anything before it. */
  lemma PrefixOutranksRest<T>(t: seq<T>, m: nat, key: T -> int)
    requires NonIncreasing(t, key) && m <= |t|
    ensures forall y, i | y in multiset(t[m..]) && 0 <= i < m :: key(y) <= key(t[i])
  {
    forall y, i | y in multiset(t[m..]) && 0 <= i < m ensures key(y) <= key(t[i]) {
      var j :| 0 <= j < |t[m..]| && t[m..][j] == y;
      assert t[m + j] == y;
    }
  }

  lemma PrefixMultiset<T>(t: seq<T>, m: nat)
    requires m <= |t|
    ensures multiset(t) - multiset(t[..m]) == multiset(t[m..])
    ensures multiset(t[..m]) <= multiset(t)
    ensures forall i | 0 <= i < m :: t[..m][i] in multiset(t)
  {
    assert t == t[..m] + t[m..];
  }

  /** The first `n` of a stable descending sort: at most `n` entries, drawn
      from `s`, in non-increasing key order; no element left out has a key
      larger than one kept. */
  function TopN<T>(s: seq<T>, key: T -> int, n: nat): (r: seq<T>)
    ensures |r| == if n < |s| then n else |s|
    ensures NonIncreasing(r, key)
    ensures multiset(r) <= multiset(s)
    ensures forall i | 0 <= i < |r| :: r[i] in multiset(s)
    ensures forall y, i | y in multiset(s) - multiset(r) && 0 <= i < |r| :: key(y) <= key(r[i])
  {
    var sorted := SortDesc(s, key);
    var r := SliceTo(sorted, n);
    SliceNonIncreasing(sorted, n, key);
    PrefixMultiset(sorted, |r|);
    PrefixOutranksRest(sorted, |r|, key);
    r
  }

  /** `sorted(s, reverse=True)[:n]` and `s.sort((a, b) => b - a).slice(0, n)`
      for any integer `n`: a prefix of the stable descending sort, so its
      entries come from `s` in non-increasing key order and nothing left out
      outranks anything kept. */
  function SortSlice<T>(s: seq<T>, key: T -> int, n: int): (r: seq<T>)
    ensures n >= 0 ==> |r| == if n < |s| then n else |s|
    ensures n < 0 ==> |r| == if -n < |s| then |s| + n else 0
    ensures NonIncreasing(r, key)
    ensures multiset(r) <= multiset(s)
    ensures forall i | 0 <= i < |r| :: r[i] in multiset(s)
    ensures forall y, i | y in multiset(s) - multiset(r) && 0 <= i < |r| :: key(y) <= key(r[i])
  {
    var sorted := SortDesc(s, key);
    var r := SliceTo(sorted, n);
    SliceNonIncreasing(sorted, n, key);
    PrefixMultiset(sorted, |r|);
    PrefixOutranksRest(sorted, |r|, key);
    r
  }

  /** What `SortSlice` keeps comes from `s`, and an element of `s` it
      leaves out does not outrank anything it keeps. */
  lemma SortSliceKeeps<T>(s: seq<T>, key: T -> int, n: int)
    ensures forall i :: 0 <= i < |SortSlice(s, key, n)| ==> SortSlice(s, key, n)[i] in s
    ensures forall x, i :: x in s && x !in SortSlice(s, key, n) && 0 <= i < |SortSlice(s, key, n)|
                           ==> key(x) <= key(SortSlice(s, key, n)[i])
  {
    var r := SortSlice(s, key, n);
    forall i | 0 <= i < |r| ensures r[i] in s {
      assert r[i] in multiset(s);
    }
    forall x, i | x in s && x !in r && 0 <= i < |r| ensures key(x) <= key(r[i]) {
      assert x in multiset(s) - multiset(r);
    }
  }

  /** The first element with key `k` heads the elements with key `k`. */
  lemma {:induction false} WithKeyHead<T>(s: seq<T>, key: T -> int, j: nat)
    requires j < |s|
    requires forall i :: 0 <= i < j ==> key(s[i]) != key(s[j])
    ensures WithKey(s, key, key(s[j])) != [] && WithKey(s, key, key(s[j]))[0] == s[j]
  {
    if j > 0 {
      WithKeyHead(s[1..], key, j - 1);
      WithKeyCons(s[0], s[1..], key, key(s[j]));
      assert s == [s[0]] + s[1..];
    } else {
      WithKeyCons(s[0], s[1..], key, key(s[0]));
      assert s == [s[0]] + s[1..];
    }
  }

  /** There is an earliest element of maximal key. */
  lemma {:induction false} FirstMaximal<T>(s: seq<T>, key: T -> int) returns (j: nat)
    requires s != []
    ensures j < |s|
    ensures forall i :: 0 <= i < |s| ==> key(s[i]) <= key(s[j])
    ensures forall i :: 0 <= i < j ==> key(s[i]) < key(s[j])
  {
    if |s| == 1 {
      j := 0;
    } else {
      var k := FirstMaximal(s[..|s| - 1], key);
      j := if key(s[|s| - 1]) > key(s[k]) then |s| - 1 else k;
    }
  }

  /** The head of the stable descending sort is the earliest element of
      maximal key: what `sorted(..., reverse=True)[0]` picks. */
  lemma SortDescHead<T>(s: seq<T>, key: T -> int) returns (j: nat)
    requires s != []
    ensures j < |s| && SortDesc(s, key)[0] == s[j]
    ensures forall i :: 0 <= i < |s| ==> key(s[i]) <= key(s[j])
    ensures forall i :: 0 <= i < j ==> key(s[i]) < key(s[j])
  {
    j := FirstMaximal(s, key);
    var sorted := SortDesc(s, key);
    var k := key(s[j]);
    // the head of the sort has the maximal key
    assert sorted[0] in multiset(s);
    var h :| 0 <= h < |s| && s[h] == sorted[0];
    assert s[j] in multiset(sorted);
    var m :| 0 <= m < |sorted| && sorted[m] == s[j];
    assert key(sorted[0]) == k;
    SortDescStable(s, key, k);
    WithKeyHead(s, key, j);
    WithKeyHead(sorted, key, 0);
  }

  /** `SortDescHead` in a form usable inside expressions. */
  lemma SortDescHeadExists<T>(s: seq<T>, key: T -> int)
    requires s != []
    ensures exists j :: (0 <= j < |s| && SortDesc(s, key)[0] == s[j]
      && (forall i :: 0 <= i < |s| ==> key(s[i]) <= key(s[j]))
      && (forall i :: 0 <= i < j ==> key(s[i]) < key(s[j])))
  {
    var j := SortDescHead(s, key);
  }
}

=== FILE: product_analysis.dfy ===
/** The data preparation of
    `frontend/src/components/insight/ProductAnalysisSection.js`: the
    good-topic and bad-topic rankings, the points handed to the quadrant
    chart, and the quadrant summary text. Rendering is left out. */
module ProductAnalysis {
  import opened Base
  import opened Text
  import opened Ordering
  import Aggregation

  /** One topic's statistics as the report stores them (`product_topics.topics`).
      The counts are always written by the aggregation stage; the rates, the
      summaries and the quadrant may be missing. */
  datatype TopicView = TopicView(
    good: int,
    neutral: int,
    bad: int,
    total: int,
    goodSummary: Option<string>,
    neutralBadSummary: Option<string>,
    mentionRate: Option<real>,
    goodRate: Option<real>,
    quadrant: Option<int>)

  /** The parts of `reportData` this section reads. A missing topic object
      is the empty sequence; entries keep the object's insertion order. */
  datatype ReportView = ReportView(
    topCount: Option<int>,
    topics: seq<(string, TopicView)>,
    totalReview: Option<int>,
    avgMention: Option<real>,
    avgSatisfaction: Option<real>,
    quadrantInsight: Option<string>,
    topicInsight: Option<string>)

  /** `top_topics_count || 5`: zero and absence both fall back to 5. */
  function TopNOf(topCount: Option<int>): (n: int)
    ensures topCount.Some? && topCount.value != 0 ==> n == topCount.value
    ensures topCount.None? || topCount.value == 0 ==> n == 5
  {
    match topCount
    case Some(v) => if v != 0 then v else 5
    case None => 5
  }

  // ---------------------------------------------------------------------
  // The two topic rankings

  /** A ranked entry: name, count and summary. */
  datatype Ranked = Ranked(name: string, value: int, summary: string)

  function Value(x: Ranked): int {
    x.value
  }

  /** Which ranking: by good reviews, or by neutral and bad reviews. */
  datatype Side = Good | NeutralBad

  /** The good ranking reads `好评摘要` and `好评 || 0`; the bad ranking
      reads `中差评摘要` and `(差评 || 0) + (中评 || 0)`. */
  function SummaryOf(side: Side, t: TopicView): Option<string> {
    match side
    case Good => t.goodSummary
    case NeutralBad => t.neutralBadSummary
  }

  function ValueOf(side: Side, t: TopicView): int {
    match side
    case Good => t.good
    case NeutralBad => t.bad + t.neutral
  }

  /** A topic's entry in a ranking. */
  function Entry(side: Side, t: (string, TopicView)): Ranked {
    Ranked(t.0, ValueOf(side, t.1), SummaryOf(side, t.1).GetOr(""))
  }

  /** `x` is the entry of some topic with a truthy summary. */
  predicate IsEntryOf(topics: seq<(string, TopicView)>, side: Side, x: Ranked) {
    exists t :: t in topics && Aggregation.Truthy(SummaryOf(side, t.1)) && x == Entry(side, t)
  }

  /** The ranking candidates: the topics whose summary is truthy, in
      object order. */
  function Candidates(topics: seq<(string, TopicView)>, side: Side): (r: seq<Ranked>)
    ensures |r| <= |topics|
    ensures forall x :: x in r ==> IsEntryOf(topics, side, x)
    ensures forall t :: t in topics && Aggregation.Truthy(SummaryOf(side, t.1)) ==> Entry(side, t) in r
  {
    if topics == [] then []
    else
      var rest := Candidates(topics[1..], side);
      assert forall t :: t in topics <==> t == topics[0] || t in topics[1..];
      if Aggregation.Truthy(SummaryOf(side, topics[0].1)) then [Entry(side, topics[0])] + rest else rest
  }

  /** `formatTopicGoodRateData` (side `Good`) and `formatTopicBadRateData`
      (side `NeutralBad`): the topics with a truthy summary, ranked by
      their count, most first, at most `topN` of them. */
  function Ranking(data: ReportView, side: Side): (r: seq<Ranked>)
    ensures forall i :: 0 <= i < |r| ==> IsEntryOf(data.topics, side, r[i])
    ensures NonIncreasing(r, Value)
    ensures var n := TopNOf(data.topCount);
      var c := Candidates(data.topics, side);
      n >= 0 ==> |r| == if n < |c| then n else |c|
    ensures forall i :: 0 <= i < |r| ==> r[i] in Candidates(data.topics, side)
    ensures forall x, i :: x in Candidates(data.topics, side) && x !in r && 0 <= i < |r| ==> Value(x) <= Value(r[i])
  {
    var c := Candidates(data.topics, side);
    SortSliceKeeps(c, Value, TopNOf(data.topCount));
    SortSlice(c, Value, TopNOf(data.topCount))
  }

  /** A topic with a truthy summary that the ranking leaves out never has
      a larger count than any topic it shows. */
  lemma RankingOmitsNoLarger(data: ReportView, side: Side, t: (string, TopicView), i: int)
    requires t in data.topics && Aggregation.Truthy(SummaryOf(side, t.1))
    requires Entry(side, t) !in Ranking(data, side) && 0 <= i < |Ranking(data, side)|
    ensures ValueOf(side, t.1) <= Ranking(data, side)[i].value
  {
    assert Entry(side, t) in Candidates(data.topics, side);
    assert Value(Entry(side, t)) == ValueOf(side, t.1);
  }

  /** `x` is the good-review entry of a topic with a truthy good summary. */
  predicate GoodEntry(topics: seq<(string, TopicView)>, x: Ranked) {
    exists t :: t in topics && Aggregation.Truthy(t.1.goodSummary) && x == Ranked(t.0, t.1.good, t.1.goodSummary.value)
  }

  /** `x` is the neutral-plus-bad entry of a topic with a truthy summary. */
  predicate BadEntry(topics: seq<(string, TopicView)>, x: Ranked) {
    exists t :: t in topics && Aggregation.Truthy(t.1.neutralBadSummary)
                && x == Ranked(t.0, t.1.bad + t.1.neutral, t.1.neutralBadSummary.value)
  }

  lemma GoodEntryOf(topics: seq<(string, TopicView)>, x: Ranked)
    requires IsEntryOf(topics, Good, x)
    ensures GoodEntry(topics, x)
  {
    var t :| t in topics && Aggregation.Truthy(SummaryOf(Good, t.1)) && x == Entry(Good, t);
    assert x == Ranked(t.0, t.1.good, t.1.goodSummary.value);
  }

  lemma BadEntryOf(topics: seq<(string, TopicView)>, x: Ranked)
    requires IsEntryOf(topics, NeutralBad, x)
    ensures BadEntry(topics, x)
  {
    var t :| t in topics && Aggregation.Truthy(SummaryOf(NeutralBad, t.1)) && x == Entry(NeutralBad, t);
    assert x == Ranked(t.0, t.1.bad + t.1.neutral, t.1.neutralBadSummary.value);
  }

  /** The good ranking lists good-review counts. */
  lemma GoodRanking(data: ReportView)
    ensures forall i :: 0 <= i < |Ranking(data, Good)| ==> GoodEntry(data.topics, Ranking(data, Good)[i])
  {
    var r := Ranking(data, Good);
    forall i | 0 <= i < |r|
      ensures GoodEntry(data.topics, r[i])
    {
      GoodEntryOf(data.topics, r[i]);
    }
  }

  /** The bad ranking lists neutral-plus-bad counts. */
  lemma BadRanking(data: ReportView)
    ensures forall i :: 0 <= i < |Ranking(data, NeutralBad)| ==> BadEntry(data.topics, Ranking(data, NeutralBad)[i])
  {
    var r := Ranking(data, NeutralBad);
    forall i | 0 <= i < |r|
      ensures BadEntry(data.topics, r[i])
    {
      BadEntryOf(data.topics, r[i]);
    }
  }

  // ---------------------------------------------------------------------
  // The quadrant chart's points

  /** A point of the chart, as percentages. */
  datatype Point = Point(name: string, x: real, y: real, count: int, quadrant: int, avgX: real, avgY: real)

  function Count(p: Point): int {
    p.count
  }

  /** `x || fallback` for a number: zero and absence take the fallback. */
  function OrElse(v: Option<real>, fallback: real): real {
    if v.Some? && v.value != 0.0 then v.value else fallback
  }

  /** `avg_… * 100 || 0`: an absent average (NaN in JavaScript) is 0. */
  function Percent(v: Option<real>): real {
    match v
    case Some(a) => a * 100.0
    case None => 0.0
  }

  /** The point of one topic before the averages are attached: the
      mention rate (else the share of reviews), the good-review rate (else
      good over total), the count and the stored quadrant (else 0). */
  function PointOf(data: ReportView, t: (string, TopicView)): (p: Point)
    ensures p.name == t.0 && p.count == t.1.total && p.quadrant == t.1.quadrant.GetOr(0)
  {
    var totalReview := if data.totalReview.Some? && data.totalReview.value != 0 then data.totalReview.value else 1;
    var total := if t.1.total != 0 then t.1.total else 1;
    Point(t.0,
          OrElse(t.1.mentionRate, t.1.total as real / totalReview as real) * 100.0,
          OrElse(t.1.goodRate, t.1.good as real / total as real) * 100.0,
          t.1.total,
          t.1.quadrant.GetOr(0),
          0.0, 0.0)
  }

  /** The chart shows a topic with more than ten mentions and a quadrant. */
  predicate Plotted(p: Point) {
    p.count > 10 && p.quadrant > 0
  }

  function PlottedPoints(data: ReportView, topics: seq<(string, TopicView)>): (r: seq<Point>)
    ensures forall p :: p in r ==> exists t :: t in topics && Plotted(PointOf(data, t)) && p == PointOf(data, t)
    ensures forall t :: t in topics && Plotted(PointOf(data, t)) ==> PointOf(data, t) in r
  {
    if topics == [] then []
    else
      var rest := PlottedPoints(data, topics[1..]);
      assert forall t :: t in topics <==> t == topics[0] || t in topics[1..];
      var p := PointOf(data, topics[0]);
      if Plotted(p) then [p] + rest else rest
  }

  const MaxPoints := 15

  /** The plotted points kept: most mentioned first, at most 15. */
  function Shown(data: ReportView): (r: seq<Point>)
    ensures var c := PlottedPoints(data, data.topics);
      |r| == if MaxPoints < |c| then MaxPoints else |c|
    ensures forall i :: 0 <= i < |r| ==> r[i] in PlottedPoints(data, data.topics)
    ensures NonIncreasing(r, Count)
    ensures forall p, i :: p in PlottedPoints(data, data.topics) && p !in r && 0 <= i < |r| ==> Count(p) <= Count(r[i])
  {
    var c := PlottedPoints(data, data.topics);
    SortSliceKeeps(c, Count, MaxPoints);
    SortSlice(c, Count, MaxPoints)
  }

  /** `{...item, avgX, avgY}` for every item. */
  function WithAverages(points: seq<Point>, ax: real, ay: real): (r: seq<Point>)
    ensures |r| == |points|
    ensures forall i :: 0 <= i < |r| ==> r[i] == points[i].(avgX := ax, avgY := ay)
  {
    seq(|points|, i requires 0 <= i < |points| => points[i].(avgX := ax, avgY := ay))
  }

  lemma WithAveragesFacts(points: seq<Point>, ax: real, ay: real)
    ensures forall p :: p in points ==> p.(avgX := ax, avgY := ay) in WithAverages(points, ax, ay)
  {
    forall p | p in points
      ensures p.(avgX := ax, avgY := ay) in WithAverages(points, ax, ay)
    {
      var i :| 0 <= i < |points| && points[i] == p;
      assert WithAverages(points, ax, ay)[i] == p.(avgX := ax, avgY := ay);
    }
  }

  /** `p` is the point of some topic, with the report's averages. */
  predicate IsPointOf(data: ReportView, p: Point) {
    exists t :: t in data.topics && p == PointOf(data, t).(avgX := Percent(data.avgMention), avgY := Percent(data.avgSatisfaction))
  }

  /** `formatQuadrantData`: the plotted topics, most mentioned first, at
      most 15, each carrying the report's averages as percentages. */
  function QuadrantData(data: ReportView): (r: seq<Point>)
    ensures |r| <= MaxPoints
    ensures var c := PlottedPoints(data, data.topics);
      |r| == if MaxPoints < |c| then MaxPoints else |c|
    ensures forall i :: 0 <= i < |r| ==> r[i].count > 10 && r[i].quadrant > 0
    ensures forall i :: 0 <= i < |r| ==>
      r[i].avgX == Percent(data.avgMention) && r[i].avgY == Percent(data.avgSatisfaction)
    ensures forall i :: 0 <= i < |r| ==> IsPointOf(data, r[i])
    ensures NonIncreasing(r, Count)
  {
    var shown := Shown(data);
    AveragedPoints(data, shown);
    WithAverages(shown, Percent(data.avgMention), Percent(data.avgSatisfaction))
  }

  lemma AveragedPoints(data: ReportView, shown: seq<Point>)
    requires forall i :: 0 <= i < |shown| ==> shown[i] in PlottedPoints(data, data.topics)
    requires NonIncreasing(shown, Count)
    ensures var r := WithAverages(shown, Percent(data.avgMention), Percent(data.avgSatisfaction));
      && (forall i :: 0 <= i < |r| ==> r[i].count > 10 && r[i].quadrant > 0)
      && (forall i :: 0 <= i < |r| ==> IsPointOf(data, r[i]))
      && NonIncreasing(r, Count)
  {
    var r := WithAverages(shown, Percent(data.avgMention), Percent(data.avgSatisfaction));
    forall i | 0 <= i < |r|
      ensures r[i].count > 10 && r[i].quadrant > 0 && IsPointOf(data, r[i])
    {
      assert shown[i] in PlottedPoints(data, data.topics);
      var t :| t in data.topics && Plotted(PointOf(data, t)) && shown[i] == PointOf(data, t);
      assert r[i] == PointOf(data, t).(avgX := Percent(data.avgMention), avgY := Percent(data.avgSatisfaction));
    }
    forall i, j | 0 <= i < j < |r|
      ensures Count(r[i]) >= Count(r[j])
    {
      assert Count(r[i]) == Count(shown[i]) && Count(r[j]) == Count(shown[j]);
    }
  }

  /** A plotted topic the chart leaves out never has more mentions than
      any topic it shows. */
  lemma QuadrantDataOmitsNoLarger(data: ReportView, t: (string, TopicView), i: int)
    requires t in data.topics && Plotted(PointOf(data, t))
    requires PointOf(data, t).(avgX := Percent(data.avgMention), avgY := Percent(data.avgSatisfaction)) !in QuadrantData(data)
    requires 0 <= i < |QuadrantData(data)|
    ensures t.1.total <= QuadrantData(data)[i].count
  {
    var shown := Shown(data);
    WithAveragesFacts(shown, Percent(data.avgMention), Percent(data.avgSatisfaction));
    assert PointOf(data, t) in PlottedPoints(data, data.topics);
    assert PointOf(data, t) !in shown;
    assert Count(PointOf(data, t)) <= Count(shown[i]);
  }

  // ---------------------------------------------------------------------
  // The quadrant summary

  /** The names of the points in quadrant `q`, in order. */
  function NamesIn(points: seq<Point>, q: int): (r: seq<string>)
    ensures |r| <= |points|
    ensures forall x :: x in r <==> exists p :: p in points && p.quadrant == q && x == p.name
  {
    if points == [] then []
    else
      var rest := NamesIn(points[1..], q);
      assert forall p :: p in points <==> p == points[0] || p in points[1..];
      (if points[0].quadrant == q then [points[0].name] else []) + rest
  }

  const Separator: char := '、'
  const NoTopic := "无"

  /** One quadrant's list: the names joined with '、', or '无' when that
      gives nothing. */
  function Listed(points: seq<Point>, q: int): (s: string)
    ensures NamesIn(points, q) == [] ==> s == NoTopic
  {
    var j := Join(NamesIn(points, q), [Separator]);
    if j == "" then NoTopic else j
  }

  /** A list of named topics reads back as exactly those names. */
  lemma ListedRoundTrip(points: seq<Point>, q: int)
    requires NamesIn(points, q) != []
    requires forall p :: p in points ==> p.name != "" && Separator !in p.name
    ensures Split(Listed(points, q), Separator) == NamesIn(points, q)
  {
    var names := NamesIn(points, q);
    assert forall k :: 0 <= k < |names| ==> names[k] in names;
    JoinStartsWithFirst(names, [Separator]);
    assert names[0] in names;
    SplitJoin(names, Separator);
  }

  const QuadrantHeadings: seq<string> := [
    "• 右上象限(优势话题): ",
    "• 右下象限(需改进话题): ",
    "• 左上象限(潜力话题): ",
    "• 左下象限(次要话题): "]

  const Closing := "建议重点关注需改进话题，并发挥优势话题的优势。"

  /** `quadrantData[0]?.avgX.toFixed(1) || 0`; number formatting is the
      parameter `fixed1`. */
  function AverageText(points: seq<Point>, x: bool, fixed1: real -> string): string {
    if points == [] then "0"
    else
      var s := fixed1(if x then points[0].avgX else points[0].avgY);
      if s == "" then "0" else s
  }

  /** The first line, naming both averages. */
  function IntroLine(ax: string, ay: string): string {
    "此四象限图展示了各话题的提及率与满意度关系，使用平均提及率(" + ax + "%)和平均好评率(" + ay + "%)划分象限。"
  }

  lemma IntroOneLine(ax: string, ay: string)
    requires '\n' !in ax && '\n' !in ay
    ensures '\n' !in IntroLine(ax, ay)
  {
    NotInConcat("此四象限图展示了各话题的提及率与满意度关系，使用平均提及率(", ax, '\n');
    NotInConcat("此四象限图展示了各话题的提及率与满意度关系，使用平均提及率(" + ax, "%)和平均好评率(", '\n');
    NotInConcat("此四象限图展示了各话题的提及率与满意度关系，使用平均提及率(" + ax + "%)和平均好评率(", ay, '\n');
    NotInConcat("此四象限图展示了各话题的提及率与满意度关系，使用平均提及率(" + ax + "%)和平均好评率(" + ay, "%)划分象限。", '\n');
  }

  /** The generated summary, line by line. */
  function SummaryLines(points: seq<Point>, fixed1: real -> string): (lines: seq<string>)
    ensures |lines| == 8
    ensures forall q :: 1 <= q <= 4 ==> lines[q + 1] == QuadrantHeadings[q - 1] + Listed(points, q)
  {
    [IntroLine(AverageText(points, true, fixed1), AverageText(points, false, fixed1)),
     "",
     QuadrantHeadings[0] + Listed(points, 1),
     QuadrantHeadings[1] + Listed(points, 2),
     QuadrantHeadings[2] + Listed(points, 3),
     QuadrantHeadings[3] + Listed(points, 4),
     "",
     Closing]
  }

  function GeneratedSummary(points: seq<Point>, fixed1: real -> string): string {
    Join(SummaryLines(points, fixed1), "\n")
  }

  /** `generateQuadrantSummary`: the stored quadrant insight when truthy,
      else the topic insight when truthy, else the generated text over the
      chart's points. */
  function QuadrantSummary(data: ReportView, fixed1: real -> string): (s: string)
    ensures Aggregation.Truthy(data.quadrantInsight) ==> s == data.quadrantInsight.value
    ensures !Aggregation.Truthy(data.quadrantInsight) && Aggregation.Truthy(data.topicInsight) ==> s == data.topicInsight.value
    ensures !Aggregation.Truthy(data.quadrantInsight) && !Aggregation.Truthy(data.topicInsight)
            ==> s == GeneratedSummary(QuadrantData(data), fixed1)
  {
    if Aggregation.Truthy(data.quadrantInsight) then data.quadrantInsight.value
    else if Aggregation.Truthy(data.topicInsight) then data.topicInsight.value
    else GeneratedSummary(QuadrantData(data), fixed1)
  }

  lemma NotInConcat(a: string, b: string, c: char)
    requires c !in a && c !in b
    ensures c !in a + b
  {
  }

  /** No line break in any list of names. */
  lemma ListedOneLine(points: seq<Point>, q: int)
    requires forall p :: p in points ==> '\n' !in p.name
    ensures '\n' !in Listed(points, q)
  {
    var names := NamesIn(points, q);
    forall k | 0 <= k < |names|
      ensures '\n' !in names[k]
    {
      assert names[k] in names;
    }
    JoinAvoids(names, [Separator], '\n');
  }

  /** The generated summary reads back line by line: line `q + 1` lists
      quadrant `q`, for quadrants 1 to 4 in order, provided no name or
      formatted average holds a line break. */
  lemma SummaryLinesRoundTrip(points: seq<Point>, fixed1: real -> string)
    requires forall p :: p in points ==> '\n' !in p.name
    requires forall v :: '\n' !in fixed1(v)
    ensures Split(GeneratedSummary(points, fixed1), '\n') == SummaryLines(points, fixed1)
    ensures forall q :: 1 <= q <= 4 ==>
      Split(GeneratedSummary(points, fixed1), '\n')[q + 1] == QuadrantHeadings[q - 1] + Listed(points, q)
  {
    LinesOneLine(points, fixed1);
    SplitJoin(SummaryLines(points, fixed1), '\n');
  }

  lemma LinesOneLine(points: seq<Point>, fixed1: real -> string)
    requires forall p :: p in points ==> '\n' !in p.name
    requires forall v :: '\n' !in fixed1(v)
    ensures forall k :: 0 <= k < |SummaryLines(points, fixed1)| ==> '\n' !in SummaryLines(points, fixed1)[k]
  {
    var lines := SummaryLines(points, fixed1);
    IntroOneLine(AverageText(points, true, fixed1), AverageText(points, false, fixed1));
    ClosingOneLine();
    forall k | 0 <= k < |lines|
      ensures '\n' !in lines[k]
    {
      if 2 <= k <= 5 {
        HeadedOneLine(points, k - 1);
      }
    }
  }

  lemma ClosingOneLine()
    ensures '\n' !in Closing
  {
  }

  lemma HeadingsOneLine(k: int)
    requires 0 <= k < 4
    ensures '\n' !in QuadrantHeadings[k]
  {
  }

  /** Lines 2 to 5: a heading and a list, neither holding a line break. */
  lemma HeadedOneLine(points: seq<Point>, q: int)
    requires 1 <= q <= 4
    requires forall p :: p in points ==> '\n' !in p.name
    ensures '\n' !in QuadrantHeadings[q - 1] + Listed(points, q)
  {
    ListedOneLine(points, q);
    HeadingsOneLine(q - 1);
    NotInConcat(QuadrantHeadings[q - 1], Listed(points, q), '\n');
  }
}

=== FILE: profiles.dfy ===
/** The user-profile half of the report: value counts per profile field,
    the most frequent value of each field, and the comment summaries of the
    thrill, pain and itch points. */
module Profiles {
  import opened Base
  import opened Tally
  import opened Ordering
  import opened Records
  import opened Comments
  import Aggregation


  /** The placeholder values the report leaves out. */
  predicate DroppedValue(v: Option<string>) {
    v == Some("未知") || v == Some("未指定") || v == Some("")
  }

  /** One `{"value": v, "count": n}` entry, with the summary attached later. */
  datatype ProfileEntry = ProfileEntry(value: Option<string>, count: nat, summary: Option<string>)

  function EntryCount(e: ProfileEntry): int {
    e.count
  }

  /** The values of `d` that are not placeholders, in order. */
  function KeptValues(d: seq<Option<string>>): (r: seq<Option<string>>)
    ensures forall v :: v in r <==> v in d && !DroppedValue(v)
    ensures NoDuplicates(d) ==> NoDuplicates(r)
  {
    if d == [] then []
    else
      var rest := KeptValues(d[1..]);
      assert forall v :: v in d <==> v == d[0] || v in d[1..];
      if DroppedValue(d[0]) then rest
      else
        assert NoDuplicates(d) ==> d[0] !in d[1..] && NoDuplicates(d[1..]) by {
          if NoDuplicates(d) {
            forall k | 0 <= k < |d[1..]| ensures d[1..][k] != d[0] {
              assert d[1..][k] == d[k + 1];
            }
          }
        }
        [d[0]] + rest
  }

  /** Dropping placeholders keeps the first-occurrence order. */
  lemma {:induction false} KeptValuesOrder(d: seq<Option<string>>, s: seq<Option<string>>)
    requires FirstOccurrenceOrder(d, s)
    ensures FirstOccurrenceOrder(KeptValues(d), s)
  {
    if d != [] {
      var t := d[1..];
      assert FirstOccurrenceOrder(t, s) by {
        assert forall i :: 0 <= i < |t| ==> t[i] == d[i + 1];
      }
      KeptValuesOrder(t, s);
      var rest := KeptValues(t);
      if !DroppedValue(d[0]) {
        HeadPrecedes(d, s, rest);
        var r := [d[0]] + rest;
        assert forall i :: 1 <= i < |r| ==> r[i] == rest[i - 1];
      }
    }
  }

  /** The head of `d` occurs first before any value drawn from its tail. */
  lemma HeadPrecedes(d: seq<Option<string>>, s: seq<Option<string>>, rest: seq<Option<string>>)
    requires d != [] && FirstOccurrenceOrder(d, s)
    requires forall v :: v in rest ==> v in d[1..]
    ensures forall j :: 0 <= j < |rest| ==> rest[j] in s && FirstAt(s, d[0]) < FirstAt(s, rest[j])
  {
    forall j | 0 <= j < |rest| ensures rest[j] in s && FirstAt(s, d[0]) < FirstAt(s, rest[j]) {
      assert rest[j] in d[1..];
      var m :| 0 <= m < |d[1..]| && d[1..][m] == rest[j];
      assert d[m + 1] == rest[j];
    }
  }

  /** The values of the entries, in order. */
  function EntryValues(r: seq<ProfileEntry>): seq<Option<string>> {
    seq(|r|, i requires 0 <= i < |r| => r[i].value)
  }

  /** `DataProcessor.profile_stats` for one field: one entry per distinct
      value among the in-scope documents (an absent field reads as ""), with
      its number of documents, except the placeholders "未知", "未指定" and
      "". A stored null is kept. */
  function ProfileCounts(store: Store, projectCode: string, solution: string, field: string): (r: seq<ProfileEntry>)
    ensures forall i :: 0 <= i < |r| ==>
      var vs := FieldValues(store, projectCode, solution, field);
      !DroppedValue(r[i].value) && r[i].count == Count(vs, r[i].value) && r[i].count > 0 && r[i].summary.None?
    ensures forall k :: 0 <= k < |FieldValues(store, projectCode, solution, field)| ==>
      var v := FieldValues(store, projectCode, solution, field)[k];
      !DroppedValue(v) ==> exists j :: 0 <= j < |r| && r[j].value == v
    ensures forall i, j :: 0 <= i < j < |r| ==> r[i].value != r[j].value
    ensures FirstOccurrenceOrder(EntryValues(r), FieldValues(store, projectCode, solution, field))
  {
    CountsOf(FieldValues(store, projectCode, solution, field))
  }

  /** The entries counting the kept distinct values of `vs`. */
  function CountsOf(vs: seq<Option<string>>): (r: seq<ProfileEntry>)
    ensures forall i :: 0 <= i < |r| ==>
      !DroppedValue(r[i].value) && r[i].count == Count(vs, r[i].value) && r[i].count > 0 && r[i].summary.None?
    ensures forall k :: 0 <= k < |vs| ==> !DroppedValue(vs[k]) ==> exists j :: 0 <= j < |r| && r[j].value == vs[k]
    ensures forall i, j :: 0 <= i < j < |r| ==> r[i].value != r[j].value
    ensures FirstOccurrenceOrder(EntryValues(r), vs)
  {
    var kept := KeptValues(Distinct(vs));
    DistinctOrder(vs);
    KeptValuesOrder(Distinct(vs), vs);
    assert forall v :: v in kept <==> v in vs && !DroppedValue(v);
    var r := seq(|kept|, i requires 0 <= i < |kept| => ProfileEntry(kept[i], Count(vs, kept[i]), None));
    CountsCover(vs, kept, r);
    assert EntryValues(r) == kept;
    r
  }

  lemma CountsCover(vs: seq<Option<string>>, kept: seq<Option<string>>, r: seq<ProfileEntry>)
    requires forall v :: v in kept <==> v in vs && !DroppedValue(v)
    requires |r| == |kept|
    requires forall i :: 0 <= i < |r| ==> r[i].value == kept[i]
    ensures forall k :: 0 <= k < |vs| ==> !DroppedValue(vs[k]) ==> exists j :: 0 <= j < |r| && r[j].value == vs[k]
  {
    forall k | 0 <= k < |vs| && !DroppedValue(vs[k])
      ensures exists j :: 0 <= j < |r| && r[j].value == vs[k]
    {
      assert vs[k] in kept;
      var j :| 0 <= j < |kept| && kept[j] == vs[k];
      assert r[j].value == vs[k];
    }
  }

  /** `e` is the earliest entry of maximal count. */
  ghost predicate IsTopEntry(entries: seq<ProfileEntry>, e: ProfileEntry) {
    exists j :: 0 <= j < |entries| && e == entries[j]
      && (forall i :: 0 <= i < |entries| ==> entries[i].count <= entries[j].count)
      && (forall i :: 0 <= i < j ==> entries[i].count < entries[j].count)
  }

  /** `top_profile[field]`: the first entry of the count-descending stable
      sort, i.e. the earliest entry of maximal count; absent when the field
      has no entries. */
  function TopProfile(entries: seq<ProfileEntry>): (r: Option<ProfileEntry>)
    ensures r.None? <==> entries == []
    ensures r.Some? ==> IsTopEntry(entries, r.value)
  {
    if entries == [] then None
    else
      SortDescHeadExists(entries, EntryCount);
      Some(SortDesc(entries, EntryCount)[0])
  }

  /** The fields whose top values get a comment summary. */
  const SummaryFields := ["new_consumption_thrill_point", "new_consumption_pain_point", "new_consumption_itch_point"]

  /** For a summary field, the `n` most frequent values each get the
      summariser's text when it is non-empty. `summarize(v)` stands for
      sampling the comments whose profile has this value and asking the
      model. */
  function AttachProfileSummaries(entries: seq<ProfileEntry>, n: nat, summarize: Option<string> -> Option<string>): (r: seq<ProfileEntry>)
    ensures |r| == |entries|
    ensures forall i :: 0 <= i < |r| ==> r[i].value == entries[i].value && r[i].count == entries[i].count
    ensures forall i :: 0 <= i < |r| ==>
      r[i].summary == (if entries[i] in TopN(entries, EntryCount, n) && Aggregation.Truthy(summarize(entries[i].value))
                       then summarize(entries[i].value) else entries[i].summary)
  {
    var top := TopN(entries, EntryCount, n);
    seq(|entries|, i requires 0 <= i < |entries| =>
      var e := entries[i];
      if e in top && Aggregation.Truthy(summarize(e.value)) then e.(summary := summarize(e.value)) else e)
  }

  // ---------------------------------------------------------------------
  // User-profile stage

  /** The profile fields the report counts, in report order. */
  const ProfileFields := ["new_gender", "new_occupation", "new_consumption_scene",
    "new_consumption_frequency", "new_consumption_thrill_point",
    "new_consumption_pain_point", "new_consumption_itch_point"]

  /** The profile section of the report: the entries of every field, and
      the top entry of each field that has one. */
  datatype ProfileReport = ProfileReport(
    profiles: seq<(string, seq<ProfileEntry>)>,
    top: map<string, ProfileEntry>)

  /** The summary a value of `field` receives: `generate_summary` returns
      nothing when no document has the value, otherwise what the model says
      about the sampled comments (the parameter `summarize`). */
  function ValueSummary(store: Store, field: string, summarize: (string, Option<string>) -> Option<string>): Option<string> -> Option<string> {
    v => if CommentsFor(store, ByProfile(field, v)) == [] then None else summarize(field, v)
  }

  function FieldEntries(store: Store, projectCode: string, solution: string, field: string, n: nat,
                        summarize: (string, Option<string>) -> Option<string>): (r: seq<ProfileEntry>)
    ensures |r| == |ProfileCounts(store, projectCode, solution, field)|
    ensures forall i :: 0 <= i < |r| ==>
      r[i].value == ProfileCounts(store, projectCode, solution, field)[i].value
      && r[i].count == ProfileCounts(store, projectCode, solution, field)[i].count
    ensures forall i :: 0 <= i < |r| && r[i].summary.Some? ==>
      field in SummaryFields && r[i].summary.value != ""
      && r[i].summary == summarize(field, r[i].value)
      && CommentsFor(store, ByProfile(field, r[i].value)) != []
  {
    var entries := ProfileCounts(store, projectCode, solution, field);
    if field in SummaryFields then AttachProfileSummaries(entries, n, ValueSummary(store, field, summarize))
    else entries
  }

  /** The `top_profile` dictionary: every field with at least one entry,
      mapped to its `TopProfile`. */
  function TopProfiles(profiles: seq<(string, seq<ProfileEntry>)>): (r: map<string, ProfileEntry>)
    requires forall i, j :: 0 <= i < j < |profiles| ==> profiles[i].0 != profiles[j].0
    ensures forall k :: 0 <= k < |profiles| ==> (profiles[k].0 in r <==> profiles[k].1 != [])
    ensures forall k :: 0 <= k < |profiles| && profiles[k].0 in r ==> Some(r[profiles[k].0]) == TopProfile(profiles[k].1)
    ensures forall f :: f in r ==> exists k :: 0 <= k < |profiles| && profiles[k].0 == f
  {
    var r := TopMap(profiles);
    TopMapSpec(profiles);
    r
  }

  function TopMap(profiles: seq<(string, seq<ProfileEntry>)>): map<string, ProfileEntry>
    requires forall i, j :: 0 <= i < j < |profiles| ==> profiles[i].0 != profiles[j].0
  {
    map k | 0 <= k < |profiles| && profiles[k].1 != [] :: profiles[k].0 := TopProfile(profiles[k].1).value
  }

  lemma TopMapSpec(profiles: seq<(string, seq<ProfileEntry>)>)
    requires forall i, j :: 0 <= i < j < |profiles| ==> profiles[i].0 != profiles[j].0
    ensures var r := TopMap(profiles);
      (forall k :: 0 <= k < |profiles| ==> (profiles[k].0 in r <==> profiles[k].1 != []))
      && (forall k :: 0 <= k < |profiles| && profiles[k].0 in r ==> Some(r[profiles[k].0]) == TopProfile(profiles[k].1))
      && (forall f :: f in r ==> exists k :: 0 <= k < |profiles| && profiles[k].0 == f)
  {
    var r := TopMap(profiles);
    forall k | 0 <= k < |profiles|
      ensures profiles[k].0 in r <==> profiles[k].1 != []
      ensures profiles[k].0 in r ==> r[profiles[k].0] == TopProfile(profiles[k].1).value
    {
      if profiles[k].0 in r {
        var k' :| 0 <= k' < |profiles| && profiles[k'].1 != [] && profiles[k'].0 == profiles[k].0;
        assert k' == k;
      }
    }
  }

  /** `ReportGenerator.process_user_profiles`: the counts of every profile
      field; for the thrill, pain and itch points, a summary on each of the
      `n` most frequent values for which the model gives one; and per field
      the earliest entry of maximal count. */
  function ProcessUserProfiles(store: Store, projectCode: string, solution: string, n: nat,
                               summarize: (string, Option<string>) -> Option<string>): (r: ProfileReport)
    ensures |r.profiles| == |ProfileFields|
    ensures forall i :: 0 <= i < |ProfileFields| ==> r.profiles[i].0 == ProfileFields[i]
    ensures forall k :: 0 <= k < |r.profiles| ==> (r.profiles[k].0 in r.top <==> r.profiles[k].1 != [])
    ensures forall k :: 0 <= k < |r.profiles| && r.profiles[k].0 in r.top ==>
      Some(r.top[r.profiles[k].0]) == TopProfile(r.profiles[k].1)
  {
    var profiles := seq(|ProfileFields|, i requires 0 <= i < |ProfileFields| =>
      (ProfileFields[i], FieldEntries(store, projectCode, solution, ProfileFields[i], n, summarize)));
    ProfileFieldsDistinct();
    ProfileReport(profiles, TopProfiles(profiles))
  }

  /** The profile field names are pairwise distinct, so each has its own
      `top_profile` entry. */
  lemma ProfileFieldsDistinct()
    ensures forall i, j :: 0 <= i < j < |ProfileFields| ==> ProfileFields[i] != ProfileFields[j]
  {
    var f := ProfileFields;
    assert |f[0]| == 10 && |f[1]| == 14 && |f[2]| == 21 && |f[3]| == 25 && |f[4]| == 28;
    assert |f[5]| == 26 && |f[6]| == 26 && f[5][16] != f[6][16];
  }
}

=== FILE: quadrant_chart.dfy ===
/** The geometry of `frontend/src/components/chart/MermaidQuadrantChart.js`:
    the quadrant rule, the statistics that centre the chart, the clamped
    normalisation of a point and its pixel position. JavaScript numbers
    are exact reals here; the square root of the standard deviation is a
    parameter. */
module QuadrantChart {
  import opened Base
  import Aggregation
  import opened ReportTheme

  /** `determineQuadrant(x, y, avgX, avgY)`: 1 right-top, 2 right-bottom,
      3 left-top, 4 left-bottom, with a coordinate equal to its average
      counting as high. On percentages it is the backend's rule applied to
      the rates they scale. */
  function DetermineQuadrant(x: real, y: real, avgX: real, avgY: real): (q: int)
    ensures 1 <= q <= 4
    ensures (q == 1 || q == 2) <==> x >= avgX
    ensures (q == 1 || q == 3) <==> y >= avgY
    ensures q == Aggregation.QuadrantOf(x / 100.0, y / 100.0, avgX / 100.0, avgY / 100.0)
  {
    if x >= avgX && y >= avgY then 1
    else if x >= avgX && y < avgY then 2
    else if x < avgX && y >= avgY then 3
    else 4
  }

  /** The chart agrees with the report: on the percentages it plots (the
      backend's rates times 100) it assigns the quadrant the backend
      stored. */
  lemma AgreesWithBackend(mention: real, satisfaction: real, avgMention: real, avgSatisfaction: real)
    ensures DetermineQuadrant(100.0 * mention, 100.0 * satisfaction, 100.0 * avgMention, 100.0 * avgSatisfaction)
         == Aggregation.QuadrantOf(mention, satisfaction, avgMention, avgSatisfaction)
  {
  }

  /** `getQuadrantColor(q)`: the theme's label colour for quadrants 1 to 4,
      black for anything else (or for an empty colour). */
  function QuadrantColor(p: Palette, q: int): (c: string)
    requires |p.quadrantLabels| == 4
    ensures !(1 <= q <= 4) ==> c == "#000000"
    ensures 1 <= q <= 4 && p.quadrantLabels[q - 1] != "" ==> c == p.quadrantLabels[q - 1]
  {
    if 1 <= q <= 4 && p.quadrantLabels[q - 1] != "" then p.quadrantLabels[q - 1] else "#000000"
  }

  /** In both themes every quadrant has its own colour. */
  lemma QuadrantColorsDistinct(theme: string, q: int, r: int)
    requires 1 <= q <= 4 && 1 <= r <= 4 && q != r
    ensures QuadrantColor(Config(theme), q) != QuadrantColor(Config(theme), r)
  {
  }

  // ---------------------------------------------------------------------
  // calculateStatistics

  datatype Stats = Stats(avgX: real, avgY: real, stdX: real, stdY: real)

  function Xs(points: seq<(real, real)>): (r: seq<real>)
    ensures |r| == |points|
  {
    seq(|points|, i requires 0 <= i < |points| => points[i].0)
  }

  function Ys(points: seq<(real, real)>): (r: seq<real>)
    ensures |r| == |points|
  {
    seq(|points|, i requires 0 <= i < |points| => points[i].1)
  }

  /** The mean squared distance from `c`. */
  function MeanSquare(xs: seq<real>, c: real): real {
    Aggregation.Mean(seq(|xs|, i requires 0 <= i < |xs| => (xs[i] - c) * (xs[i] - c)))
  }

  /** `calculateStatistics(data)`: a supplied centre (both coordinates)
      is the average, with the spread measured around it, or 10 without
      data; with no centre and no data the chart centres on (50, 50) with
      spread 10; otherwise the averages are the data's means. */
  function Statistics(points: seq<(real, real)>, centerX: Option<real>, centerY: Option<real>,
                      sqrt: real -> real): (s: Stats)
    ensures centerX.Some? && centerY.Some? ==> s.avgX == centerX.value && s.avgY == centerY.value
    ensures centerX.Some? && centerY.Some? && points == [] ==> s.stdX == 10.0 && s.stdY == 10.0
    ensures !(centerX.Some? && centerY.Some?) && points == [] ==> s == Stats(50.0, 50.0, 10.0, 10.0)
    ensures !(centerX.Some? && centerY.Some?) && points != [] ==>
      s.avgX == Aggregation.Mean(Xs(points)) && s.avgY == Aggregation.Mean(Ys(points))
    ensures points != [] ==> s.stdX == sqrt(MeanSquare(Xs(points), s.avgX)) && s.stdY == sqrt(MeanSquare(Ys(points), s.avgY))
  {
    if centerX.Some? && centerY.Some? then
      if points != [] then
        Stats(centerX.value, centerY.value,
              sqrt(MeanSquare(Xs(points), centerX.value)), sqrt(MeanSquare(Ys(points), centerY.value)))
      else Stats(centerX.value, centerY.value, 10.0, 10.0)
    else if points == [] then Stats(50.0, 50.0, 10.0, 10.0)
    else
      var ax := Aggregation.Mean(Xs(points));
      var ay := Aggregation.Mean(Ys(points));
      Stats(ax, ay, sqrt(MeanSquare(Xs(points), ax)), sqrt(MeanSquare(Ys(points), ay)))
  }

  // ---------------------------------------------------------------------
  // pointToPosition

  function Clamp01(v: real): (r: real)
    ensures 0.0 <= r <= 1.0
    ensures 0.0 <= v <= 1.0 ==> r == v
  {
    if v < 0.0 then 0.0 else if v > 1.0 then 1.0 else v
  }

  /** One coordinate rescaled over `avg ± 3·std`, clamped to [0, 1] and
      mapped to [-1, 1]; 0 when the range is empty. */
  function Normalize(v: real, avg: real, std: real): (r: real)
    ensures -1.0 <= r <= 1.0
    ensures std <= 0.0 ==> r == 0.0
    ensures std > 0.0 && v <= avg - 3.0 * std ==> r == -1.0
    ensures std > 0.0 && v >= avg + 3.0 * std ==> r == 1.0
  {
    var lo := avg - 3.0 * std;
    var hi := avg + 3.0 * std;
    if hi > lo then
      var n := (v - lo) / (hi - lo);
      assert v <= lo ==> n <= 0.0 by {
        if v <= lo {
          DivSign(v - lo, hi - lo);
        }
      }
      assert v >= hi ==> n >= 1.0 by {
        if v >= hi {
          DivAtLeastOne(v - lo, hi - lo);
        }
      }
      Clamp01(n) * 2.0 - 1.0
    else 0.0
  }

  lemma DivSign(a: real, d: real)
    requires d > 0.0 && a <= 0.0
    ensures a / d <= 0.0
  {
  }

  lemma DivAtLeastOne(a: real, d: real)
    requires d > 0.0 && a >= d
    ensures a / d >= 1.0
  {
  }

  lemma DivMonotone(a: real, b: real, d: real)
    requires d > 0.0 && a <= b
    ensures a / d <= b / d
  {
  }

  /** The rescaling keeps order: a larger coordinate is never drawn
      nearer the low edge. */
  lemma NormalizeMonotone(v: real, w: real, avg: real, std: real)
    requires v <= w
    ensures Normalize(v, avg, std) <= Normalize(w, avg, std)
  {
    var lo := avg - 3.0 * std;
    var hi := avg + 3.0 * std;
    if hi > lo {
      DivMonotone(v - lo, w - lo, hi - lo);
    }
  }

  /** The average is drawn at the centre. */
  lemma NormalizeCentre(avg: real, std: real)
    ensures Normalize(avg, avg, std) == 0.0
  {
    if std > 0.0 {
      assert (avg - (avg - 3.0 * std)) / ((avg + 3.0 * std) - (avg - 3.0 * std)) == 0.5;
    }
  }

  function Abs(v: real): real {
    if v < 0.0 then -v else v
  }

  lemma ScaledBound(a: real, b: real)
    requires -1.0 <= a <= 1.0
    ensures -Abs(b) <= a * b <= Abs(b)
  {
    if b >= 0.0 {
      MulNonneg(1.0 - a, b);
      MulNonneg(1.0 + a, b);
    } else {
      MulNonneg(1.0 - a, -b);
      MulNonneg(1.0 + a, -b);
    }
  }

  lemma MulNonneg(x: real, y: real)
    requires x >= 0.0 && y >= 0.0
    ensures x * y >= 0.0
  {
  }

  datatype Position = Position(xPos: real, yPos: real, quadrant: int)

  const Padding: real := 50.0

  /** `pointToPosition(point, avgX, avgY, stdX, stdY, width, height)`:
      the pixel position lies within 80% of the half-width (half-height)
      of the plot area around its centre, and the quadrant is the one
      `determineQuadrant` gives. */
  function PointToPosition(x: real, y: real, st: Stats, width: real, height: real): (p: Position)
    ensures var chartWidth := width - 2.0 * Padding;
      var xCenter := Padding + chartWidth / 2.0;
      xCenter - 0.4 * Abs(chartWidth) <= p.xPos <= xCenter + 0.4 * Abs(chartWidth)
    ensures var chartHeight := height - 2.0 * Padding;
      var yCenter := height - Padding - chartHeight / 2.0;
      yCenter - 0.4 * Abs(chartHeight) <= p.yPos <= yCenter + 0.4 * Abs(chartHeight)
    ensures p.quadrant == DetermineQuadrant(x, y, st.avgX, st.avgY)
  {
    var chartWidth := width - 2.0 * Padding;
    var chartHeight := height - 2.0 * Padding;
    var xCenter := Padding + chartWidth / 2.0;
    var yCenter := height - Padding - chartHeight / 2.0;
    var xn := Normalize(x, st.avgX, st.stdX);
    var yn := Normalize(y, st.avgY, st.stdY);
    ScaledBound(xn, chartWidth);
    ScaledBound(yn, chartHeight);
    var dx := (xn * 0.8) * (chartWidth / 2.0);
    var dy := (yn * 0.8) * (chartHeight / 2.0);
    assert dx == 0.4 * (xn * chartWidth);
    assert dy == 0.4 * (yn * chartHeight);
    Position(xCenter + dx, yCenter - dy, DetermineQuadrant(x, y, st.avgX, st.avgY))
  }
}

=== FILE: records.dfy ===
/** The shape of one `llm_results` document as the correction and report
    stages read and write it. */
module Records {
  import opened Base

  /** One element of `product_topic_result`: string-valued keys such as
      "topic", "polarity" and, after correction, "new_topic". */
  type TopicItem = map<string, string>

  /** An `llm_results` document. `profile` is the `user_profile` sub-document
      (a value of `None` is a stored null; a missing key is an absent field);
      `topics` is `product_topic_result` when it is a list, `None` when it is
      absent; `correctionModel` is `second_correction_model`. */
  datatype Record = Record(
    id: nat,
    projectCode: string,
    solution: string,
    comment: string,
    profile: map<string, Option<string>>,
    topics: Option<seq<TopicItem>>,
    correctionModel: Option<string>)

  type Store = seq<Record>

  /** The `{"project_code": p, "solution": s}` filter every stage scopes by. */
  predicate InScope(r: Record, projectCode: string, solution: string) {
    r.projectCode == projectCode && r.solution == solution
  }

  /** `doc.get("user_profile", {}).get(field, "")`: an absent field reads as
      the empty string. */
  function ProfileValue(r: Record, field: string): (v: Option<string>)
    ensures field !in r.profile ==> v == Some("")
    ensures field in r.profile ==> v == r.profile[field]
  {
    if field in r.profile then r.profile[field] else Some("")
  }

  /** `item.get(key)`: `None` when the key is absent. */
  function ItemGet(item: TopicItem, key: string): (v: Option<string>)
    ensures v.Some? <==> key in item
    ensures v.Some? ==> v.value == item[key]
  {
    if key in item then Some(item[key]) else None
  }

  /** The documents of `store` in scope, in store order. */
  function Scoped(store: Store, projectCode: string, solution: string): (r: Store)
    ensures |r| <= |store|
    ensures forall i :: 0 <= i < |r| ==> r[i] in store && InScope(r[i], projectCode, solution)
    ensures forall i :: 0 <= i < |store| && InScope(store[i], projectCode, solution) ==> store[i] in r
  {
    if store == [] then []
    else
      var rest := Scoped(store[1..], projectCode, solution);
      assert forall i :: 1 <= i < |store| ==> store[i] == store[1..][i - 1];
      if InScope(store[0], projectCode, solution) then [store[0]] + rest else rest
  }

  /** How many documents of `store` differ from their counterpart in `next`:
      the number of documents an update changed. */
  function CountChanged(store: Store, next: Store): (n: nat)
    requires |next| == |store|
    ensures n <= |store|
    ensures n == 0 <==> store == next
  {
    if store == [] then 0
    else
      assert store == [store[0]] + store[1..] && next == [next[0]] + next[1..];
      (if store[0] != next[0] then 1 else 0) + CountChanged(store[1..], next[1..])
  }

  /** The value of `field` in each in-scope document, in store order, with
      an absent field read as the empty string. */
  function FieldValues(store: Store, projectCode: string, solution: string, field: string): (vs: seq<Option<string>>)
    ensures |vs| == |Scoped(store, projectCode, solution)|
    ensures forall i :: 0 <= i < |vs| ==> vs[i] == ProfileValue(Scoped(store, projectCode, solution)[i], field)
  {
    var docs := Scoped(store, projectCode, solution);
    seq(|docs|, i requires 0 <= i < |docs| => ProfileValue(docs[i], field))
  }
}

=== FILE: report_theme.dfy ===
/** The report-theme state of `frontend/src/context/ReportThemeContext.js`:
    the current theme, its configuration and the value persisted to local
    storage. Only the colours the modelled components read are kept from
    each configuration; writing CSS variables is left out. */
module ReportTheme {
  import opened Base

  const DarkGreen := "dark_green"
  const LightBlue := "light_blue"

  /** `Object.values(REPORT_THEMES)`, in declaration order. */
  const Themes: seq<string> := [DarkGreen, LightBlue]

  /** The colours of a theme configuration that the model reads.
      `quadrantLabels` are the label colours of quadrants 1 to 4. */
  datatype Palette = Palette(
    name: string,
    primary: string,
    success: string,
    warning: string,
    error: string,
    info: string,
    positive: string,
    negative: string,
    quadrantLabels: seq<string>)

  const DarkGreenConfig := Palette("暗黑绿", "#8AE65C", "#52C41A", "#FAAD14", "#FF3D3D", "#36CFC9",
                                   "#52C41A", "#FF3D3D", ["#52C41A", "#FAAD14", "#1890FF", "#D9D9D9"])

  const LightBlueConfig := Palette("浅色蓝", "#1890FF", "#52C41A", "#FAAD14", "#F5222D", "#1890FF",
                                   "#52C41A", "#F5222D", ["#52C41A", "#F5222D", "#1890FF", "#8C8C8C"])

  /** `themeConfigs[currentTheme] || themeConfigs[DARK_GREEN]`. */
  function Config(theme: string): (p: Palette)
    ensures theme == LightBlue ==> p == LightBlueConfig
    ensures theme != LightBlue ==> p == DarkGreenConfig
    ensures |p.quadrantLabels| == 4
  {
    if theme == LightBlue then LightBlueConfig else DarkGreenConfig
  }

  /** The provider's state after a render and its effect: the current
      theme and what local storage holds. */
  datatype ThemeState = ThemeState(current: string, persisted: Option<string>)

  /** The current theme is a known one, and it is what was persisted. */
  predicate Valid(s: ThemeState) {
    s.current in Themes && s.persisted == Some(s.current)
  }

  /** Mounting: a saved known theme is restored, anything else (nothing
      saved, or an unknown value) gives dark green; the effect then saves
      the current theme. */
  function Initial(saved: Option<string>): (s: ThemeState)
    ensures Valid(s)
    ensures saved.Some? && saved.value in Themes ==> s.current == saved.value
    ensures !(saved.Some? && saved.value in Themes) ==> s.current == DarkGreen
  {
    var current := if saved.Some? && saved.value != "" && saved.value in Themes then saved.value else DarkGreen;
    ThemeState(current, Some(current))
  }

  /** `changeTheme(theme)`: only a known theme replaces the state, and the
      effect saves it. */
  function ChangeTheme(s: ThemeState, theme: string): (r: ThemeState)
    requires Valid(s)
    ensures Valid(r)
    ensures theme in Themes ==> r.current == theme
    ensures theme !in Themes ==> r == s
  {
    if theme in Themes then ThemeState(theme, Some(theme)) else s
  }

  /** The state after mounting and a sequence of `changeTheme` calls. */
  function Run(saved: Option<string>, changes: seq<string>): (s: ThemeState)
    ensures Valid(s)
  {
    if changes == [] then Initial(saved)
    else ChangeTheme(Run(saved, changes[..|changes| - 1]), changes[|changes| - 1])
  }

  /** The last known theme requested, if any. */
  function LastKnown(changes: seq<string>): (r: Option<string>)
    ensures r.Some? ==> r.value in Themes && r.value in changes
  {
    if changes == [] then None
    else if changes[|changes| - 1] in Themes then Some(changes[|changes| - 1])
    else LastKnown(changes[..|changes| - 1])
  }

  /** After any sequence of calls the current theme is the last known
      theme requested, or the restored one when none was; unknown requests
      are ignored. */
  lemma {:induction false} RunMeaning(saved: Option<string>, changes: seq<string>)
    ensures Run(saved, changes).current
         == match LastKnown(changes)
            case Some(t) => t
            case None => Initial(saved).current
  {
    if changes != [] {
      RunMeaning(saved, changes[..|changes| - 1]);
    }
  }

  /** `themeOptions`: one entry per theme, in order, labelled with its
      configuration's name. */
  function ThemeOptions(): (r: seq<(string, string)>)
    ensures |r| == |Themes|
    ensures forall i :: 0 <= i < |r| ==> r[i] == (Themes[i], Config(Themes[i]).name)
  {
    seq(|Themes|, i requires 0 <= i < |Themes| => (Themes[i], Config(Themes[i]).name))
  }

  /** The options' labels are distinct, so a selector never shows two
      themes alike. */
  lemma ThemeLabelsDistinct()
    ensures ThemeOptions()[0].1 != ThemeOptions()[1].1
  {
    assert ThemeOptions()[0].1 == "暗黑绿" && ThemeOptions()[1].1 == "浅色蓝";
    assert "暗黑绿"[0] != "浅色蓝"[0];
  }
}

=== FILE: retry.dfy ===
/** `api_call_with_retry(max_retries, initial_delay)`, the decorator that
    retries a failing call with exponential back-off and jitter. The
    wrapped call is an oracle: `attempt(k)` is what the `k`-th call (from
    0) returns or raises, and `jitter(k)` is the `random.random()` drawn
    before the `k`-th retry. Sleeping is recorded, not performed. */
module Retry {
  import opened Base

  /** What one call of the wrapped function does. */
  datatype Outcome<T> = Returned(value: T) | Threw(error: string)

  /** The wrapper's behaviour once `k` calls have failed: call again while
      `k <= max_retries`, return the first value, and re-raise the failure
      that exhausts the budget. The loop is never entered when
      `max_retries` is negative, and the wrapper then returns `None`. */
  function RetryFrom<T>(attempt: nat -> Outcome<T>, k: nat, maxRetries: int): (r: Outcome<Option<T>>)
    decreases maxRetries + 1 - k
  {
    if k > maxRetries then Returned(None)
    else match attempt(k)
      case Returned(v) => Returned(Some(v))
      case Threw(e) => if k + 1 > maxRetries then Threw(e) else RetryFrom(attempt, k + 1, maxRetries)
  }

  /** The wrapper of `token_logger.py` and `1-first_label.py`, as the loop
      it is. Returns the outcome, the number of calls made and the sleeps
      between them. */
  method CallWithRetry<T>(attempt: nat -> Outcome<T>, jitter: nat -> real, maxRetries: int, initialDelay: real)
      returns (out: Outcome<Option<T>>, calls: nat, sleeps: seq<real>)
    requires forall k :: 0.0 <= jitter(k) < 1.0
    requires initialDelay >= 0.0
    ensures out == RetryFrom(attempt, 0, maxRetries)
    ensures maxRetries < 0 ==> out == Returned(None) && calls == 0
    ensures maxRetries >= 0 ==> 1 <= calls <= maxRetries + 1
    ensures forall k :: 0 <= k < calls - 1 ==> attempt(k).Threw?
    ensures out.Returned? && out.value.Some? ==> attempt(calls - 1) == Returned(out.value.value)
    ensures out.Threw? ==> calls == maxRetries + 1 && attempt(calls - 1) == Threw(out.error)
    ensures |sleeps| == if calls == 0 then 0 else calls - 1
    ensures SleepsInRange(sleeps, initialDelay)
  {
    var retries: nat := 0;
    sleeps := [];
    while retries <= maxRetries
      invariant retries > 0 ==> retries <= maxRetries
      invariant |sleeps| == retries
      invariant forall k :: 0 <= k < retries ==> attempt(k).Threw?
      invariant RetryFrom(attempt, 0, maxRetries) == RetryFrom(attempt, retries, maxRetries)
      invariant SleepsInRange(sleeps, initialDelay)
      decreases maxRetries + 1 - retries
    {
      RetryUnfold(attempt, retries, maxRetries);
      if attempt(retries).Returned? {
        out := Returned(Some(attempt(retries).value));
        calls := retries + 1;
        return;
      }
      if retries + 1 > maxRetries {
        out := Threw(attempt(retries).error);
        calls := retries + 1;
        return;
      }
      var s := SleepTime(Backoff(initialDelay, retries), jitter(retries));
      sleeps := AppendSleep(sleeps, s, initialDelay);
      retries := retries + 1;
    }
    out := Returned(None);
    calls := 0;
  }

  /** Every recorded sleep lies within the jitter range of its back-off. */
  predicate SleepsInRange(sleeps: seq<real>, initialDelay: real)
    requires initialDelay >= 0.0
  {
    forall k :: 0 <= k < |sleeps| ==>
      0.5 * Backoff(initialDelay, k) <= sleeps[k] <= 1.5 * Backoff(initialDelay, k)
  }

  /** One step of the wrapper's loop, for a call within the budget. */
  lemma RetryUnfold<T>(attempt: nat -> Outcome<T>, k: nat, maxRetries: int)
    requires k <= maxRetries
    ensures attempt(k).Returned? ==> RetryFrom(attempt, k, maxRetries) == Returned(Some(attempt(k).value))
    ensures attempt(k).Threw? && k + 1 > maxRetries ==> RetryFrom(attempt, k, maxRetries) == Threw(attempt(k).error)
    ensures attempt(k).Threw? && k + 1 <= maxRetries ==> RetryFrom(attempt, k, maxRetries) == RetryFrom(attempt, k + 1, maxRetries)
  {
  }

  /** Recording the sleep before the next retry keeps every sleep within
      its jitter range. */
  function AppendSleep(sleeps: seq<real>, s: real, initialDelay: real): (r: seq<real>)
    requires initialDelay >= 0.0
    requires SleepsInRange(sleeps, initialDelay)
    requires 0.5 * Backoff(initialDelay, |sleeps|) <= s <= 1.5 * Backoff(initialDelay, |sleeps|)
    ensures |r| == |sleeps| + 1 && r[|sleeps|] == s
    ensures SleepsInRange(r, initialDelay)
  {
    sleeps + [s]
  }

  /** `delay * 2 ** (retries - 1) * (0.5 + random.random())`: between half
      and one and a half times the back-off. */
  function SleepTime(backoff: real, j: real): (s: real)
    requires backoff >= 0.0 && 0.0 <= j < 1.0
    ensures 0.5 * backoff <= s <= 1.5 * backoff
  {
    JitterBound(backoff, j);
    backoff * (0.5 + j)
  }

  lemma JitterBound(backoff: real, j: real)
    requires backoff >= 0.0 && 0.0 <= j < 1.0
    ensures 0.5 * backoff <= backoff * (0.5 + j) <= 1.5 * backoff
  {
    assert backoff * (0.5 + j) == 0.5 * backoff + backoff * j;
    assert 0.0 <= backoff * j <= backoff;
  }

  /** The back-off before the `k`-th retry (from 0): `initial_delay`
      doubled `k` times. */
  function Backoff(initialDelay: real, k: nat): (b: real)
    requires initialDelay >= 0.0
    ensures b >= 0.0
  {
    if k == 0 then initialDelay else 2.0 * Backoff(initialDelay, k - 1)
  }

  /** The message Python gives for the missing module name. */
  const NameErrorRandom := "NameError: name 'random' is not defined"

  /** The wrapper of `2-second_data_correction.py`: the same loop, but its
      back-off reads `random`, which that module imports only inside
      `main`. The first failure that would be retried raises `NameError`
      from the handler instead: the wrapper either behaves as intended or
      raises `NameError`, and it only ever returns the first call's value. */
  function RetryAsWritten<T>(attempt: nat -> Outcome<T>, maxRetries: int): (r: Outcome<Option<T>>)
    ensures r == RetryFrom(attempt, 0, maxRetries) || r == Threw(NameErrorRandom)
    ensures r.Returned? && r.value.Some? ==> attempt(0) == Returned(r.value.value)
  {
    if maxRetries < 0 then Returned(None)
    else match attempt(0)
      case Returned(v) => Returned(Some(v))
      case Threw(e) => if 1 > maxRetries then Threw(e) else Threw(NameErrorRandom)
  }

  /** As written, the wrapper never makes a second call: a first failure
      with retries left ends in `NameError`, whatever the later calls
      would have done. */
  lemma AsWrittenNeverRetries<T>(attempt: nat -> Outcome<T>, maxRetries: int)
    requires maxRetries >= 1 && attempt(0).Threw?
    ensures RetryAsWritten(attempt, maxRetries) == Threw(NameErrorRandom)
  {
  }

  /** The input that shows it: the decorator's default of three retries, a
      first call that times out and a second that succeeds. The intended
      wrapper returns the second call's value. */
  lemma AsWrittenLosesRecovery()
    ensures var attempt := (k: nat) => if k == 0 then Threw("timeout") else Returned(42);
      RetryAsWritten(attempt, 3) == Threw(NameErrorRandom)
      && RetryFrom(attempt, 0, 3) == Returned(Some(42))
  {
  }

  /** The intended wrapper recovers from any run of failures shorter than
      the budget: if some call within the first `max_retries + 1`
      succeeds, the first such call's value is returned. */
  lemma {:induction false} RetryRecovers<T>(attempt: nat -> Outcome<T>, k: nat, j: nat, maxRetries: int)
    requires k <= j <= maxRetries && attempt(j).Returned?
    requires forall i :: k <= i < j ==> attempt(i).Threw?
    ensures RetryFrom(attempt, k, maxRetries) == Returned(Some(attempt(j).value))
    decreases j - k
  {
    if k < j {
      RetryRecovers(attempt, k + 1, j, maxRetries);
    }
  }

  /** When the two agree: without a failure on the first call, or without
      retries to spend, the module's wrapper behaves as intended. */
  lemma AsWrittenAgreesWithoutRetry<T>(attempt: nat -> Outcome<T>, maxRetries: int)
    requires attempt(0).Returned? || maxRetries <= 0
    ensures RetryAsWritten(attempt, maxRetries) == RetryFrom(attempt, 0, maxRetries)
  {
  }
}

=== FILE: tally.dfy ===
/** Python's `collections.Counter` as the source uses it: values are counted
    in scan order and reported in order of first occurrence. */
module Tally {

  /** How often `v` occurs in `s`. */
  function Count<T(==)>(s: seq<T>, v: T): (n: nat)
    ensures n <= |s|
    ensures n == 0 <==> v !in s
  {
    if s == [] then 0
    else Count(s[..|s| - 1], v) + (if s[|s| - 1] == v then 1 else 0)
  }

  /** No element occurs twice. */
  predicate NoDuplicates<T(==)>(s: seq<T>) {
    forall i, j :: 0 <= i < j < |s| ==> s[i] != s[j]
  }

  /** Dropping the head keeps the elements distinct, and the head does
      not recur. */
  lemma NoDuplicatesTail<T>(s: seq<T>)
    requires s != [] && NoDuplicates(s)
    ensures NoDuplicates(s[1..]) && s[0] !in s[1..]
  {
    forall i, j | 0 <= i < j < |s[1..]| ensures s[1..][i] != s[1..][j] {
      assert s[1..][i] == s[i + 1] && s[1..][j] == s[j + 1];
    }
    forall k | 0 <= k < |s[1..]| ensures s[1..][k] != s[0] {
      assert s[1..][k] == s[k + 1];
    }
  }

  /** A new element put in front keeps the elements distinct. */
  lemma NoDuplicatesCons<T>(x: T, s: seq<T>)
    requires x !in s && NoDuplicates(s)
    ensures NoDuplicates([x] + s)
  {
    var r := [x] + s;
    forall i, j | 0 <= i < j < |r| ensures r[i] != r[j] {
      assert r[j] == s[j - 1];
      if i > 0 {
        assert r[i] == s[i - 1];
      }
    }
  }

  /** The distinct elements of `s`, in order of first occurrence: the keys of
      a `Counter` filled by scanning `s`. */
  function Distinct<T(==)>(s: seq<T>): (d: seq<T>)
    ensures NoDuplicates(d)
    ensures forall i :: 0 <= i < |d| ==> d[i] in s
    ensures forall i :: 0 <= i < |s| ==> s[i] in d
  {
    if s == [] then []
    else
      var d := Distinct(s[..|s| - 1]);
      assert forall i :: 0 <= i < |s| - 1 ==> s[i] == s[..|s| - 1][i];
      if s[|s| - 1] in d then d else d + [s[|s| - 1]]
  }

  /** The index of the first occurrence of `x` in `s`. */
  function FirstAt<T(==)>(s: seq<T>, x: T): (k: nat)
    requires x in s
    ensures k < |s| && s[k] == x
    ensures forall j :: 0 <= j < k ==> s[j] != x
  {
    if s[0] == x then 0
    else
      var k := FirstAt(s[1..], x);
      assert forall j :: 1 <= j <= k ==> s[j] == s[1..][j - 1];
      1 + k
  }

  /** The elements of `d` all occur in `s`, and in order of their first
      occurrence there. */
  predicate FirstOccurrenceOrder<T(==)>(d: seq<T>, s: seq<T>) {
    && (forall i :: 0 <= i < |d| ==> d[i] in s)
    && forall i, j :: 0 <= i < j < |d| ==> FirstAt(s, d[i]) < FirstAt(s, d[j])
  }

  /** Appending to `s` does not move the first occurrence of an element it
      already holds. */
  lemma FirstAtPrefix<T>(s: seq<T>, x: T)
    requires s != [] && x in s[..|s| - 1]
    ensures FirstAt(s, x) == FirstAt(s[..|s| - 1], x)
  {
    var p := s[..|s| - 1];
    var k := FirstAt(p, x);
    var m := FirstAt(s, x);
    assert s[k] == p[k];
    assert m <= k;
    assert p[m] == s[m];
    assert k <= m;
  }

  /** The keys of a `Counter` come in order of first occurrence. */
  lemma {:induction false} DistinctOrder<T>(s: seq<T>)
    ensures FirstOccurrenceOrder(Distinct(s), s)
  {
    if s != [] {
      var p := s[..|s| - 1];
      var x := s[|s| - 1];
      var d := Distinct(p);
      DistinctOrder(p);
      forall i | 0 <= i < |d| ensures d[i] in s && FirstAt(s, d[i]) == FirstAt(p, d[i]) {
        FirstAtPrefix(s, d[i]);
      }
      if x !in d {
        assert x !in p;
        assert FirstAt(s, x) == |s| - 1;
        assert Distinct(s) == d + [x];
      }
    }
  }

  /** `counter.items()` after counting `s`: one (value, count) pair per
      distinct value, in first-occurrence order. */
  function ValueCounts<T(==)>(s: seq<T>): (r: seq<(T, nat)>)
    ensures |r| == |Distinct(s)|
    ensures forall i :: 0 <= i < |r| ==> r[i].0 == Distinct(s)[i] && r[i].1 == Count(s, r[i].0)
  {
    CountsOf(Distinct(s), s)
  }

  function CountsOf<T(==)>(keys: seq<T>, s: seq<T>): (r: seq<(T, nat)>)
    ensures |r| == |keys|
    ensures forall i :: 0 <= i < |r| ==> r[i] == (keys[i], Count(s, keys[i]))
  {
    if keys == [] then [] else [(keys[0], Count(s, keys[0]))] + CountsOf(keys[1..], s)
  }

  /** The sum of the counts of `keys` in `s`. */
  function SumCounts<T(==)>(keys: seq<T>, s: seq<T>): nat {
    if keys == [] then 0 else SumCounts(keys[..|keys| - 1], s) + Count(s, keys[|keys| - 1])
  }

  /** The sum of the second components. */
  function SumSecond<T>(r: seq<(T, nat)>): nat {
    if r == [] then 0 else SumSecond(r[..|r| - 1]) + r[|r| - 1].1
  }

  /** Every counted element is reported once: the counts of a `Counter` add
      up to the number of values scanned. */
  lemma {:induction false} ValueCountsSum<T>(s: seq<T>)
    ensures SumSecond(ValueCounts(s)) == |s|
  {
    var d := Distinct(s);
    SumSecondCounts(d, s);
    DistinctCountsSum(s);
  }

  lemma {:induction false} SumSecondCounts<T>(keys: seq<T>, s: seq<T>)
    ensures SumSecond(CountsOf(keys, s)) == SumCounts(keys, s)
    decreases |keys|
  {
    if keys != [] {
      var init := keys[..|keys| - 1];
      SumSecondCounts(init, s);
      var r := CountsOf(keys, s);
      assert r[..|r| - 1] == CountsOf(init, s);
    }
  }

  /** Summing the counts of one more value found nowhere adds nothing;
      summing the counts over a scan that grew by one element adds one when
      that element is among the keys exactly once. */
  lemma {:induction false} SumCountsSnoc<T>(keys: seq<T>, s: seq<T>, x: T)
    requires NoDuplicates(keys)
    ensures SumCounts(keys, s + [x]) == SumCounts(keys, s) + (if x in keys then 1 else 0)
    decreases |keys|
  {
    if keys != [] {
      var init := keys[..|keys| - 1];
      var last := keys[|keys| - 1];
      SumCountsSnoc(init, s, x);
      assert (s + [x])[..|s + [x]| - 1] == s;
      assert x in keys <==> x in init || x == last by {
        assert keys == init + [last];
      }
      if x == last {
        assert x !in init;
      }
    }
  }

  lemma {:induction false} SumCountsAppendAbsent<T>(keys: seq<T>, v: T, s: seq<T>)
    requires v !in s
    ensures SumCounts(keys + [v], s) == SumCounts(keys, s)
  {
    assert (keys + [v])[..|keys + [v]| - 1] == keys;
  }

  lemma {:induction false} DistinctCountsSum<T>(s: seq<T>)
    ensures SumCounts(Distinct(s), s) == |s|
    decreases |s|
  {
    if s != [] {
      var p := s[..|s| - 1];
      var x := s[|s| - 1];
      var d := Distinct(p);
      DistinctCountsSum(p);
      assert s == p + [x];
      if x in d {
        SumCountsSnoc(d, p, x);
      } else {
        SumCountsSnoc(d, p, x);
        SumCountsAppendAbsent(d, x, p);
        SumCountsSnoc(d + [x], p, x);
        assert NoDuplicates(d + [x]);
        assert x in d + [x];
      }
    }
  }
}

=== FILE: text.dfy ===
/** String helpers with the semantics of the Python and JavaScript built-ins
    the source relies on: `str.strip`, `str.join`, `str.replace`, `split`,
    decimal rendering of integers and `parseInt(s, 16)`. */
module Text {
  import opened Base

  /** Python's `str.isspace` for one character (the characters `str.strip()`
      removes when called without arguments). */
  predicate IsSpace(c: char) {
    || c == ' ' || c == '\t' || c == '\n' || c == '\r'
    || c == '\U{000B}' || c == '\U{000C}'
    || ('\U{001C}' <= c <= '\U{001F}')
    || c == '\U{0085}' || c == '\U{00A0}' || c == '\U{1680}'
    || ('\U{2000}' <= c <= '\U{200A}')
    || c == '\U{2028}' || c == '\U{2029}' || c == '\U{202F}' || c == '\U{205F}' || c == '\U{3000}'
  }

  /** Every character is white space. */
  predicate AllSpace(s: string) {
    s == [] || (IsSpace(s[0]) && AllSpace(s[1..]))
  }

  lemma {:induction false} AllSpaceAt(s: string, k: nat)
    requires AllSpace(s) && k < |s|
    ensures IsSpace(s[k])
  {
    if k > 0 {
      AllSpaceAt(s[1..], k - 1);
    }
  }

  lemma {:induction false} AllSpaceAppend(a: string, b: string)
    requires AllSpace(a) && AllSpace(b)
    ensures AllSpace(a + b)
  {
    if a != [] {
      AllSpaceAppend(a[1..], b);
      assert (a + b)[1..] == a[1..] + b;
    } else {
      assert a + b == b;
    }
  }

  function StripLeft(s: string): (r: string)
    ensures |r| <= |s| && r == s[|s| - |r|..]
    ensures AllSpace(s[..|s| - |r|])
    ensures r != [] ==> !IsSpace(r[0])
  {
    if s == [] then s
    else if IsSpace(s[0]) then
      var r := StripLeft(s[1..]);
      assert s[1..][|s| - 1 - |r|..] == s[|s| - |r|..];
      assert s[..|s| - |r|][1..] == s[1..][..|s| - 1 - |r|];
      r
    else
      assert s[..0] == [];
      s
  }

  function StripRight(s: string): (r: string)
    ensures |r| <= |s| && r == s[..|r|]
    ensures AllSpace(s[|r|..])
    ensures r != [] ==> !IsSpace(r[|r| - 1])
  {
    if s == [] then s
    else if IsSpace(s[|s| - 1]) then
      var r := StripRight(s[..|s| - 1]);
      assert s[..|s| - 1][..|r|] == s[..|r|];
      assert s[|r|..] == s[..|s| - 1][|r|..] + [s[|s| - 1]];
      assert AllSpace([s[|s| - 1]]) by {
        assert [s[|s| - 1]][1..] == [];
      }
      AllSpaceAppend(s[..|s| - 1][|r|..], [s[|s| - 1]]);
      r
    else
      assert s[|s|..] == [];
      s
  }

  /** `r` is `s[i..j]` and only white space lies around it. */
  predicate TrimmedAt(s: string, r: string, i: int, j: int) {
    0 <= i <= j <= |s| && r == s[i..j] && AllSpace(s[..i]) && AllSpace(s[j..])
  }

  /** Python's `s.strip()`: the longest infix that neither starts nor ends
      with white space. */
  function Strip(s: string): (r: string)
    ensures exists i, j :: TrimmedAt(s, r, i, j)
    ensures r != [] ==> !IsSpace(r[0]) && !IsSpace(r[|r| - 1])
  {
    var l := StripLeft(s);
    var r := StripRight(l);
    TrimmedFrom(s, l, r);
    r
  }

  /** What `StripLeft` and then `StripRight` leave is an infix with only
      white space around it. */
  lemma TrimmedFrom(s: string, l: string, r: string)
    requires |l| <= |s| && l == s[|s| - |l|..] && AllSpace(s[..|s| - |l|])
    requires l != [] ==> !IsSpace(l[0])
    requires |r| <= |l| && r == l[..|r|] && AllSpace(l[|r|..])
    requires r != [] ==> !IsSpace(r[|r| - 1])
    ensures exists i, j :: TrimmedAt(s, r, i, j)
    ensures r != [] ==> !IsSpace(r[0]) && !IsSpace(r[|r| - 1])
  {
    assert s[|s| - |l| + |r|..] == l[|r|..];
    assert TrimmedAt(s, r, |s| - |l|, |s| - |l| + |r|);
    assert r != [] ==> r[0] == l[0];
  }

  /** A string that `str.strip()` reduces to nothing: the negation of the
      source's `s.strip() != ''` test. `BlankIffStripEmpty` ties it to
      `Strip`. */
  predicate IsBlank(s: string) {
    AllSpace(s)
  }

  /** A string strips to nothing exactly when every character is white space. */
  lemma BlankIffStripEmpty(s: string)
    ensures IsBlank(s) <==> Strip(s) == ""
  {
    var r := Strip(s);
    var i, j :| TrimmedAt(s, r, i, j);
    if r == [] {
      assert s == s[..i] + s[j..];
      AllSpaceAppend(s[..i], s[j..]);
    } else {
      assert r[0] == s[i] && !IsSpace(s[i]);
      if IsBlank(s) {
        AllSpaceAt(s, i);
      }
    }
  }

  /** Python's `sep.join(parts)` and JavaScript's `parts.join(sep)`. */
  function Join(parts: seq<string>, sep: string): (r: string)
    ensures parts == [] ==> r == ""
    ensures |parts| == 1 ==> r == parts[0]
  {
    if parts == [] then ""
    else if |parts| == 1 then parts[0]
    else parts[0] + sep + Join(parts[1..], sep)
  }

  /** A character found in neither the parts nor the separator is not in
      their join. */
  lemma {:induction false} JoinAvoids(parts: seq<string>, sep: string, c: char)
    requires c !in sep
    requires forall k :: 0 <= k < |parts| ==> c !in parts[k]
    ensures c !in Join(parts, sep)
  {
    if |parts| > 1 {
      JoinAvoids(parts[1..], sep, c);
    }
  }

  /** The join starts with the first part. */
  lemma {:induction false} JoinStartsWithFirst(parts: seq<string>, sep: string)
    requires parts != []
    ensures |parts[0]| <= |Join(parts, sep)| && Join(parts, sep)[..|parts[0]|] == parts[0]
  {
  }

  /** JavaScript's `s.split(c)` for a one-character separator: the pieces
      between separators, always at least one. */
  function Split(s: string, c: char): (r: seq<string>)
    ensures |r| >= 1
    ensures forall k :: 0 <= k < |r| ==> c !in r[k]
  {
    SplitFrom(s, c, "")
  }

  /** Splitting with the current (separator-free) piece `acc` still open. */
  function SplitFrom(s: string, c: char, acc: string): (r: seq<string>)
    requires c !in acc
    ensures |r| >= 1
    ensures forall k :: 0 <= k < |r| ==> c !in r[k]
    decreases |s|
  {
    if s == [] then [acc]
    else if s[0] == c then [acc] + SplitFrom(s[1..], c, "")
    else SplitFrom(s[1..], c, acc + [s[0]])
  }

  /** Joining separator-free pieces and splitting again gives the pieces
      back: `Split` inverts `Join`. */
  lemma {:induction false} SplitJoin(parts: seq<string>, c: char)
    requires |parts| >= 1
    requires forall k :: 0 <= k < |parts| ==> c !in parts[k]
    ensures Split(Join(parts, [c]), c) == parts
  {
    SplitFromJoin(parts, c, "");
    assert "" + parts[0] == parts[0];
    assert [parts[0]] + parts[1..] == parts;
  }

  lemma {:induction false} SplitFromJoin(parts: seq<string>, c: char, acc: string)
    requires |parts| >= 1
    requires c !in acc
    requires forall k :: 0 <= k < |parts| ==> c !in parts[k]
    ensures SplitFrom(Join(parts, [c]), c, acc) == [acc + parts[0]] + parts[1..]
    decreases |parts|, |parts[0]|
  {
    var p := parts[0];
    if p == [] {
      if |parts| == 1 {
        assert Join(parts, [c]) == [];
        assert acc + p == acc;
      } else {
        assert Join(parts, [c]) == [c] + Join(parts[1..], [c]);
        SplitFromJoin(parts[1..], c, "");
        assert "" + parts[1] == parts[1];
        assert [parts[1]] + parts[2..] == parts[1..];
        assert acc + p == acc;
      }
    } else {
      var rest := [p[1..]] + parts[1..];
      assert c !in p[1..] by {
        forall k | 0 <= k < |p[1..]| ensures p[1..][k] != c {
          assert p[1..][k] == p[k + 1];
        }
      }
      assert forall k :: 0 <= k < |rest| ==> c !in rest[k];
      if |parts| == 1 {
        assert Join(parts, [c]) == p;
        assert Join(rest, [c]) == p[1..];
      } else {
        assert Join(parts, [c]) == p + [c] + Join(parts[1..], [c]);
        assert rest[1..] == parts[1..];
        assert Join(rest, [c]) == p[1..] + [c] + Join(parts[1..], [c]);
      }
      assert Join(parts, [c]) == [p[0]] + Join(rest, [c]);
      assert Join(parts, [c])[0] == p[0] && p[0] != c;
      assert Join(parts, [c])[1..] == Join(rest, [c]);
      SplitFromJoin(rest, c, acc + [p[0]]);
      assert acc + [p[0]] + p[1..] == acc + p;
    }
  }

  /** Python's `s.replace(old, new)`: every non-overlapping occurrence of
      `old`, scanning left to right, is replaced. */
  function ReplaceAll(s: string, pat: string, rep: string): (r: string)
    requires pat != ""
    decreases |s|
  {
    if |s| < |pat| then s
    else if s[..|pat|] == pat then rep + ReplaceAll(s[|pat|..], pat, rep)
    else [s[0]] + ReplaceAll(s[1..], pat, rep)
  }

  /** `pat` starts at position `i` of `s`. */
  predicate OccursAt(s: string, pat: string, i: int) {
    0 <= i <= |s| - |pat| && s[i..i + |pat|] == pat
  }

  predicate Occurs(s: string, pat: string) {
    exists i | 0 <= i <= |s| - |pat| :: OccursAt(s, pat, i)
  }

  /** Replacing a pattern that does not occur leaves the string unchanged. */
  lemma {:induction false} ReplaceAbsent(s: string, pat: string, rep: string)
    requires pat != ""
    requires !Occurs(s, pat)
    ensures ReplaceAll(s, pat, rep) == s
    decreases |s|
  {
    if |s| >= |pat| {
      assert s[0..0 + |pat|] == s[..|pat|];
      assert !OccursAt(s, pat, 0);
      assert !Occurs(s[1..], pat) by {
        forall i | 0 <= i <= |s[1..]| - |pat|
          ensures !OccursAt(s[1..], pat, i)
        {
          assert s[1..][i..i + |pat|] == s[i + 1..i + 1 + |pat|];
          assert !OccursAt(s, pat, i + 1);
        }
      }
      ReplaceAbsent(s[1..], pat, rep);
    }
  }

  /** The decimal digits of a natural number, as `str(n)` and template
      literals render it. */
  function Decimal(n: nat): (r: string)
    ensures |r| >= 1
    ensures forall k :: 0 <= k < |r| ==> '0' <= r[k] <= '9'
    decreases n
  {
    if n < 10 then [DigitChar(n)] else Decimal(n / 10) + [DigitChar(n % 10)]
  }

  function DigitChar(d: nat): (c: char)
    requires d < 10
    ensures '0' <= c <= '9' && (c as int) - ('0' as int) == d
  {
    (('0' as int) + d) as char
  }

  /** Reads a string of decimal digits back as a number. */
  function ParseDecimal(s: string): nat
    requires forall k :: 0 <= k < |s| ==> '0' <= s[k] <= '9'
  {
    if s == [] then 0
    else 10 * ParseDecimal(s[..|s| - 1]) + ((s[|s| - 1] as int) - ('0' as int))
  }

  /** Reading the rendering back gives the number: `Decimal` loses nothing. */
  lemma {:induction false} DecimalRoundTrip(n: nat)
    ensures ParseDecimal(Decimal(n)) == n
    decreases n
  {
    if n >= 10 {
      var r := Decimal(n);
      assert r[..|r| - 1] == Decimal(n / 10);
      DecimalRoundTrip(n / 10);
    }
  }

  /** The decimal text of an integer, as JavaScript and Python print it. */
  function IntText(n: int): (r: string)
    ensures r != []
  {
    if n < 0 then "-" + Decimal(-n) else Decimal(n)
  }

  /** Text that does not start with white space is its own left strip. */
  lemma StripLeftKeeps(s: string)
    requires s != [] && !IsSpace(s[0])
    ensures StripLeft(s) == s
  {
  }

  /** The value of one hexadecimal digit (either case), if it is one. */
  function HexDigit(c: char): (r: Option<nat>)
    ensures r.Some? ==> r.value < 16
  {
    if '0' <= c <= '9' then Some((c as int) - ('0' as int))
    else if 'a' <= c <= 'f' then Some((c as int) - ('a' as int) + 10)
    else if 'A' <= c <= 'F' then Some((c as int) - ('A' as int) + 10)
    else None
  }

  predicate IsHexDigit(c: char) {
    HexDigit(c).Some?
  }

  /** The value of a string of hexadecimal digits. */
  function HexValue(s: string): nat
    requires forall k :: 0 <= k < |s| ==> IsHexDigit(s[k])
  {
    if s == [] then 0
    else
      assert IsHexDigit(s[|s| - 1]);
      16 * HexValue(s[..|s| - 1]) + HexDigit(s[|s| - 1]).value
  }

  /** Length of the longest prefix of hexadecimal digits. */
  function HexPrefixLength(s: string): (n: nat)
    ensures n <= |s|
    ensures forall k :: 0 <= k < n ==> IsHexDigit(s[k])
    ensures n < |s| ==> !IsHexDigit(s[n])
  {
    if s == [] || !IsHexDigit(s[0]) then 0 else 1 + HexPrefixLength(s[1..])
  }

  /** The value of the leading hexadecimal digits, or `None` when there
      are none. */
  function ParseHex(s: string): (r: Option<nat>)
    ensures r.None? <==> (s == [] || !IsHexDigit(s[0]))
  {
    var n := HexPrefixLength(s);
    if n == 0 then None else Some(HexValue(s[..n]))
  }

  /** Two hexadecimal digits denote a byte. */
  lemma HexPairBound(s: string)
    requires |s| == 2 && IsHexDigit(s[0]) && IsHexDigit(s[1])
    ensures ParseHex(s) == Some(16 * HexDigit(s[0]).value + HexDigit(s[1]).value)
    ensures ParseHex(s).value <= 255
  {
    assert HexPrefixLength(s) == 2 by {
      assert HexPrefixLength(s[1..]) == 1 + HexPrefixLength(s[2..]);
    }
    assert s[..2] == s;
    assert s[..1][..0] == [];
    assert HexValue(s[..1]) == HexDigit(s[0]).value;
  }
}

=== FILE: token_counter.dfy ===
/** `TokenCounter`, the token-usage accumulator that `token_logger.py`,
    `1-first_label.py` and `2-second_data_correction.py` each define with
    the same `add_usage` and `get_report`. Dictionaries keyed by model and
    by operation are association lists in insertion order. Timestamps and
    the project or version tag of the report are left out. */
module TokenCounter {
  import opened Base

  /** A dictionary from names to token totals, in insertion order. */
  type Tally = seq<(string, int)>

  predicate UniqueKeys(t: Tally) {
    forall i, j :: 0 <= i < j < |t| ==> t[i].0 != t[j].0
  }

  function SumValues(t: Tally): int {
    if t == [] then 0 else SumValues(t[..|t| - 1]) + t[|t| - 1].1
  }

  /** The value under `key`, 0 when absent. */
  function ValueOf(t: Tally, key: string): int {
    if t == [] then 0
    else if t[|t| - 1].0 == key then t[|t| - 1].1 + ValueOf(t[..|t| - 1], key)
    else ValueOf(t[..|t| - 1], key)
  }

  predicate HasKey(t: Tally, key: string) {
    exists i :: 0 <= i < |t| && t[i].0 == key
  }

  /** Adds `n` to the entry under `key`, which is present; every position
      keeps its key. */
  function AddAt(t: Tally, key: string, n: int): (r: Tally)
    requires UniqueKeys(t) && HasKey(t, key)
    ensures |r| == |t|
    ensures forall i :: 0 <= i < |t| ==> r[i].0 == t[i].0
    ensures SumValues(r) == SumValues(t) + n
    ensures ValueOf(r, key) == ValueOf(t, key) + n
    ensures forall k :: k != key ==> ValueOf(r, k) == ValueOf(t, k)
  {
    var init := t[..|t| - 1];
    var last := t[|t| - 1];
    assert t == init + [last];
    Snoc(init, last);
    if last.0 == key then
      AbsentValue(init, key);
      var r := init + [(key, last.1 + n)];
      Snoc(init, (key, last.1 + n));
      r
    else
      assert HasKey(init, key) by {
        var i :| 0 <= i < |t| && t[i].0 == key;
        assert i < |init| && init[i].0 == key;
      }
      var r0 := AddAt(init, key, n);
      Snoc(r0, last);
      r0 + [last]
  }

  /** One more entry adds its value to the sum and to its key. */
  lemma Snoc(s: Tally, p: (string, int))
    ensures SumValues(s + [p]) == SumValues(s) + p.1
    ensures forall k :: ValueOf(s + [p], k) == (if p.0 == k then p.1 else 0) + ValueOf(s, k)
  {
    assert (s + [p])[..|s|] == s;
  }

  /** `d[key] += n` if the key is present, `d[key] = n` otherwise: a new
      key goes last, as in a Python dict. */
  function AddTo(t: Tally, key: string, n: int): (r: Tally)
    requires UniqueKeys(t)
    ensures UniqueKeys(r)
    ensures SumValues(r) == SumValues(t) + n
    ensures ValueOf(r, key) == ValueOf(t, key) + n
    ensures forall k :: k != key ==> ValueOf(r, k) == ValueOf(t, k)
    ensures HasKey(t, key) ==> |r| == |t|
    ensures !HasKey(t, key) ==> r == t + [(key, n)]
  {
    if HasKey(t, key) then AddAt(t, key, n)
    else
      AbsentValue(t, key);
      Snoc(t, (key, n));
      t + [(key, n)]
  }

  lemma {:induction false} AbsentValue(t: Tally, key: string)
    requires forall i :: 0 <= i < |t| ==> t[i].0 != key
    ensures ValueOf(t, key) == 0
  {
    if t != [] {
      AbsentValue(t[..|t| - 1], key);
    }
  }

  /** The counter's fields. */
  datatype Counter = Counter(
    totalTokens: int,
    callCount: nat,
    byModel: Tally,
    byOperation: Tally,
    promptTokens: int,
    completionTokens: int)

  /** What `__init__` sets up. */
  const Init := Counter(0, 0, [], [], 0, 0)

  /** The per-model and per-operation totals each add up to the overall
      total. */
  predicate Valid(c: Counter) {
    UniqueKeys(c.byModel) && UniqueKeys(c.byOperation)
    && SumValues(c.byModel) == c.totalTokens && SumValues(c.byOperation) == c.totalTokens
  }

  /** One `add_usage(tokens, model, operation, prompt_tokens,
      completion_tokens)` call; `None` is Python's `None`. */
  datatype Usage = Usage(tokens: int, model: string, operation: string, prompt: Option<int>, completion: Option<int>)

  /** `add_usage`: a zero token count is falsy and changes nothing;
      otherwise the total, the call count and both dictionaries advance by
      the same amount, and the prompt and completion counters advance by
      the amounts given. */
  function AddUsage(c: Counter, u: Usage): (r: Counter)
    requires Valid(c)
    ensures Valid(r)
    ensures u.tokens == 0 ==> r == c
    ensures u.tokens != 0 ==>
      r.totalTokens == c.totalTokens + u.tokens && r.callCount == c.callCount + 1
      && ValueOf(r.byModel, u.model) == ValueOf(c.byModel, u.model) + u.tokens
      && ValueOf(r.byOperation, u.operation) == ValueOf(c.byOperation, u.operation) + u.tokens
      && (forall m :: m != u.model ==> ValueOf(r.byModel, m) == ValueOf(c.byModel, m))
      && (forall o :: o != u.operation ==> ValueOf(r.byOperation, o) == ValueOf(c.byOperation, o))
      && r.promptTokens == c.promptTokens + u.prompt.GetOr(0)
      && r.completionTokens == c.completionTokens + u.completion.GetOr(0)
  {
    if u.tokens == 0 then c
    else
      Counter(
        c.totalTokens + u.tokens,
        c.callCount + 1,
        AddTo(c.byModel, u.model, u.tokens),
        AddTo(c.byOperation, u.operation, u.tokens),
        c.promptTokens + u.prompt.GetOr(0),
        c.completionTokens + u.completion.GetOr(0))
  }

  /** The counter after a sequence of calls from `Init`. */
  function Replay(calls: seq<Usage>): (r: Counter)
    ensures Valid(r)
  {
    if calls == [] then Init else AddUsage(Replay(calls[..|calls| - 1]), calls[|calls| - 1])
  }

  /** The sum of the truthy calls' tokens and their number. */
  function TokenSum(calls: seq<Usage>): int {
    if calls == [] then 0 else TokenSum(calls[..|calls| - 1]) + calls[|calls| - 1].tokens
  }

  function Truthy(calls: seq<Usage>): nat {
    if calls == [] then 0 else Truthy(calls[..|calls| - 1]) + (if calls[|calls| - 1].tokens != 0 then 1 else 0)
  }

  /** The prompt (or completion) tokens reported by the truthy calls. */
  function PromptSum(calls: seq<Usage>): int {
    if calls == [] then 0
    else PromptSum(calls[..|calls| - 1]) + (if calls[|calls| - 1].tokens != 0 then calls[|calls| - 1].prompt.GetOr(0) else 0)
  }

  function CompletionSum(calls: seq<Usage>): int {
    if calls == [] then 0
    else CompletionSum(calls[..|calls| - 1]) + (if calls[|calls| - 1].tokens != 0 then calls[|calls| - 1].completion.GetOr(0) else 0)
  }

  /** After any sequence of calls: the total is the sum of all tokens (a
      zero adds nothing), the call count is the number of truthy calls, the
      prompt and completion counters sum what the truthy calls reported,
      and both dictionaries add up to the total. */
  lemma {:induction false} ReplayTotals(calls: seq<Usage>)
    ensures var c := Replay(calls);
      c.totalTokens == TokenSum(calls) && c.callCount == Truthy(calls)
      && c.promptTokens == PromptSum(calls) && c.completionTokens == CompletionSum(calls)
      && SumValues(c.byModel) == c.totalTokens && SumValues(c.byOperation) == c.totalTokens
  {
    if calls != [] {
      ReplayTotals(calls[..|calls| - 1]);
    }
  }

  /** The tokens of the calls made for model `m` (or operation `o`). */
  function ModelSum(calls: seq<Usage>, m: string): int {
    if calls == [] then 0
    else ModelSum(calls[..|calls| - 1], m) + (if calls[|calls| - 1].model == m then calls[|calls| - 1].tokens else 0)
  }

  function OperationSum(calls: seq<Usage>, o: string): int {
    if calls == [] then 0
    else OperationSum(calls[..|calls| - 1], o) + (if calls[|calls| - 1].operation == o then calls[|calls| - 1].tokens else 0)
  }

  /** Each model's entry holds exactly the tokens of the calls made for
      it; a model never used reads 0. */
  lemma {:induction false} ReplayByModel(calls: seq<Usage>, m: string)
    ensures ValueOf(Replay(calls).byModel, m) == ModelSum(calls, m)
  {
    if calls != [] {
      var init, u := calls[..|calls| - 1], calls[|calls| - 1];
      ReplayByModel(init, m);
      assert ModelSum(calls, m) == ModelSum(init, m) + (if u.model == m then u.tokens else 0);
      assert Replay(calls) == AddUsage(Replay(init), u);
    }
  }

  /** Each operation's entry holds exactly the tokens of the calls made
      for it; an operation never used reads 0. */
  lemma {:induction false} ReplayByOperation(calls: seq<Usage>, o: string)
    ensures ValueOf(Replay(calls).byOperation, o) == OperationSum(calls, o)
  {
    if calls != [] {
      var init, u := calls[..|calls| - 1], calls[|calls| - 1];
      ReplayByOperation(init, o);
      assert OperationSum(calls, o) == OperationSum(init, o) + (if u.operation == o then u.tokens else 0);
      assert Replay(calls) == AddUsage(Replay(init), u);
    }
  }

  /** The report fields the model keeps. Costs are exact products; the
      source rounds them to six places and the average to one. */
  datatype Report = Report(
    totalTokens: int,
    callCount: nat,
    averageTokensPerCall: real,
    byModel: Tally,
    byOperation: Tally,
    promptTokens: int,
    completionTokens: int,
    inputCost: real,
    outputCost: real,
    totalCost: real)

  /** The 70% share of a non-negative total: seven tenths of the total,
      rounded down. */
  function SeventyPercent(total: int): (p: int)
    requires total >= 0
    ensures 0 <= p <= total
    ensures 10 * p <= 7 * total < 10 * p + 10
  {
    (7 * total) / 10
  }

  /** `get_report`: when neither prompt nor completion tokens were
      recorded and the total is positive, it estimates them as 70% and the
      rest, storing the estimate in the counter; the average is 0 when
      nothing was counted. Returns the report and the counter after it. */
  function GetReport(c: Counter): (r: (Report, Counter))
    ensures var (rep, c') := r;
      c'.totalTokens == c.totalTokens && c'.callCount == c.callCount
      && c'.byModel == c.byModel && c'.byOperation == c.byOperation
      && rep.totalTokens == c.totalTokens && rep.callCount == c.callCount
      && rep.promptTokens == c'.promptTokens && rep.completionTokens == c'.completionTokens
      && (c.promptTokens == 0 && c.completionTokens == 0 && c.totalTokens > 0 ==>
            c'.promptTokens + c'.completionTokens == c.totalTokens
            && 0 <= c'.promptTokens <= c.totalTokens
            && 10 * c'.promptTokens <= 7 * c.totalTokens < 10 * c'.promptTokens + 10)
      && (!(c.promptTokens == 0 && c.completionTokens == 0 && c.totalTokens > 0) ==>
            c'.promptTokens == c.promptTokens && c'.completionTokens == c.completionTokens)
      && (c.callCount == 0 ==> rep.averageTokensPerCall == 0.0)
      && (c.callCount > 0 ==> rep.averageTokensPerCall * (c.callCount as real) == c.totalTokens as real)
      && rep.byModel == c.byModel && rep.byOperation == c.byOperation
      && rep.inputCost == rep.promptTokens as real * 0.0000015
      && rep.outputCost == rep.completionTokens as real * 0.000002
      && rep.totalCost == rep.inputCost + rep.outputCost
  {
    var c' := if c.promptTokens == 0 && c.completionTokens == 0 && c.totalTokens > 0
              then var p := SeventyPercent(c.totalTokens); c.(promptTokens := p, completionTokens := c.totalTokens - p)
              else c;
    var average := Ratio(c.totalTokens, c.callCount);
    var inputCost := (c'.promptTokens as real) * 0.0000015;
    var outputCost := (c'.completionTokens as real) * 0.000002;
    (Report(c'.totalTokens, c'.callCount, average, c'.byModel, c'.byOperation,
            c'.promptTokens, c'.completionTokens, inputCost, outputCost, inputCost + outputCost), c')
  }

  /** A second report changes nothing further: the estimate is made once. */
  lemma GetReportStable(c: Counter)
    ensures var c' := GetReport(c).1; GetReport(c').1 == c'
  {
  }
}

=== FILE: user_profile_section.dfy ===
/** The data preparation of
    `frontend/src/components/insight/UserProfileSection.js`: the per-field
    distributions read from `user_profile.profiles`, the ranked thrill,
    pain and itch points, the card lists and their percentages, and the
    bar colour per kind of point. Rendering is left out. */
module UserProfileSection {
  import opened Base
  import opened Text
  import opened Ordering
  import opened ReportTheme
  import ProductAnalysis

  const Gender := "new_gender"
  const Occupation := "new_occupation"
  const Scene := "new_consumption_scene"
  const Frequency := "new_consumption_frequency"
  const Thrill := "new_consumption_thrill_point"
  const Pain := "new_consumption_pain_point"
  const Itch := "new_consumption_itch_point"

  /** An entry's `count` as stored: a number, a string, or missing. */
  datatype CountField = CountNum(n: int) | CountStr(s: string) | CountAbsent

  /** One entry of a profile field's list. */
  datatype ProfileEntry = ProfileEntry(value: Option<string>, count: CountField, summary: Option<string>)

  /** `reportData.user_profile.profiles`: `None` when the report, its
      profile or the profiles object is missing. */
  type Profiles = Option<map<string, seq<ProfileEntry>>>

  /** A formatted row: `name`, `value` and, for points, `summary`. */
  datatype Row = Row(name: Option<string>, value: int, summary: Option<string>)

  function Value(r: Row): int {
    r.value
  }

  // ---------------------------------------------------------------------
  // parseInt(count, 10) || 0

  function DigitPrefixLength(s: string): (n: nat)
    ensures n <= |s|
    ensures forall k :: 0 <= k < n ==> '0' <= s[k] <= '9'
    ensures n < |s| ==> !('0' <= s[n] <= '9')
  {
    if s != [] && '0' <= s[0] <= '9' then 1 + DigitPrefixLength(s[1..]) else 0
  }

  /** The longest run of leading decimal digits, if there is one. */
  function ParseDigits(s: string): (r: Option<nat>)
    ensures r.None? <==> DigitPrefixLength(s) == 0
  {
    var n := DigitPrefixLength(s);
    if n == 0 then None else Some(ParseDecimal(s[..n]))
  }

  function Negate(r: Option<nat>): Option<int> {
    match r
    case Some(v) => var m: int := v; Some(-m)
    case None => None
  }

  /** `parseInt(s, 10)`: leading white space, an optional sign, then the
      longest run of decimal digits; `None` (NaN) when there are no
      digits. */
  function ParseInt(s: string): (r: Option<int>)
  {
    var t := StripLeft(s);
    if t != [] && t[0] == '-' then Negate(ParseDigits(t[1..]))
    else if t != [] && t[0] == '+' then
      match ParseDigits(t[1..])
      case Some(v) => Some(v)
      case None => None
    else
      match ParseDigits(t)
      case Some(v) => Some(v)
      case None => None
  }

  /** `parseInt(item.count, 10) || 0`: NaN and a missing count give 0. */
  function ParseCount(c: CountField): int {
    match c
    case CountNum(n) => n
    case CountStr(s) => ParseInt(s).GetOr(0)
    case CountAbsent => 0
  }

  lemma DigitPrefixAll(s: string)
    requires forall k :: 0 <= k < |s| ==> '0' <= s[k] <= '9'
    ensures DigitPrefixLength(s) == |s|
  {
  }

  /** The digits of a natural number read back as that number. */
  lemma ParseNatural(n: nat)
    ensures ParseInt(Decimal(n)) == Some(n)
  {
    var d := Decimal(n);
    assert '0' <= d[0] <= '9';
    StripLeftKeeps(d);
    ParseDigitsDecimal(n);
    assert StripLeft(d) == d && d[0] != '-' && d[0] != '+';
  }

  lemma ParseDigitsDecimal(n: nat)
    ensures ParseDigits(Decimal(n)) == Some(n)
  {
    var d := Decimal(n);
    DigitPrefixAll(d);
    assert d[..|d|] == d;
    DecimalRoundTrip(n);
  }

  /** A minus sign and the digits of a positive number read back as its
      negation. */
  lemma ParseNegative(n: int)
    requires n < 0
    ensures ParseInt("-" + Decimal(-n)) == Some(n)
  {
    var d := Decimal(-n);
    var s := "-" + d;
    StripLeftKeeps(s);
    assert s[1..] == d;
    ParseDigitsDecimal(-n);
  }

  /** A count stored as the decimal text of an integer reads back as that
      integer. */
  lemma ParseCountRoundTrip(n: int)
    ensures ParseCount(CountStr(IntText(n))) == n
    ensures ParseCount(CountNum(n)) == n
  {
    if n < 0 {
      ParseNegative(n);
    } else {
      ParseNatural(n);
    }
  }

  // ---------------------------------------------------------------------
  // The format helpers

  /** The list of one profile field, or `[]` when anything on the path is
      missing. */
  function Entries(profiles: Profiles, field: string): seq<ProfileEntry> {
    if profiles.Some? && field in profiles.value then profiles.value[field] else []
  }

  function RowOf(e: ProfileEntry, withSummary: bool): Row {
    Row(e.value, ParseCount(e.count), if withSummary then e.summary else None)
  }

  /** `formatGenderData`, `formatOccupationData`, `formatSceneData` and
      `formatFrequencyData` (and, with summaries, the first step of the
      point helpers): one row per entry, in order, named by the entry's
      value, counted by its parsed count, and carrying the entry's summary
      exactly when summaries are asked for; `[]` when the field is
      missing. */
  function Distribution(profiles: Profiles, field: string, withSummary: bool): (r: seq<Row>)
    ensures (profiles.None? || field !in profiles.value) ==> r == []
    ensures |r| == |Entries(profiles, field)|
    ensures forall i :: 0 <= i < |r| ==>
      r[i].name == Entries(profiles, field)[i].value
      && r[i].value == ParseCount(Entries(profiles, field)[i].count)
      && r[i].summary == (if withSummary then Entries(profiles, field)[i].summary else None)
  {
    var es := Entries(profiles, field);
    seq(|es|, i requires 0 <= i < |es| => RowOf(es[i], withSummary))
  }

  /** `formatThrillPointData`, `formatPainPointData` and
      `formatItchPointData`: the field's rows with summaries, most counted
      first, the first `topN` of them. */
  function Points(profiles: Profiles, field: string, topCount: Option<int>): (r: seq<Row>)
    ensures NonIncreasing(r, Value)
    ensures var n := ProductAnalysis.TopNOf(topCount);
      var all := Distribution(profiles, field, true);
      n >= 0 ==> |r| == if n < |all| then n else |all|
    ensures multiset(r) <= multiset(Distribution(profiles, field, true))
    ensures forall i :: 0 <= i < |r| ==> r[i] in Distribution(profiles, field, true)
    ensures forall x, i :: x in Distribution(profiles, field, true) && x !in r && 0 <= i < |r| ==> Value(x) <= Value(r[i])
  {
    var all := Distribution(profiles, field, true);
    SortSliceKeeps(all, Value, ProductAnalysis.TopNOf(topCount));
    SortSlice(all, Value, ProductAnalysis.TopNOf(topCount))
  }

  /** How many rows a distribution card shows: occupation and scene the
      first five; gender and frequency all of them. */
  function CardLimit(field: string): (n: int)
    ensures field == Occupation || field == Scene ==> n == 5
  {
    if field == Occupation || field == Scene then 5 else -1
  }

  /** A distribution card: the rows, most counted first; the occupation
      and scene cards keep the first five, the others keep every row. */
  function Card(profiles: Profiles, field: string): (r: seq<Row>)
    ensures NonIncreasing(r, Value)
    ensures multiset(r) <= multiset(Distribution(profiles, field, false))
    ensures field == Occupation || field == Scene ==> |r| == if 5 < |Entries(profiles, field)| then 5 else |Entries(profiles, field)|
    ensures field != Occupation && field != Scene ==> multiset(r) == multiset(Distribution(profiles, field, false))
    ensures forall y, i | y in multiset(Distribution(profiles, field, false)) - multiset(r) && 0 <= i < |r|
              :: Value(y) <= Value(r[i])
  {
    var all := Distribution(profiles, field, false);
    if field == Occupation || field == Scene then SortSlice(all, Value, CardLimit(field))
    else SortDesc(all, Value)
  }

  // ---------------------------------------------------------------------
  // Percentages

  function SumValues(rows: seq<Row>): int {
    if rows == [] then 0 else rows[0].value + SumValues(rows[1..])
  }

  /** `reduce((sum, i) => sum + i.value, 0) || 1`: a zero total divides
      by 1. */
  function Total(rows: seq<Row>): (t: int)
    ensures t != 0
    ensures SumValues(rows) != 0 ==> t == SumValues(rows)
  {
    var s := SumValues(rows);
    if s != 0 then s else 1
  }

  /** A row's percentage of the field's total (before `toFixed(1)`). */
  function Share(v: int, total: int): real
    requires total != 0
  {
    (v as real / total as real) * 100.0
  }

  function SumShares(rows: seq<Row>, total: int): real
    requires total != 0
  {
    if rows == [] then 0.0 else Share(rows[0].value, total) + SumShares(rows[1..], total)
  }

  lemma {:induction false} SumSharesScaled(rows: seq<Row>, total: int)
    requires total != 0
    ensures SumShares(rows, total) == (SumValues(rows) as real / total as real) * 100.0
  {
    if rows != [] {
      SumSharesScaled(rows[1..], total);
      DivAdd(rows[0].value as real, SumValues(rows[1..]) as real, total as real);
    }
  }

  lemma DivAdd(a: real, b: real, t: real)
    requires t != 0.0
    ensures (a / t) * 100.0 + (b / t) * 100.0 == ((a + b) / t) * 100.0
  {
  }

  /** The percentages of a card listing every row add up to 100 whenever
      the counts do not sum to zero. */
  lemma SharesSumToHundred(rows: seq<Row>)
    requires SumValues(rows) != 0
    ensures SumShares(rows, Total(rows)) == 100.0
  {
    SumSharesScaled(rows, Total(rows));
    var t := SumValues(rows) as real;
    assert t / t == 1.0;
  }

  // ---------------------------------------------------------------------
  // getStrokeColor

  /** The bar colour of a kind of point: thrill the positive colour, pain
      the negative colour, itch the info colour, anything else the
      primary colour. */
  function StrokeColor(p: Palette, kind: string): (c: string)
    ensures kind == "thrill" ==> c == p.positive
    ensures kind == "pain" ==> c == p.negative
    ensures kind == "itch" ==> c == p.info
    ensures kind != "thrill" && kind != "pain" && kind != "itch" ==> c == p.primary
  {
    if kind == "thrill" then p.positive
    else if kind == "pain" then p.negative
    else if kind == "itch" then p.info
    else p.primary
  }

  /** In both themes the three kinds of point get three different colours. */
  lemma StrokeColorsDistinct(theme: string)
    ensures var p := Config(theme);
      StrokeColor(p, "thrill") != StrokeColor(p, "pain")
      && StrokeColor(p, "pain") != StrokeColor(p, "itch")
      && StrokeColor(p, "thrill") != StrokeColor(p, "itch")
  {
    var p := Config(theme);
    assert StrokeColor(p, "thrill")[1] != StrokeColor(p, "pain")[1];
    assert StrokeColor(p, "pain")[1] != StrokeColor(p, "itch")[1];
    assert StrokeColor(p, "thrill")[1] != StrokeColor(p, "itch")[1];
  }
}
